=== FILE: README.md ===
# Video-chat desktop assistant — a Dafny model of its core

The application is an Electron desktop chat with a voice assistant. The user
speaks, and the speech becomes text, either in the browser (Web Speech API) or
by posting recorded audio to the main process. The main process asks a
rule-based "LLM" for an answer, speaks it with text-to-speech, and drives an
ASCII-art avatar. That avatar is served over HTTP and WebSocket by a small
noVNC-style server. A spoken phrase can also be a browser command (search,
fill a form, open a page, take a screenshot, click the n-th link), which a
Playwright service carries out. A log monitor watches the application log and
maps error lines to fixes. A configuration manager keeps a JSON settings file.

The model has one Dafny module per core source file:

- `Base` holds `Option` and `Result`.
- `Text` holds trimming, lower-casing, substring search, split and join, in the sense JavaScript's string methods give them.
- `Json` holds JavaScript values as a JSON tree, with truthiness.
- `PosixPath` holds Node's POSIX `path.join` (with its normalisation of `.`, `..` and repeated slashes), `basename` and `extname`.

Every operation is a pure function or a method over immutable datatypes. What
the operation asks of the outside world comes back as a list of effects:
messages shown, socket emissions, timers armed, recognizer starts. What the
outside world answers is a parameter:

- file contents, and whether a read or write failed;
- a port probe, and the listen outcome;
- Playwright's results;
- whether `getUserMedia` is granted;
- whether `recognition.start()` throws;
- the random pick.

Timers and callbacks become events, and the sequence of events is folded by a
`Run` function.

The code keeps no retry counter for recognition restarts and no per-user
sessions, and the model has neither. The two recognition modules treat errors
differently:

- In `speechRecognition.js`, `no-speech` is ignored and `not-allowed` adds a
  permission button. `network`, `aborted`, `audio-capture` and
  `service-not-allowed` switch to offline mode for good. Any other error is
  only reported. Once offline, every error is ignored.
- In `bundle.js`, `no-speech` is ignored and `not-allowed` adds a permission
  button. `network` stops the recognizer and starts recording again after
  2000 ms. Any other error is only reported.

The main process keeps no per-session state.

## Model

| member | source | states |
|---|---|---|
| Json.Property | src/services/stt.js:51-58 | a property read yields a value exactly when the value is an object holding that key, and then it is that key's value |
| Text.Trim | src/main.js:112 | the trimmed text is a contiguous piece of the input with no white space at either end, and everything cut away on both sides is white space |
| Text.TrimEmptyIffBlank | src/main.js:112 | `text.trim()` is empty exactly when the text is all white space, which is the guard that skips a blank transcription |
| Text.Lower | src/services/llm.js:89-115 | lower-casing keeps the length and maps every character on its own |
| Text.IndexOf | src/services/llm.js:89-115 | the search finds the first occurrence at or after the start position, and "none" means there is no occurrence anywhere after it |
| Text.ContainsIff | src/services/llm.js:89-115 | `includes` holds exactly when some position carries the substring |
| Text.Split | src/services/configManager.js:80 | splitting always yields at least one piece |
| Text.JoinSplit | src/services/logMonitor.js:132 | joining the pieces of a split with the separator gives back the original text |
| Text.SplitPiecesAvoidSeparator | src/services/novnc/asciiAnimations.js:75 | no piece of a split contains the separator |
| Text.NonBlank | src/services/novnc/asciiAnimations.js:77 | filtering keeps exactly the pieces whose trimmed length is positive, and nothing else |
| Text.NonBlankSingle | src/services/novnc/asciiAnimations.js:77 | a single piece is kept exactly when its trimmed form is non-empty |
| Text.NonBlankAppend | src/services/novnc/asciiAnimations.js:77 | filtering keeps the order: the kept pieces of a concatenation are those of the first part, then those of the second |
| AsciiAnimations.SplitFrames | src/services/novnc/asciiAnimations.js:75-77 | every frame loaded from a file is a non-blank piece between `FRAME` markers and never contains the marker |
| AsciiAnimations.NonBlankPieceIsFrame | src/services/novnc/asciiAnimations.js:75-77 | every non-blank piece between markers becomes a frame, so no frame is lost |
| AsciiAnimations.SplitFramesInOrder | src/services/novnc/asciiAnimations.js:75-77 | the frames keep the file's order: a non-blank piece comes after the frames of the pieces before it and before those after it |
| AsciiAnimations.MouthDetermines | src/services/novnc/asciiAnimations.js:7-60 | two built-in faces of the same mouth width are equal exactly when their mouths are equal |
| AsciiAnimations.MouthOfKnown | src/services/novnc/asciiAnimations.js:7-60 | exactly the four animation types have a built-in mouth, each 4 characters wide, and different types have different mouths |
| AsciiAnimations.DefaultAnimationsDistinct | src/services/novnc/asciiAnimations.js:7-60 | the built-in table has exactly idle, talking, listening and thinking, and no two of them draw the same frame |
| AsciiAnimations.LoadAnimationFromFile | src/services/novnc/asciiAnimations.js:63-85 | a file that reads gives its frames, and a missing or unreadable file gives null |
| AsciiAnimations.RandomIndex | src/services/novnc/asciiAnimations.js:93 | the random index is always inside the list, and any in-range pick is taken as is |
| AsciiAnimations.GetRandomFrame | src/services/novnc/asciiAnimations.js:88-95 | a frame comes back exactly when the list exists and is non-empty, and it is one of the list's frames |
| AsciiAnimations.EveryFrameReachable | src/services/novnc/asciiAnimations.js:88-95 | every frame of the list can be the random choice |
| AsciiAnimations.GetAnimationFrame | src/services/novnc/asciiAnimations.js:98-108 | a frame from the animation file when it has any, otherwise the built-in frame for the type, and idle's for an unknown type |
| AsciiAnimations.UnknownTypeIsIdle | src/services/novnc/asciiAnimations.js:107 | an unknown animation type with no file is drawn as the idle face |
| AsciiGenerator.OrDefault | src/services/asciifier.js:9-10 | a given, non-zero size is kept, and a missing or zero size falls back to the default (the `||` of the constructor) |
| AsciiGenerator.New | src/services/asciifier.js:8-18 | a new generator has the four empty animation sets, current set idle, and the sizes resolved through the defaults |
| AsciiGenerator.Features | src/services/asciifier.js:72-105 | talking alternates a closed and an open mouth by frame parity, the other known expressions keep the mouth closed, and an unknown one has no features |
| AsciiGenerator.SmallMouthDetermines | src/services/asciifier.js:96-104 | two generated faces with the same eyes and equal-width mouths are equal exactly when the mouths are |
| AsciiGenerator.TalkingAlternates | src/services/asciifier.js:84 | talking frames are equal exactly when their indices have the same parity, and every other expression draws the same face at every index |
| AsciiGenerator.GenerateDefaultAnimationSet | src/services/asciifier.js:44-70 | the default set has exactly five frames; for talking two frames are equal exactly when their indices have the same parity, every other type repeats one face, and an unknown type gives empty frames |
| AsciiGenerator.TalkingSetAlternates | src/services/asciifier.js:48 | in the default talking set the even frames are one face and the odd frames another, different face |
| AsciiGenerator.Fill | src/services/asciifier.js:25-35 | loading the sets reports success exactly when no file read failed, and keeps the current set |
| AsciiGenerator.FillKeeps | src/services/asciifier.js:25-35 | loading adds sets only for the listed types and leaves every other set as it was |
| AsciiGenerator.FillSets | src/services/asciifier.js:25-35 | after a successful load each type holds the frames of its file, or the default set when there is no file |
| AsciiGenerator.Initialize | src/services/asciifier.js:20-42 | initialization returns true exactly when no file read failed, fills every type's set, and keeps the generator well formed |
| AsciiGenerator.NoFilesGivesDefaults | src/services/asciifier.js:20-42 | with no animation files every set is the generated default set |
| AsciiGenerator.GetAnimation | src/services/asciifier.js:107-113 | a known, non-empty type becomes the current set and anything else keeps the current one, and the result is the current set's frames |
| AsciiGenerator.UnknownTypeKeepsSet | src/services/asciifier.js:107-113 | an unknown or missing type leaves the current set unchanged |
| AsciiGenerator.JsRem | src/services/asciifier.js:124 | JavaScript's `%` agrees with the mathematical remainder for non-negative operands and stays in (-b, 0] for negative ones |
| AsciiGenerator.At | src/services/asciifier.js:124 | indexing gives a frame exactly when the index is inside the list, and undefined otherwise |
| AsciiGenerator.GetSequentialFrame | src/services/asciifier.js:121-125 | a non-negative index picks the frame at index mod the set's length, a negative one that `%` leaves negative yields undefined, and an empty set yields undefined |
| AsciiGenerator.GetRandomFrame | src/services/asciifier.js:115-119 | a random frame exists exactly when the current set is non-empty, and it belongs to that set |
| AsciiGenerator.SequentialFrameCycles | src/services/asciifier.js:121-125 | sequential frames repeat with the length of the set as their period |
| BrowserAutomation.New | src/services/browserAutomation.js:13-26 | a new service has no browser, context or page, no URL, and screenshots under the given directory or under `path.join(cwd, "screenshots")` |
| BrowserAutomation.StartBrowser | src/services/browserAutomation.js:57-120 | starting a running browser does nothing and succeeds, and otherwise success means a browser, context and page are all ready, while failure leaves it stopped |
| BrowserAutomation.StopBrowser | src/services/browserAutomation.js:126-157 | stopping a stopped browser succeeds unchanged, a successful stop clears browser, context and page, and a failed close leaves it running |
| BrowserAutomation.StartIdempotent | src/services/browserAutomation.js:58-61 | a second start after a successful one changes nothing |
| BrowserAutomation.StopIdempotent | src/services/browserAutomation.js:127-130 | a second stop after a successful one changes nothing |
| BrowserAutomation.NormalizeUrl | src/services/browserAutomation.js:177-179 | the URL always ends up with an http or https scheme, is unchanged exactly when it had one, and otherwise gets `https://` in front |
| BrowserAutomation.NormalizeUrlIdempotent | src/services/browserAutomation.js:177-179 | normalizing twice is the same as normalizing once |
| BrowserAutomation.NavigateTo | src/services/browserAutomation.js:164-191 | a successful navigation leaves a ready page on the normalized URL's destination, a failed one keeps the old URL, and a failed auto-start fails the call |
| BrowserAutomation.Stamp | src/services/browserAutomation.js:205 | the time stamp has the ISO string's length, with every `:` and `.` replaced by `-` and nothing else changed |
| BrowserAutomation.ScreenshotFile | src/services/browserAutomation.js:206 | the file name starts with the given name (or `screenshot`) and a dash, ends in `.png`, and contains a slash exactly when the name or the time stamp does |
| BrowserAutomation.TakeScreenshot | src/services/browserAutomation.js:198-218 | without a page there is no screenshot, a returned path was written and ends in `.png`, and a file name without a slash lands directly inside the screenshot directory |
| BrowserAutomation.ScreenshotNameCanLeaveDirectory | src/services/browserAutomation.js:205-207 | a step name `../x` writes the screenshot outside the directory, because `path.join` resolves the `..` |
| BrowserAutomation.FillEntries | src/services/browserAutomation.js:225-255 | filling succeeds exactly when every present selector takes its value, and only present selectors are filled |
| BrowserAutomation.AbsentSelectorSkipped | src/services/browserAutomation.js:238-242 | an entry whose selector is not on the page changes neither the outcome nor the fields filled |
| BrowserAutomation.FillForm | src/services/browserAutomation.js:225-255 | without a page the form is not filled, and otherwise success is the same as for the entries |
| BrowserAutomation.ClickElement | src/services/browserAutomation.js:262-287 | a click succeeds exactly when there is a page, a selector, and an element under it |
| BrowserAutomation.ExecuteScript | src/services/browserAutomation.js:294-309 | the script's value comes back when there is a page and evaluation succeeds, and null otherwise |
| BrowserAutomation.GetPageContent | src/services/browserAutomation.js:315-330 | the HTML comes back exactly when there is a page and reading it succeeds |
| BrowserAutomation.WaitTimeout | src/services/browserAutomation.js:338 | the wait uses the given timeout, or the default of 30000 ms when none is given |
| BrowserAutomation.WaitForElement | src/services/browserAutomation.js:338-353 | waiting succeeds exactly when there is a page and the element appears within the timeout |
| BrowserAutomation.PauseOf | src/services/browserAutomation.js:396-401 | a wait step without a selector pauses for its timeout, or 1000 ms when that is missing or zero |
| BrowserAutomation.RunStep | src/services/browserAutomation.js:377-423 | each step reports its own action, an unknown action fails, page actions fail without a page, and only navigation changes the modelled service (the load listener is left out) |
| BrowserAutomation.RunSteps | src/services/browserAutomation.js:374-430 | one result per step in order, all steps run without stop-on-error, and with it every result before the last succeeded; a missing step throws |
| BrowserAutomation.WithFinalShot | src/services/browserAutomation.js:433-445 | a final screenshot result is appended exactly when the scenario asks for one, after the step results |
| BrowserAutomation.RunTestScenario | src/services/browserAutomation.js:360-459 | a scenario without steps is rejected, a completed run succeeds exactly when every result succeeded and reports the current URL, and a missing step is reported as thrown |
| BrowserAutomation.StartStopKeepPage | src/services/browserAutomation.js:57-157 | starting and stopping keep the rule that a page exists only while the browser runs |
| BrowserAutomation.StepsKeepPage | src/services/browserAutomation.js:374-430 | running steps keeps that rule |
| BrowserAutomation.ScenarioKeepsPage | src/services/browserAutomation.js:360-459 | running a whole scenario keeps that rule |
| BrowserAutomation.StopOnErrorStopsAtFirstFailure | src/services/browserAutomation.js:426-429 | with stop-on-error a failed step is always the last one run |
| BrowserCommands.ActionNameInjective | src/renderer/modules/browserCommands.js:9-15 | the command types have pairwise different names |
| BrowserCommands.LazyClose | src/renderer/modules/browserCommands.js:22 | the lazy quoted group ends at the first quote after the opening one, and never crosses a line break |
| BrowserCommands.LineEnd | src/renderer/modules/browserCommands.js:34-37 | `.+` stops at the first line terminator, or at the end of the text |
| BrowserCommands.QuotedText | src/renderer/modules/browserCommands.js:74-83 | the quoted query is the capture at the leftmost position where a quoted substring starts, and "none" means no position starts one |
| BrowserCommands.OrdinalAt | src/renderer/modules/browserCommands.js:46-59 | the ordinal chosen at a position is the first of the alternatives that fits there, and "none" means none fits |
| BrowserCommands.MatchPattern | src/renderer/modules/browserCommands.js:20-61 | a pattern matches exactly when it matches at some position, and the result is the leftmost match's captured parameters |
| BrowserCommands.SearchPatternAfterSpace | src/renderer/modules/browserCommands.js:22 | after the search phrase, a space and a quoted `x`, the search pattern captures `x` |
| BrowserCommands.SearchPatternNeedsSpace | src/renderer/modules/browserCommands.js:22 | with the quote straight after the search phrase and no space, the search pattern does not match |
| BrowserCommands.FirstPattern | src/renderer/modules/browserCommands.js:94-103 | the patterns are tried in order, and the one taken is the first that matches |
| BrowserCommands.CheckForBrowserCommand | src/renderer/modules/browserCommands.js:68-106 | there is no command exactly for null or empty text, or for text with neither button phrase that matches no pattern; a search phrase always gives a search with the first quoted substring or the default query, the form phrase comes next, and otherwise the first matching pattern decides |
| BrowserCommands.PatternNeedsPhrase | src/renderer/modules/browserCommands.js:20-61 | a pattern cannot match unless the lowered text contains its fixed phrase |
| BrowserCommands.SearchPatternShadowed | src/renderer/modules/browserCommands.js:22 | the search pattern in the table can match only when the earlier search test already caught the text |
| BrowserCommands.SearchIff | src/renderer/modules/browserCommands.js:74-83 | a search command comes back exactly when the lowered text contains the search phrase |
| BrowserCommands.FormFillIff | src/renderer/modules/browserCommands.js:85-91 | without a search phrase, a form-fill command comes back exactly when the form phrase is present |
| BrowserCommands.NavigateUrl | src/renderer/modules/browserCommands.js:34-37 | a navigation command carries a URL taken from the original text right after the navigation phrase |
| BrowserCommands.NavigateShape | src/renderer/modules/browserCommands.js:34-37 | a navigation match at a position captures the original text that follows the phrase there |
| BrowserCommands.ClickIndexBound | src/renderer/modules/browserCommands.js:46-59 | a click command's index is the position of the first ordinal that fits after the leftmost matching `kliknij `, or 0 when the link word follows without one |
| BrowserCommands.SearchQuery | src/renderer/modules/browserCommands.js:74-83 | a search phrase gives a search whose query is the first quoted substring, or `Playwright browser automation` when the text has none |
| BrowserCommands.SearchFirstQuotedExample | src/renderer/modules/browserCommands.js:74-83 | with `"a" "b"` after the search phrase the query is `a` |
| BrowserCommands.ExecuteBrowserCommand | src/renderer/modules/browserCommands.js:113-123 | a command is emitted exactly when there is one and a socket, with its action's name and its parameters |
| BrowserCommands.ScreenshotExample | tests/renderer/modules/browserCommands.test.js:40-46 | "Zrób zrzut ekranu" is a screenshot command |
| BrowserCommands.NavigateRemainder | src/renderer/modules/browserCommands.js:34-37 | the navigation phrase in any letter case followed by one line captures that line as the URL |
| BrowserCommands.NavigateExampleMatch | tests/renderer/modules/browserCommands.test.js:30-37 | the navigation pattern captures "example.com" from the test's sentence |
| BrowserCommands.WithoutW | src/renderer/modules/browserCommands.js:68-106 | text without a `w` cannot be a search or a form fill, so only the pattern loop decides it |
| BrowserCommands.OnlyClickCanMatch | src/renderer/modules/browserCommands.js:68-106 | text without `w`, `p` or `ó` can only be a click command |
| BrowserCommands.NavigateExample | tests/renderer/modules/browserCommands.test.js:30-37 | "Przejdź do strony example.com" navigates to example.com |
| BrowserCommands.ClickOrdinalLink | src/renderer/modules/browserCommands.js:46-59 | the click phrase, an ordinal word and " link", in any letter case, give that ordinal's link index |
| BrowserCommands.ClickExampleMatch | src/renderer/modules/browserCommands.js:46-59 | the click pattern gives index 2 for "Kliknij trzeci link na stronie" |
| BrowserCommands.ClickExample | tests/renderer/modules/browserCommands.test.js:59-66 | "Kliknij trzeci link na stronie" clicks the link with index 2 |
| BrowserCommands.EmptyExamples | tests/renderer/modules/browserCommands.test.js:77-88 | empty text and null are no command |
| BrowserCommands.NoCommandExample | tests/renderer/modules/browserCommands.test.js:69-74 | "To nie jest komenda przeglądarki" is no command |
| Config.Initialize | src/services/configManager.js:13-40 | a parsed file is loaded, a missing file is replaced by the defaults when the write works, and a broken file fails and leaves the manager unchanged |
| Config.Path | src/services/configManager.js:79-94 | a key gives at least one path segment, and a key without a dot is a single segment |
| Config.Lookup | src/services/configManager.js:79-91 | the empty path is the value itself |
| Config.Get | src/services/configManager.js:73-95 | reading before initialization throws, a dotted key walks the path and falls back to the default, and an undotted key reads the top level |
| Config.Update | src/services/configManager.js:103-121 | writing along a path gives an object, and a one-segment write replaces only that key |
| Config.Set | src/services/configManager.js:97-130 | writing before initialization throws, and a write succeeds exactly when the update applies and the file is saved |
| Config.GetAll | src/services/configManager.js:132-138 | the whole configuration is returned exactly when the manager is initialized |
| Config.LookupUpdated | src/services/configManager.js:104-121 | after a write, reading the same path gives the written value |
| Config.LookupOtherPath | src/services/configManager.js:104-121 | a write leaves every path that is not a prefix or an extension of it unchanged |
| Config.GetAfterSet | src/services/configManager.js:73-130 | after a successful set, get on the same key returns the value set |
| Config.GetOtherKeyAfterSet | src/services/configManager.js:73-130 | a successful set does not change what get returns for an unrelated key |
| Config.SetCreatesIntermediates | src/services/configManager.js:107-115 | a set on an empty configuration creates every missing intermediate object |
| Config.PathOfPair | src/services/configManager.js:80 | `a.b` splits into the two segments a and b |
| Config.FirstStart | src/services/configManager.js:23-30 | on first start the defaults become the configuration |
| Config.DefaultAt | src/services/configManager.js:42-95 | on the defaults, a two-segment key reads the nested default value |
| Config.FirstStartAppPort | src/services/configManager.js:42-71 | after the first start, `app.port` is 3000 |
| Config.FirstStartNovncPort | src/services/configManager.js:42-71 | after the first start, `app.novnc_port` is 6080 |
| Config.FirstStartK3sOff | src/services/configManager.js:42-71 | after the first start, `infrastructure.k3s_enabled` is false |
| Llm.Initialize | src/services/llm.js:32-55 | the service initializes exactly when the model directory can be made |
| Llm.FirstRule | src/services/llm.js:89-115 | the reply rule chosen is the first whose keywords occur, and "none" means none occurs |
| Llm.ReplyOfFirstMatchingRule | src/services/llm.js:81-123 | the reply is the first matching rule's reply, and the default reply exactly when no rule matches |
| Llm.RepliesDistinct | src/services/llm.js:89-118 | the six canned replies and the default reply are pairwise different, so the reply tells which rule fired |
| Llm.Process | src/services/llm.js:57-73 | processing before initialization throws, a string gets the rule-based reply, and anything else gets the fallback reply |
| Llm.GreetingComesFirst | src/services/llm.js:89-93 | any text containing a greeting word gets the greeting, whatever else it contains |
| Llm.DefaultQuotesText | src/services/llm.js:118 | when no rule matches, the reply quotes the user's text |
| Llm.FallbackIgnoresInput | src/services/llm.js:67-71 | every non-string input gets the same fallback reply |
| LegacyRecognition.OnResult | src/renderer/bundle.js:367-397 | a result event changes only the transcript buffers |
| LegacyRecognition.ResultLoop | src/renderer/bundle.js:367-397 | the loop over results sends one message per final result, keeps the final buffer, and collects the interim text |
| LegacyRecognition.HandleResult | src/renderer/bundle.js:367-397 | the event handler computes the same state and effects as the model of the event |
| LegacyRecognition.OneSendPerFinal | src/renderer/bundle.js:367-397 | exactly one transcript is sent for each final result |
| LegacyRecognition.FinalBufferStaysEmpty | src/renderer/bundle.js:367-397 | starting from an empty final buffer, the buffer is empty again after the event |
| LegacyRecognition.InterimResetEachEvent | src/renderer/bundle.js:367-397 | the interim text depends only on the event, never on what was shown before |
| LegacyRecognition.OnError | src/renderer/bundle.js:400-437 | no-speech is silent, not-allowed offers the permission button, only a network error retries after 2 s, and no error starts capture itself |
| LegacyRecognition.OnEnd | src/renderer/bundle.js:440-451 | the recognizer is restarted exactly when recording is still on |
| LegacyRecognition.StartRecording | src/renderer/bundle.js:309-479 | without the microphone the user gets the permission hint, the recognizer starts exactly when both microphone and API are there, and the fallback recorder takes over when the API is missing or start throws |
| LegacyRecognition.ErrorDetail | src/renderer/bundle.js:555 | the error text is the message, else the name, else "Nieznany błąd", and never empty |
| LegacyRecognition.StartFallbackRecording | src/renderer/bundle.js:482-558 | a granted microphone starts the recorder and recording, a refusal changes nothing, and a missing device gets its own message |
| LegacyRecognition.StopRecording | src/renderer/bundle.js:578-602 | stopping turns recording off, stops exactly the parts that are running, and ends with the microphone-off message |
| LegacyRecognition.WebSttRequest | src/renderer/bundle.js:770-787 | a speech request starts capture exactly when the API exists and nothing is recording |
| LegacyRecognition.FinalBufferEmptyBetweenEvents | src/renderer/bundle.js:360-479 | over any sequence of events the final buffer is empty between events |
| LegacyRecognition.StopThenEndDoesNotRestart | src/renderer/bundle.js:440-451 | after the user stops, the recognizer's end event does not restart it |
| LogMonitor.New | src/services/logMonitor.js:8-34 | a new monitor is uninitialized at position 0 with no timer and has the given or default interval; without a log path it uses `path.join` of the home directory and `.config/videochat-llm-app/logs/main.log`, which for a non-empty home is that relative path inside the home's normal form |
| LogMonitor.DefaultLogUnderHome | src/services/logMonitor.js:10 | the default log path joined onto a non-empty home lies inside the home's normal form, unchanged |
| LogMonitor.RootHomeLogPath | src/services/logMonitor.js:10 | a home of `/` gives `/.config/videochat-llm-app/logs/main.log`, with one leading slash |
| LogMonitor.TrailingSlashHomeLogPath | src/services/logMonitor.js:10 | a home of `/home/u/` gives `/home/u/.config/videochat-llm-app/logs/main.log`, with no doubled slash |
| LogMonitor.Initialize | src/services/logMonitor.js:36-70 | initialization fails exactly when there is no file and it cannot be created, otherwise it skips to the end of the file and starts the timer |
| LogMonitor.StartMonitoring | src/services/logMonitor.js:72-88 | monitoring before initialization throws, and otherwise one new timer is live and recorded |
| LogMonitor.StopMonitoring | src/services/logMonitor.js:90-96 | stopping clears the recorded timer and only that timer |
| LogMonitor.StopIdempotent | src/services/logMonitor.js:90-96 | stopping twice is the same as stopping once |
| LogMonitor.MonitoringKeepsOneInterval | src/services/logMonitor.js:72-96 | starting replaces the old timer, so at most one timer is ever live, and stopping leaves none |
| LogMonitor.CheckLogs | src/services/logMonitor.js:98-128 | a missing file does nothing, a shrunk file is read from the start, a grown file is read from the old position, and the position moves to the end |
| LogMonitor.StartupContentSkipped | src/services/logMonitor.js:56-57 | the first check after initialization reads only what was appended since |
| LogMonitor.UnchangedFileReread | src/services/logMonitor.js:107-110 | a file that has not grown since the last check is analysed again from the start |
| LogMonitor.FirstMatchFrom | src/services/logMonitor.js:14-31 | the pattern chosen for a line is the first in table order that matches it |
| LogMonitor.DispatchFirstMatch | src/services/logMonitor.js:130-145 | a line gets a fix exactly when some pattern matches it, and then the fix of the first matching pattern |
| LogMonitor.FirstFix | src/services/logMonitor.js:134-144 | the loop over patterns gives the same fix as the first-match definition |
| LogMonitor.DispatchLines | src/services/logMonitor.js:130-145 | each line's fix is computed independently of the others |
| LogMonitor.AnalyzeLogs | src/services/logMonitor.js:130-145 | the content is split on newlines, and each line gets the fix of its first matching pattern |
| LogMonitor.VerbatimPatternDispatches | src/services/logMonitor.js:14-31 | a line containing any pattern's text verbatim gets some fix |
| LogMonitor.NameResolutionFirst | src/services/logMonitor.js:14-31 | a line with the name-resolution error gets the network fix whatever else it contains |
| MainProcess.AnimateIfPresent | src/main.js:114-116 | the animation changes only when the avatar server exists |
| MainProcess.SpokenText | src/main.js:111-112 | a turn goes on exactly when transcription gave a transcript that is not blank |
| MainProcess.Reply | src/main.js:120 | there is a reply exactly when the LLM service is initialized, and then it is the service's answer |
| MainProcess.Voice | src/main.js:131-139 | audio is emitted and idle scheduled when synthesis works, nothing happens when it throws, and the voice step never animates directly |
| MainProcess.AudioData | src/main.js:110-144 | a blank or failed transcription does nothing; otherwise the avatar shows thinking, then talking when the LLM answers, the one transcription pairs the text with the reply to exactly that text, and audio goes out exactly when there is a reply and synthesis works |
| MainProcess.RespondEmitsReply | src/main.js:120-132 | the only transcription a turn emits pairs the user's text with the reply, a reply is always emitted, and audio goes out exactly when synthesis works |
| MainProcess.RespondFollowsTrace | src/main.js:115-139 | the avatar ends in the last animation of the turn's trace, which is thinking then talking when there is a reply |
| MainProcess.Settle | src/main.js:135-139 | a scheduled idle leaves the avatar idle, and without one the avatar stays as it is |
| MainProcess.BlankTurnDoesNothing | src/main.js:112 | a capture request, non-string or blank transcript changes nothing and emits nothing |
| MainProcess.FullTurnEndsIdle | src/main.js:110-144 | a complete turn shows talking and ends idle |
| MainProcess.SynthesisFailureLeavesTalking | src/main.js:141-143 | when synthesis throws, the avatar stays on talking |
| MainProcess.ReplyFailureLeavesThinking | src/main.js:115-120 | when the LLM throws, the avatar stays on thinking and nothing else is emitted |
| MainProcess.Welcome | src/main.js:147-166 | the welcome shows talking, emits the welcome message as an assistant-only transcription, and emits audio exactly when synthesis works |
| MainProcess.WelcomeEndsIdle | src/main.js:147-166 | the welcome ends idle when synthesis works and stays talking when it throws |
| MainProcess.LlmProcess | src/main.js:215-222 | the IPC answer is the LLM's reply when the service is initialized, and the apology otherwise |
| MainProcess.ApologyIsNotAReply | src/main.js:215-222 | an initialized service never answers with the apology, so the apology always means failure |
| MainProcess.TtsSynthesize | src/main.js:224-231 | the IPC answer is the audio, or null when synthesis throws |
| MainProcess.SetAnimationType | src/main.js:234-240 | the animation is set and true returned exactly when the avatar server exists |
| NetworkUtils.TryPort | src/services/novnc/networkUtils.js:20-46 | a port found is free, every port before it was in use, and the search gives up after the attempt limit or on the first other error |
| NetworkUtils.FindAvailablePort | src/services/novnc/networkUtils.js:15-50 | the port found is the first free one from the start, within the attempt limit, and a free start port is taken at once |
| NetworkUtils.ProbedPortsConsecutive | src/services/novnc/networkUtils.js:24-34 | the ports probed are consecutive from the start, and all but the last were in use |
| NetworkUtils.FoundIsLastProbed | src/services/novnc/networkUtils.js:40-43 | the port found is the last one probed |
| NetworkUtils.DefaultProbeBound | src/services/novnc/networkUtils.js:15 | with the default limit at most 11 ports are probed |
| NetworkUtils.StartServer | src/services/novnc/networkUtils.js:67-81 | starting resolves with the bound port exactly when listening works, and rejects with the error otherwise |
| AvatarServer.New | src/services/novncServer.js:30-40 | a new server has the given port or 6080, no clients, idle animation, and is not running |
| AvatarServer.Initialize | src/services/novncServer.js:80-194 | a directory failure returns false, a listen error rejects, and a successful listen leaves the server running on the port actually bound |
| AvatarServer.ListenPort | src/services/novncServer.js:95-102 | the server listens on the first free port from the configured one within ten retries, and on 0 (any port) exactly when the search rejects, because every port tried is in use or a probe failed with another error |
| AvatarServer.ListenPortFirstFree | src/services/novncServer.js:95-102 | the port depends on the probes alone: the first free port within the retries, after ports in use only, is the one listened on |
| AvatarServer.SetAnimation | src/services/novncServer.js:196-201 | setting the animation changes only the current animation, and setting the current one changes nothing |
| AvatarServer.LastWriteWins | src/services/novncServer.js:196-201 | after a series of sets the last one is the current animation |
| AvatarServer.DefaultFrame | src/services/novncServer.js:249-306 | a known animation draws the face with its own mouth, and any other name draws idle's face |
| AvatarServer.DefaultFramesDistinct | src/services/novncServer.js:249-306 | two animations draw the same built-in frame exactly when they have the same mouth, an unknown animation counting as idle |
| AvatarServer.UnknownAnimationDrawnIdle | src/services/novncServer.js:305 | an unknown animation is drawn as idle |
| AvatarServer.GenerateFrame | src/services/novncServer.js:205-229 | a frame from the animation file when it has any, otherwise the built-in frame |
| AvatarServer.EveryCandidateChosen | src/services/novncServer.js:205-229 | every frame of the file can be the one sent |
| AvatarServer.FrameMessage | src/services/novncServer.js:232-242 | the message has exactly the fields type `ascii-frame` and the frame |
| AvatarServer.SendLoop | src/services/novncServer.js:232-242 | frames are sent while the socket is open, one per tick, and the loop stops at the first closed tick |
| AvatarServer.LoopStopsForGood | src/services/novncServer.js:232-242 | once the socket has closed, no later tick sends anything |
| AvatarServer.Connect | src/services/novncServer.js:154-156 | a connection adds its socket to the clients and changes nothing else |
| AvatarServer.Disconnect | src/services/novncServer.js:163-166 | a close removes only that socket |
| AvatarServer.Stop | src/services/novncServer.js:420-439 | stopping closes every client of a running server, marks it stopped, and resolves true |
| AvatarServer.StopIdempotent | src/services/novncServer.js:420-439 | stopping twice closes nothing more |
| PosixPath.SegmentsOfName | src/services/novncServer.js:112 | a name without a slash is a single segment |
| PosixPath.SegmentsAppend | src/services/novncServer.js:112 | splitting a path at a slash splits its segments there |
| PosixPath.Resolve | src/services/novncServer.js:112 | resolving segments never produces an empty name |
| PosixPath.ResolveAppend | src/services/novncServer.js:112 | resolving two runs of segments one after the other is the same as resolving them together |
| PosixPath.JoinResolvesTo | src/services/novncServer.js:112 | when the part resolves, against the directory, to one more name, the joined path is the directory's normal form, a slash and that name |
| PosixPath.JoinPlainName | src/services/novncServer.js:110 | a plain name joined onto any directory lies directly inside it |
| PosixPath.JoinPlainNames | src/services/logMonitor.js:10 | several plain names joined by slashes and then onto a non-empty directory lie inside the directory's normal form, unchanged |
| PosixPath.JoinRootedName | src/services/novncServer.js:112 | a URL `/name` with a plain name, joined onto a non-empty directory, lies directly inside it |
| PosixPath.TrailingDotResolves | src/services/novncServer.js:112 | `/a.js/.` resolves to the single name `a.js` against any directory |
| PosixPath.LeavingDirectory | src/services/browserAutomation.js:207 | `path.join("/shots", "../x-.png")` is `/x-.png`, outside the directory |
| PosixPath.NormalizeKeepsLastName | src/services/browserAutomation.js:207 | normalising keeps a plain last name at the end of the path |
| PosixPath.JoinKeepsLastName | src/services/browserAutomation.js:207 | a part whose last segment is a plain name still ends with it once joined |
| PosixPath.JoinKeepsSuffix | src/services/browserAutomation.js:206-207 | a plain suffix of the part, such as `.png`, also ends the joined path |
| PosixPath.LastIndexOf | src/services/novncServer.js:123 | the last index of a character is an occurrence with none after it, and "none" means it does not occur |
| PosixPath.StripTrailingSlashes | src/services/novncServer.js:123 | the trailing slashes are cut, and only they |
| PosixPath.BaseName | src/services/novncServer.js:123 | the base name has no slash |
| PosixPath.BaseNameAfterPrefix | src/services/novncServer.js:123 | the base name of a slash-free name after a directory prefix is that name |
| PosixPath.ExtName | src/services/novncServer.js:123 | the extension is empty or a dot followed by text with no dot or slash |
| PosixPath.ExtNameOfFile | src/services/novncServer.js:123 | a file `stem.ext` in any directory has the extension `.ext` |
| AvatarServer.FilePath | src/services/novncServer.js:109-113 | the root URL serves `vnc.html` inside the directory, and `/name` with a plain name serves that file directly inside it |
| AvatarServer.ContentType | src/services/novncServer.js:123-142 | each of the five known extensions has its own MIME type, and every other extension is served as HTML |
| AvatarServer.Serve | src/services/novncServer.js:105-147 | a read error gives 404 with the error text, and data gives 200 with the MIME type of the extension of the joined, normalised path |
| AvatarServer.RootIsHtml | src/services/novncServer.js:109-145 | the root page is served as HTML, wherever the directory is |
| AvatarServer.FileServedByExtension | src/services/novncServer.js:105-145 | a file `/stem.ext` directly inside the directory is served with the type of `.ext` |
| AvatarServer.TrailingDotKeepsType | src/services/novncServer.js:112-127 | `/a.js/.` is normalised to `a.js` before its extension is read, so it is served as JavaScript |
| Recognition.HandleOfflineMode | src/renderer/modules/speechRecognition.js:27-59 | switching to offline announces it once, aborts the current recognizer, highlights the commands, and does nothing if already offline |
| Recognition.HandleOfflineModeIdempotent | src/renderer/modules/speechRecognition.js:27-59 | switching to offline twice does nothing the second time |
| Recognition.OnError | src/renderer/modules/speechRecognition.js:149-205 | offline ignores errors, no error restarts the recognizer, exactly the infrastructure errors switch to offline, and not-allowed offers the permission button |
| Recognition.OnEnd | src/renderer/modules/speechRecognition.js:207-246 | the recognizer is restarted exactly when online and recording, and a restart that throws switches to offline |
| Recognition.CollectTranscripts | src/renderer/modules/speechRecognition.js:100-111 | the loop joins the final and the interim transcripts from the result index on, each in order |
| Recognition.FinalNonEmptyIff | src/renderer/modules/speechRecognition.js:119 | the final transcript is non-empty exactly when some final result has text |
| Recognition.OnResult | src/renderer/modules/speechRecognition.js:96-146 | the interim text is shown first; without a final transcript nothing else happens, and with one the user line comes just before a single hand-off, to the browser command when the hooks allow and it is one, else to the server |
| Recognition.SubmitHandsOnOnce | src/renderer/modules/speechRecognition.js:125-144 | a final transcript goes either to the browser command or to the server, never both and never neither |
| Recognition.ResultHandsOnOnce | src/renderer/modules/speechRecognition.js:96-146 | each result event with a final transcript hands it on exactly once, as a browser command exactly when it is one |
| Recognition.StartRecording | src/renderer/modules/speechRecognition.js:64-296 | the recognizer starts exactly when the API and the microphone are there; the fallback recorder starts only when the API is missing; a refused microphone or a throwing `start()` ends with the no-microphone message and the permission button |
| Recognition.StartFallbackRecording | src/renderer/modules/speechRecognition.js:301-369 | a granted microphone records for 5 s, and a refusal only reports that the microphone is unavailable |
| Recognition.OnRecorderStop | src/renderer/modules/speechRecognition.js:314-343 | a finished recording is always posted, and a new recording starts exactly when recording is still on |
| Recognition.OnSttResponse | src/renderer/modules/speechRecognition.js:320-340 | a transcript from the server is handed on once, an answer without one is reported as not recognized, and a failed request or a null body as an audio failure |
| Recognition.StopRecording | src/renderer/modules/speechRecognition.js:374-408 | stopping turns recording off, stops exactly the parts that run, and ends with the stopped message |
| Recognition.OfflineIsPermanent | src/renderer/modules/speechRecognition.js:9-59 | once offline, no sequence of events goes back online |
| Recognition.OfflineNeverRestarts | src/renderer/modules/speechRecognition.js:207-246 | once offline, the recognizer is never started again unless the user starts recording |
| Recognition.FirstInfrastructureError | src/renderer/modules/speechRecognition.js:181-195 | the first infrastructure error reports the problem, switches to offline, and keeps recording on |
| SpeechControls.Click | src/renderer/components/SpeechControls.jsx:11-28 | a click does nothing while busy, and otherwise calls the Web Speech callback when the API exists, else the microphone callback, each only if given |
| SpeechControls.Disabled | src/renderer/components/SpeechControls.jsx:35 | the button is disabled exactly when a click would be ignored |
| SpeechControls.ButtonCaption | src/renderer/components/SpeechControls.jsx:38-39 | the listening caption shows exactly when listening or Web Speech is active |
| SpeechControls.Badges | src/renderer/components/SpeechControls.jsx:41-45 | each badge shows exactly under its own condition |
| SpeechControls.CaptureBadgesExclusive | src/renderer/components/SpeechControls.jsx:41-45 | the two capture badges never show together, and either one means a click is ignored |
| SpeechSynthesis.MergeOptions | src/renderer/modules/speechSynthesis.js:40-48 | a given option wins over the default, every default not given is kept, and the keys are exactly the defaults' and the options object's own |
| SpeechSynthesis.MergedOptionsComplete | src/renderer/modules/speechSynthesis.js:40-48 | all four options the utterance reads are defined after merging, and non-object options leave the defaults |
| SpeechSynthesis.PolishVoice | src/renderer/modules/speechSynthesis.js:60-74 | the voice chosen is the first whose language starts with `pl`, and "none" means there is none |
| SpeechSynthesis.SpeakText | src/renderer/modules/speechSynthesis.js:33-94 | without the API nothing is spoken and false returned, and otherwise one utterance with the merged options and the Polish voice |
| SpeechSynthesis.DefaultUtterance | src/renderer/modules/speechSynthesis.js:40-45 | with no options the utterance is Polish at volume, rate and pitch 1 |
| SpeechSynthesis.StopSpeaking | src/renderer/modules/speechSynthesis.js:99-108 | stopping cancels speech and returns true exactly when the API exists |
| SpeechSynthesis.HandleTtsRequest | src/renderer/modules/speechSynthesis.js:114-127 | a request without text does nothing, and otherwise the current speech is cancelled before the text is spoken |
| SpeechSynthesis.FalsyOptionsUseDefaults | src/renderer/modules/speechSynthesis.js:114-127 | falsy options in a request leave every default in place |
| Stt.Initialize | src/services/stt.js:12-34 | the service initializes exactly when the model directory can be made |
| Stt.Transcribe | src/services/stt.js:36-75 | transcribing before initialization throws, an undecodable payload re-throws, a truthy transcript is returned, and any other decoded payload asks the renderer to capture speech |
| Stt.TranscriptIff | src/services/stt.js:45-70 | a transcript comes back exactly when the decoded payload carries a truthy one |
| Stt.TranscriptPayloadRoundTrip | src/services/stt.js:51-56 | a payload object carrying a non-empty transcript string gives that string back, whatever its other keys |
| Stt.RequestObject | src/services/stt.js:67-70 | the capture request has exactly a type and a message |
| Stt.EmptyTranscriptRequestsCapture | src/services/stt.js:51-70 | an empty transcript is not a transcript, so it asks for capture |
| VideoChat.BotState | src/renderer/components/VideoChat.jsx:37-45 | listening wins over talking, and idle means neither |
| VideoChat.BotStateDrawable | src/renderer/components/VideoChat.jsx:37-45 | the derived state is always an animation the avatar can draw |
| VideoChat.Mount | src/renderer/components/VideoChat.jsx:37-60 | the first render derives the state and arms the 2-second check |
| VideoChat.Step | src/renderer/components/VideoChat.jsx:37-60 | every render derives the state again and re-arms the check, even with unchanged flags, because the parent passes a new callback each time; a check schedules a start exactly when the bot is quiet after an assistant message; a due start calls back once |
| VideoChat.BotStateFollowsProps | src/renderer/components/VideoChat.jsx:37-45 | after any events the shown state matches the last props |
| VideoChat.StartsBoundedByChecks | src/renderer/components/VideoChat.jsx:48-60 | every automatic start was scheduled by a check that found the bot quiet after an assistant message |
| VideoChat.ScheduledStartSurvivesRerender | src/renderer/components/VideoChat.jsx:48-60 | a start already scheduled still runs after a re-render, because its timer is never cleared |
| VideoChat.RerenderSchedulesAgain | src/renderer/components/VideoChat.jsx:48-60 | after a check has fired, a render with the same props re-arms it, so a bot still quiet after an assistant message gets another start |
| VideoChat.MicDisabled | src/renderer/components/VideoChat.jsx:103 | the microphone button is disabled exactly when the bot is not idle |
| VideoChat.MicLabel | src/renderer/components/VideoChat.jsx:106 | the listening caption shows exactly when the bot is listening |

## Left out

- Rendering (DOM, HTML, CSS, React markup), logging, and the socket and IPC plumbing are left out. Only the values they carry are modelled.
- File, HTTP, Playwright, microphone and speech APIs are oracles given as parameters, because their behaviour is outside the program.
- Timers (`setTimeout`, `setInterval`, React effects) are events in a sequence, and wall-clock time is not modelled.
- `Math.random` is a `pick` parameter taken modulo the list's length, because randomness cannot be modelled.
- Concurrency between the main process and the renderer is left out: every event runs to completion.
- Regular expressions are modelled by position searches over the lowered text. This is exact for the literal patterns, and for the quoted-query (one space, then a quote), `(.+)` and ordinal-link patterns of the browser commands.
- Text.Lower: maps ASCII, Latin-1 and the Polish capitals only, because those are the letters the modelled texts use. Other characters that `toLowerCase` maps onto pattern letters stay as they are. KELVIN SIGN (U+212A) becomes `k` in JavaScript. U+0130 becomes `i` plus a combining dot, which changes the length.
- LogMonitor.CheckLogs: positions count characters, not UTF-8 bytes, so multi-byte text is not modelled.
- The fix actions the log monitor runs for a matched line (shell commands, restarts) are left out, because they act outside the program. Only which fix is chosen is modelled.
- Config.Get: arrays are leaves, and keys inherited from JavaScript's object prototype (such as `toString`) are not modelled.
- AsciiAnimations.GetAnimationFrame: prototype keys such as `toString` are not treated as animation types.
- AsciiGenerator.GetAnimation: a prototype key such as `toString` is treated as unknown. In the source, `this.animationSets["toString"]` is a function and so truthy, and the current set switches to it. Any string can arrive through `set-animation-type`.
- AsciiGenerator.UnknownTypeKeepsSet: holds for unknown names that are not prototype keys, for the reason given under GetAnimation.
- AvatarServer.DefaultFrame: a prototype key such as `toString` draws idle's face in the model. In the source, `states[this.currentAnimation]` returns a function for such a key.
- AvatarServer.UnknownAnimationDrawnIdle: holds for unknown names that are not prototype keys, for the reason given under DefaultFrame.
- Config.Update: a path that steps into an array gives an error that only the model has. JavaScript writes the property onto the array instead. An index key becomes an element, and any other key lives on the array in memory but is dropped by `JSON.stringify` when the file is saved. The model keeps arrays as leaves, as `Config.Get` does.
- Config.Set: carries the array-path gap of Config.Update, and the prototype-key gap of Config.Update.
- Config.Update: a path segment that names an inherited property (`__proto__`, `toString`, …) is not modelled. The source's `k in obj` test sees inherited names. So `set("__proto__.x", v)` assigns `Object.prototype.x`, which every object then reads. And `set("toString.x", v)` writes onto the inherited function. In both cases the saved file is unchanged. The model stores a new nested object under that key instead.
- Config.LookupUpdated: holds for paths whose segments are not inherited property names, for the reason given under Config.Update.
- Config.LookupOtherPath: holds for writes whose path has no inherited segment name; in JavaScript a `__proto__.x` write changes the reading of other paths.
- Config.GetAfterSet: holds for keys without inherited segment names; in JavaScript `get("toString.x")` after `set("toString.x", v)` returns the default.
- Config.GetOtherKeyAfterSet: holds for set keys without inherited segment names; in JavaScript `set("__proto__.x", v)` changes `get` of unrelated keys such as `app.x`.
- Config.SetCreatesIntermediates: holds for segments that are not inherited property names; JavaScript does not create an object for an inherited name.
- AsciiAnimations.UnknownTypeIsIdle: holds for names that are not prototype keys; for `toString` the source's `defaultAnimations[animationType]` is a function, which is truthy and is returned instead of the idle frames.
- BrowserAutomation.RunStep: the page's `load` listener sets `currentUrl` after any page load, including one a click or a script causes. That listener is not modelled, so only navigation changes the URL in the model.
- BrowserAutomation.TakeScreenshot: the exact path is stated only for file names without a slash. A name with `..` is resolved by `path.join`, which ScreenshotNameCanLeaveDirectory shows for one case.
- AvatarServer.FilePath: the `/name` case is stated for a non-empty directory, and so are FileServedByExtension and TrailingDotKeepsType. The server's directory is always the non-empty result of `path.join`.
- SpeechSynthesis.MergeOptions: spreading a string or an array copies its index keys (`"0"`, `"1"`, …). The model keeps only object options. None of the four options the utterance reads is an index key.
- The speech synthesis initialisation (`initSpeechSynthesis`), the camera effect in the chat view, the main-process text-to-speech service and the k3s infrastructure are not part of this model. They only wire up outside services.
- MainProcess.Welcome: when synthesis throws, the source's welcome sequence has no handler and the rejection goes unhandled. This is modelled as stopping at talking.
- The browser-command tests for search, form filling and "pierwszy" are not restated as examples. The general lemmas `SearchIff`, `SearchQuery`, `FormFillIff` and `ClickOrdinalLink` cover them.

=== FILE: ascii_animations.dfy ===
/**
  The avatar's frame sets (src/services/novnc/asciiAnimations.js): the four
  built-in faces, frames loaded from an animation file split on the word
  `FRAME`, and the choice of one frame. Reading the file is an oracle
  (`FileRead`); `Math.random` is the `pick` parameter.
 */
module AsciiAnimations {
  import opened Base
  import opened Text

  /** What reading `src/ascii-animations/<type>.txt` gives. */
  datatype FileRead = Missing | Content(text: string) | ReadFailed

  const FrameSeparator: string := "FRAME"

  /** `content.split('FRAME').filter(f => f.trim().length > 0)`. */
  function SplitFrames(content: string): (r: seq<string>)
    ensures forall f :: f in r ==> f in Split(content, FrameSeparator) && |Trim(f)| > 0
    ensures forall f :: f in r ==> !Contains(f, FrameSeparator)
  {
    var parts := Split(content, FrameSeparator);
    SplitPiecesAvoidSeparator(content, FrameSeparator);
    assert forall f :: f in parts ==> !Contains(f, FrameSeparator);
    NonBlank(parts)
  }

  /** Every non-blank piece between separators is kept as a frame. */
  lemma NonBlankPieceIsFrame(content: string, piece: string)
    requires piece in Split(content, FrameSeparator) && |Trim(piece)| > 0
    ensures piece in SplitFrames(content)
  {
  }

  /**
    The frames keep the file's order: a non-blank piece comes after the
    frames of the pieces before it and before those of the pieces after it.
   */
  lemma SplitFramesInOrder(content: string, before: seq<string>, piece: string, after: seq<string>)
    requires Split(content, FrameSeparator) == before + [piece] + after
    requires |Trim(piece)| > 0
    ensures SplitFrames(content) == NonBlank(before) + [piece] + NonBlank(after)
  {
    var parts := Split(content, FrameSeparator);
    assert SplitFrames(content) == NonBlank(parts);
    NonBlankAppend(before + [piece], after);
    NonBlankAppend(before, [piece]);
    NonBlankSingle(piece);
  }

  // ---------------------------------------------------------------------------
  // The built-in face. Both this file and the server draw the same 16-column
  // head; only the three eye/chin rows and the mouth vary.
  // ---------------------------------------------------------------------------

  const Border: string := "   +----------------+\n"
  const Blank: string := "   |                |\n"
  const Bars: string := "   |  |    ||    |  |\n"

  /** Everything up to the mouth. */
  function FaceHead(top: string, mid: string, low: string): string {
    "\n" + Border + Blank + ("   |" + top + "|\n") + ("   |" + mid + "|\n") + Bars + Bars
    + ("   |" + low + "|\n") + Blank + "   |      "
  }

  /** Everything after the mouth, including the eight spaces before the closing backquote. */
  const FaceTail: string := "      |\n" + Blank + Border + "        "

  /** The face template with the given eye rows and mouth. */
  function Face(top: string, mid: string, low: string, mouth: string): string {
    FaceHead(top, mid, low) + mouth + FaceTail
  }

  /** Faces drawn with the same rows differ exactly when their (equally long) mouths differ. */
  lemma MouthDetermines(top: string, mid: string, low: string, a: string, b: string)
    requires |a| == |b|
    ensures Face(top, mid, low, a) == Face(top, mid, low, b) <==> a == b
  {
    var h := FaceHead(top, mid, low);
    if Face(top, mid, low, a) == Face(top, mid, low, b) {
      assert (h + a + FaceTail)[|h|..|h| + |a|] == a;
      assert (h + b + FaceTail)[|h|..|h| + |b|] == b;
    }
  }

  // In an ordinary template literal an unknown escape such as `\ ` or `\_`
  // stands for the character alone, so the eyes of this file's faces lose
  // their backslashes.
  const CookedTop: string := "    /    /    "
  const CookedMid: string := "   /    /     "
  const CookedLow: string := "   __/  __/   "

  const IdleMouth: string := "----"
  const TalkingMouth: string := "===="
  const ListeningMouth: string := "...."
  const ThinkingMouth: string := "????"

  /** The animation types both servers know. */
  const AnimationTypes: seq<string> := ["idle", "talking", "listening", "thinking"]

  /** The mouth of each known type. */
  function MouthOf(animationType: string): Option<string> {
    if animationType == "idle" then Some(IdleMouth)
    else if animationType == "talking" then Some(TalkingMouth)
    else if animationType == "listening" then Some(ListeningMouth)
    else if animationType == "thinking" then Some(ThinkingMouth)
    else None
  }

  lemma MouthOfKnown(animationType: string)
    ensures MouthOf(animationType).Some? <==> animationType in AnimationTypes
    ensures MouthOf(animationType).Some? ==> |MouthOf(animationType).value| == 4
    ensures forall a, b :: a in AnimationTypes && b in AnimationTypes && MouthOf(a) == MouthOf(b) ==> a == b
  {
  }

  /** `defaultAnimations`: one face per known type. */
  const DefaultAnimations: map<string, string> := map[
    "idle" := Face(CookedTop, CookedMid, CookedLow, IdleMouth),
    "talking" := Face(CookedTop, CookedMid, CookedLow, TalkingMouth),
    "listening" := Face(CookedTop, CookedMid, CookedLow, ListeningMouth),
    "thinking" := Face(CookedTop, CookedMid, CookedLow, ThinkingMouth)
  ]

  /** The built-in faces are exactly the four types, and no two of them are drawn alike. */
  lemma DefaultAnimationsDistinct()
    ensures DefaultAnimations.Keys == {"idle", "talking", "listening", "thinking"}
    ensures forall a, b :: a in DefaultAnimations && b in DefaultAnimations && a != b ==>
              DefaultAnimations[a] != DefaultAnimations[b]
  {
    forall a, b | a in DefaultAnimations && b in DefaultAnimations && a != b
      ensures DefaultAnimations[a] != DefaultAnimations[b]
    {
      MouthOfKnown(a);
      MouthDetermines(CookedTop, CookedMid, CookedLow, MouthOf(a).value, MouthOf(b).value);
    }
  }

  // ---------------------------------------------------------------------------
  // Loading and choosing frames
  // ---------------------------------------------------------------------------

  /**
    `loadAnimationFromFile`: the split frames of an existing file (possibly
    none), or null when the file is missing or reading it throws.
   */
  function LoadAnimationFromFile(file: FileRead): (r: Option<seq<string>>)
    ensures r.Some? <==> file.Content?
    ensures r.Some? ==> r.value == SplitFrames(file.text)
  {
    match file
    case Content(text) => Some(SplitFrames(text))
    case _ => None
  }

  /** `Math.floor(Math.random() * n)`, with the random draw given as `pick`. */
  function RandomIndex(n: nat, pick: nat): (i: nat)
    requires n > 0
    ensures i < n
    ensures pick < n ==> i == pick
  {
    pick % n
  }

  /** `getRandomFrame(frames)`: null for a missing or empty list, otherwise one of its elements. */
  function GetRandomFrame(frames: Option<seq<string>>, pick: nat): (r: Option<string>)
    ensures r.None? <==> frames.None? || frames.value == []
    ensures r.Some? ==> r.value in frames.value
  {
    if frames.None? || frames.value == [] then None
    else Some(frames.value[RandomIndex(|frames.value|, pick)])
  }

  /** Every element of a non-empty list can be drawn. */
  lemma EveryFrameReachable(frames: seq<string>, k: nat)
    requires k < |frames|
    ensures GetRandomFrame(Some(frames), k) == Some(frames[k])
  {
  }

  /**
    `getAnimationFrame(appPath, type)`: a frame from the file when it yields
    any, else the built-in face of the type, else the idle face.
   */
  function GetAnimationFrame(animationType: string, file: FileRead, pick: nat): (r: string)
    ensures file.Content? && SplitFrames(file.text) != [] ==> r in SplitFrames(file.text)
    ensures !(file.Content? && SplitFrames(file.text) != []) ==>
              r == (if animationType in DefaultAnimations then DefaultAnimations[animationType]
                    else DefaultAnimations["idle"])
  {
    var frames := LoadAnimationFromFile(file);
    if frames.Some? && |frames.value| > 0 then GetRandomFrame(frames, pick).value
    else if animationType in DefaultAnimations then DefaultAnimations[animationType]
    else DefaultAnimations["idle"]
  }

  /** Without a usable file every unknown type is drawn as the idle face. */
  lemma UnknownTypeIsIdle(animationType: string, pick: nat)
    requires animationType !in AnimationTypes
    ensures GetAnimationFrame(animationType, Missing, pick) == DefaultAnimations["idle"]
  {
  }
}

=== FILE: asciifier.dfy ===
/**
  The procedural face generator (src/services/asciifier.js): four frame sets,
  filled from animation files or generated, and a current set that changes only
  to a type that has a set.
 */
module AsciiGenerator {
  import opened Base
  import opened Text
  import AsciiAnimations

  type FileRead = AsciiAnimations.FileRead

  datatype Generator = Generator(
    width: int,
    height: int,
    sets: map<string, seq<string>>,
    current: string)

  const DefaultWidth: int := 60
  const DefaultHeight: int := 20

  /** `options.width || 60`: an absent or zero option falls back to the default. */
  function OrDefault(option: Option<int>, default: int): (r: int)
    ensures option.Some? && option.value != 0 ==> r == option.value
    ensures option.None? || option.value == 0 ==> r == default
  {
    if option.Some? && option.value != 0 then option.value else default
  }

  /** The types, in the order `Object.keys` lists the initial sets. */
  const Types: seq<string> := AsciiAnimations.AnimationTypes

  /** `new AsciiGenerator(options)`: four empty sets, the idle one current. */
  function New(width: Option<int>, height: Option<int>): (g: Generator)
    ensures g.sets.Keys == {"idle", "talking", "listening", "thinking"}
    ensures forall t :: t in g.sets ==> g.sets[t] == []
    ensures g.current == "idle" && g.width == OrDefault(width, DefaultWidth) && g.height == OrDefault(height, DefaultHeight)
  {
    Generator(OrDefault(width, DefaultWidth), OrDefault(height, DefaultHeight),
              map["idle" := [], "talking" := [], "listening" := [], "thinking" := []], "idle")
  }

  /** The current set names a set: true after construction and kept by every operation. */
  predicate Valid(g: Generator) {
    g.current in g.sets
  }

  // ---------------------------------------------------------------------------
  // Procedural faces
  // ---------------------------------------------------------------------------

  const OpenEyes: string := "  o   o  "
  const RaisedEyes: string := "  ^   ^  "
  const WinkEyes: string := "  o   -  "
  const ClosedMouth: string := "   ---   "
  const OpenMouth: string := "   ===   "

  /** The small face, with the given eyes and mouth. */
  function SmallFace(eyes: string, mouth: string): string {
    SmallFaceHead(eyes) + mouth + SmallFaceTail
  }

  function SmallFaceHead(eyes: string): string {
    "\n+----------+\n|          |\n| " + eyes + " |\n|          |\n| "
  }

  const SmallFaceTail: string := " |\n|          |\n+----------+\n    "

  /** The eyes and mouth `generateFace` picks; an unknown expression leaves both empty. */
  function Features(expression: string, frameIndex: int): (r: (string, string))
    ensures expression == "talking" ==> r == (OpenEyes, if frameIndex % 2 == 0 then ClosedMouth else OpenMouth)
    ensures expression in {"neutral", "listening", "thinking"} ==> r.1 == ClosedMouth && |r.0| == 9
    ensures expression !in {"neutral", "talking", "listening", "thinking"} ==> r == ("", "")
  {
    if expression == "neutral" then (OpenEyes, ClosedMouth)
    else if expression == "talking" then (OpenEyes, if frameIndex % 2 == 0 then ClosedMouth else OpenMouth)
    else if expression == "listening" then (RaisedEyes, ClosedMouth)
    else if expression == "thinking" then (WinkEyes, ClosedMouth)
    else ("", "")
  }

  /**
    `generateFace(expression, frameIndex)`. Whether `frameIndex % 2 === 0`
    holds does not depend on how the remainder of a negative number is signed.
   */
  function GenerateFace(expression: string, frameIndex: int): string {
    var (eyes, mouth) := Features(expression, frameIndex);
    SmallFace(eyes, mouth)
  }

  lemma SmallMouthDetermines(eyes: string, a: string, b: string)
    requires |a| == |b|
    ensures SmallFace(eyes, a) == SmallFace(eyes, b) <==> a == b
  {
    var h := SmallFaceHead(eyes);
    if SmallFace(eyes, a) == SmallFace(eyes, b) {
      assert (h + a + SmallFaceTail)[|h|..|h| + |a|] == a;
      assert (h + b + SmallFaceTail)[|h|..|h| + |b|] == b;
    }
  }

  /**
    The talking face opens its mouth on odd frames and closes it on even ones,
    so two talking frames are drawn alike exactly when their indices have the
    same parity; every other expression ignores the index.
   */
  lemma TalkingAlternates(i: int, j: int)
    ensures GenerateFace("talking", i) == GenerateFace("talking", j) <==> i % 2 == j % 2
    ensures forall e :: e != "talking" ==> GenerateFace(e, i) == GenerateFace(e, j)
  {
    SmallMouthDetermines(OpenEyes, ClosedMouth, OpenMouth);
    assert ClosedMouth != OpenMouth by { assert ClosedMouth[3] != OpenMouth[3]; }
  }

  /** The expression each type's default set is drawn with. */
  function Expression(animationType: string): Option<string> {
    if animationType == "idle" then Some("neutral")
    else if animationType == "talking" then Some("talking")
    else if animationType == "listening" then Some("listening")
    else if animationType == "thinking" then Some("thinking")
    else None
  }

  /** Frame `i` of the default set: the face for the type's expression, or `''` for an unknown type. */
  function DefaultFrame(animationType: string, i: int): string {
    match Expression(animationType)
    case Some(e) => GenerateFace(e, i)
    case None => ""
  }

  /** How many frames `generateDefaultAnimationSet` draws. */
  const SetSize: nat := 5

  /** The default set of a type: frames 0 to 4. */
  function DefaultFrames(animationType: string): seq<string> {
    seq(SetSize, i => DefaultFrame(animationType, i))
  }

  /**
    `generateDefaultAnimationSet(type)`: always five frames, the i-th drawn
    for frame index i. Only the talking set changes from frame to frame, and
    it alternates; an unknown type gives five empty frames.
   */
  method GenerateDefaultAnimationSet(animationType: string) returns (frames: seq<string>)
    ensures frames == DefaultFrames(animationType)
    ensures |frames| == SetSize
    ensures Expression(animationType).None? ==> forall i :: 0 <= i < |frames| ==> frames[i] == ""
    ensures animationType != "talking" ==>
              forall i, j :: 0 <= i < |frames| && 0 <= j < |frames| ==> frames[i] == frames[j]
    ensures animationType == "talking" ==>
              forall i, j :: 0 <= i < |frames| && 0 <= j < |frames| ==> (frames[i] == frames[j] <==> i % 2 == j % 2)
  {
    frames := [];
    var i := 0;
    while i < SetSize
      invariant 0 <= i <= SetSize
      invariant frames == DefaultFrames(animationType)[..i]
    {
      var frame := "";
      var e := Expression(animationType);
      if e.Some? {
        frame := GenerateFace(e.value, i);
      }
      assert DefaultFrames(animationType)[..i + 1] == DefaultFrames(animationType)[..i] + [frame];
      frames := frames + [frame];
      i := i + 1;
    }
    assert frames == DefaultFrames(animationType);
    forall i, j | 0 <= i < |frames| && 0 <= j < |frames|
      ensures animationType != "talking" ==> frames[i] == frames[j]
      ensures animationType == "talking" ==> (frames[i] == frames[j] <==> i % 2 == j % 2)
    {
      TalkingAlternates(i, j);
    }
  }

  /** The default talking set alternates closed, open, closed, open, closed. */
  lemma TalkingSetAlternates()
    ensures DefaultFrames("talking")[0] == DefaultFrames("talking")[2] == DefaultFrames("talking")[4]
    ensures DefaultFrames("talking")[0] != DefaultFrames("talking")[1]
    ensures DefaultFrames("talking")[1] == DefaultFrames("talking")[3]
  {
    TalkingAlternates(0, 1);
    TalkingAlternates(0, 2);
    TalkingAlternates(0, 4);
    TalkingAlternates(1, 3);
  }

  // ---------------------------------------------------------------------------
  // initialize
  // ---------------------------------------------------------------------------

  /** What one type's file contributes: its split frames, or the generated set when it is missing. */
  function SetFor(animationType: string, file: FileRead): seq<string>
    requires !file.ReadFailed?
  {
    match file
    case Content(text) => AsciiAnimations.SplitFrames(text)
    case Missing => DefaultFrames(animationType)
  }

  /**
    Fills the sets of `types` in order; a read that throws stops the loop and
    makes `initialize` return false, with the earlier types already filled.
   */
  function Fill(g: Generator, types: seq<string>, files: string -> FileRead): (r: (Generator, bool))
    ensures r.0.current == g.current
    ensures r.1 <==> forall k :: 0 <= k < |types| ==> !files(types[k]).ReadFailed?
    decreases |types|
  {
    if types == [] then (g, true)
    else
      var t := types[0];
      if files(t).ReadFailed? then (g, false)
      else
        var r := Fill(g.(sets := g.sets[t := SetFor(t, files(t))]), types[1..], files);
        assert forall k :: 1 <= k < |types| ==> types[k] == types[1..][k - 1];
        r
  }

  /** Filling adds sets only for `types` and leaves the set of every other type as it was. */
  lemma {:induction false} FillKeeps(g: Generator, types: seq<string>, files: string -> FileRead)
    ensures g.sets.Keys <= Fill(g, types, files).0.sets.Keys
    ensures forall t :: t in Fill(g, types, files).0.sets ==> t in g.sets || t in types
    ensures forall t :: t in g.sets && t !in types ==> Fill(g, types, files).0.sets[t] == g.sets[t]
    decreases |types|
  {
    if types != [] && !files(types[0]).ReadFailed? {
      var t := types[0];
      FillKeeps(g.(sets := g.sets[t := SetFor(t, files(t))]), types[1..], files);
    }
  }

  /** When no read throws, every type holds the set its file gives (or the generated one). */
  lemma {:induction false} FillSets(g: Generator, types: seq<string>, files: string -> FileRead)
    requires Fill(g, types, files).1
    ensures forall k :: 0 <= k < |types| ==>
              types[k] in Fill(g, types, files).0.sets
              && Fill(g, types, files).0.sets[types[k]] == SetFor(types[k], files(types[k]))
    decreases |types|
  {
    if types != [] {
      var t := types[0];
      var g1 := g.(sets := g.sets[t := SetFor(t, files(t))]);
      assert Fill(g, types, files) == Fill(g1, types[1..], files);
      FillSets(g1, types[1..], files);
      FillKeeps(g1, types[1..], files);
      assert forall k :: 1 <= k < |types| ==> types[k] == types[1..][k - 1];
    }
  }

  /** `initialize()`: every type is filled when no read throws. */
  function Initialize(g: Generator, files: string -> FileRead): (r: (Generator, bool))
    ensures Valid(g) ==> Valid(r.0)
    ensures r.1 <==> forall k :: 0 <= k < |Types| ==> !files(Types[k]).ReadFailed?
    ensures r.1 ==> forall k :: 0 <= k < |Types| ==>
              Types[k] in r.0.sets && r.0.sets[Types[k]] == SetFor(Types[k], files(Types[k]))
  {
    FillKeeps(g, Types, files);
    if Fill(g, Types, files).1 then FillSets(g, Types, files); Fill(g, Types, files)
    else Fill(g, Types, files)
  }

  /** With no files at all, every set is the generated five-frame set. */
  lemma NoFilesGivesDefaults(width: Option<int>, height: Option<int>)
    ensures var r := Initialize(New(width, height), t => AsciiAnimations.Missing);
            r.1 && forall t :: t in r.0.sets ==> r.0.sets[t] == DefaultFrames(t) && |r.0.sets[t]| == SetSize
  {
    var g := New(width, height);
    var files: string -> FileRead := t => AsciiAnimations.Missing;
    var r := Initialize(g, files);
    FillKeeps(g, Types, files);
    forall t | t in r.0.sets ensures r.0.sets[t] == DefaultFrames(t) && |r.0.sets[t]| == SetSize {
      assert t in Types;
      var k :| 0 <= k < |Types| && Types[k] == t;
      assert r.0.sets[t] == SetFor(t, files(t)) == DefaultFrames(t);
    }
  }

  // ---------------------------------------------------------------------------
  // Frame access
  // ---------------------------------------------------------------------------

  /**
    `getAnimation(type)`: a non-empty type that has a set becomes current; the
    frames of the (possibly unchanged) current set are returned, or `None`
    (`undefined`) if the current name has no set.
   */
  function GetAnimation(g: Generator, animationType: Option<string>): (r: (Generator, Option<seq<string>>))
    ensures r.0 == (if animationType.Some? && animationType.value != "" && animationType.value in g.sets
                    then g.(current := animationType.value) else g)
    ensures Valid(g) ==> Valid(r.0) && r.1 == Some(g.sets[r.0.current])
  {
    var g1 := if animationType.Some? && animationType.value != "" && animationType.value in g.sets
              then g.(current := animationType.value) else g;
    (g1, if g1.current in g1.sets then Some(g1.sets[g1.current]) else None)
  }

  /** An unknown or absent type keeps the previous set. */
  lemma UnknownTypeKeepsSet(g: Generator, animationType: Option<string>)
    requires animationType.None? || animationType.value !in g.sets
    ensures GetAnimation(g, animationType).0.current == g.current
  {
  }

  /** JavaScript's `a % b` for b > 0: the remainder takes the sign of `a`. */
  function JsRem(a: int, b: int): (r: int)
    requires b > 0
    ensures a >= 0 ==> r == a % b
    ensures a < 0 ==> -b < r <= 0 && (r == 0 <==> (-a) % b == 0)
  {
    if a >= 0 then a % b else -((-a) % b)
  }

  /** `frames[i]`: `undefined` for an index outside the list. */
  function At(frames: seq<string>, i: int): (r: Option<string>)
    ensures r.Some? <==> 0 <= i < |frames|
  {
    if 0 <= i < |frames| then Some(frames[i]) else None
  }

  /**
    `getSequentialFrame(type, index)`: `frames[index % frames.length]` of the
    (possibly switched) current set. An empty set gives `NaN`, a negative index
    a negative remainder; both read `undefined`, except that a negative
    multiple of the length reads element 0.
   */
  function GetSequentialFrame(g: Generator, animationType: Option<string>, index: int): (r: (Generator, Option<string>))
    ensures r.0 == GetAnimation(g, animationType).0
    ensures Valid(g) && index >= 0 && g.sets[r.0.current] != [] ==>
              r.1 == Some(g.sets[r.0.current][index % |g.sets[r.0.current]|])
    ensures Valid(g) && index < 0 && g.sets[r.0.current] != [] ==>
              (r.1.Some? <==> (-index) % |g.sets[r.0.current]| == 0)
    ensures Valid(g) && g.sets[r.0.current] == [] ==> r.1.None?
  {
    var (g1, frames) := GetAnimation(g, animationType);
    if frames.None? || frames.value == [] then (g1, None)
    else (g1, At(frames.value, JsRem(index, |frames.value|)))
  }

  /**
    `getRandomFrame(type)`: a frame of the (possibly switched) current set
    chosen by `pick`, or `undefined` when that set is empty.
   */
  function GetRandomFrame(g: Generator, animationType: Option<string>, pick: nat): (r: (Generator, Option<string>))
    ensures r.0 == GetAnimation(g, animationType).0
    ensures Valid(g) ==> (r.1.Some? <==> g.sets[r.0.current] != [])
    ensures r.1.Some? && Valid(g) ==> r.1.value in g.sets[r.0.current]
  {
    var (g1, frames) := GetAnimation(g, animationType);
    if frames.None? || frames.value == [] then (g1, None)
    else (g1, Some(frames.value[AsciiAnimations.RandomIndex(|frames.value|, pick)]))
  }

  /** A sequence of frame requests cycles through the current set. */
  lemma SequentialFrameCycles(g: Generator, index: nat)
    requires Valid(g) && g.sets[g.current] != []
    ensures GetSequentialFrame(g, None, index + |g.sets[g.current]|).1 == GetSequentialFrame(g, None, index).1
  {
    var n := |g.sets[g.current]|;
    ModPeriod(index, n);
  }

  lemma ModPeriod(x: nat, n: nat)
    requires n > 0
    ensures (x + n) % n == x % n
  {
    var q, r := x / n, x % n;
    var q2, r2 := (x + n) / n, (x + n) % n;
    assert (q + 1 - q2) * n == r2 - r;
    MultipleBelow(q + 1 - q2, n);
  }

  /** A multiple of `n` strictly between `-n` and `n` is zero. */
  lemma MultipleBelow(k: int, n: int)
    requires n > 0 && -n < k * n < n
    ensures k == 0
  {
  }
}

=== FILE: base.dfy ===
/** Failure-carrying wrappers shared by every module of the model. */
module Base {

  /** A value that may be absent: JavaScript's `null` / `undefined` results. */
  datatype Option<+T> = None | Some(value: T) {
    function GetOr(default: T): T {
      match this
      case Some(v) => v
      case None => default
    }
  }

  /** The outcome of an operation that can throw: `Err` carries what was thrown. */
  datatype Result<+T, +E> = Ok(value: T) | Err(error: E)
}

=== FILE: browser_automation.dfy ===
/**
  The Playwright test runner (src/services/browserAutomation.js): starting and
  stopping the browser, the running-guards of the page operations, URL
  normalisation, filling a form, and the scenario interpreter. Every Playwright
  call is an oracle whose outcome is a parameter; the clock is the ISO time
  string handed in.
 */
module BrowserAutomation {
  import opened Base
  import opened Text
  import opened Json
  import PosixPath

  /**
    The service's handles. `page`, `context` and `browser` say whether the
    corresponding handle is non-null.
   */
  datatype Service = Service(
    running: bool,
    page: bool,
    context: bool,
    browser: bool,
    currentUrl: string,
    screenshotDir: string)

  /**
    `new BrowserAutomationService(options)`: nothing launched; the screenshot
    directory is `options.screenshotDir || path.join(cwd, 'screenshots')`.
   */
  function New(cwd: string, screenshotDir: Option<string>): (s: Service)
    ensures !s.running && !s.page && !s.context && !s.browser && s.currentUrl == ""
    ensures screenshotDir.Some? && screenshotDir.value != "" ==> s.screenshotDir == screenshotDir.value
    ensures !(screenshotDir.Some? && screenshotDir.value != "") ==>
              s.screenshotDir == PosixPath.DirPrefix(cwd) + "screenshots"
  {
    PosixPath.JoinPlainName(cwd, "screenshots");
    var dir := if screenshotDir.Some? && screenshotDir.value != "" then screenshotDir.value
               else PosixPath.Join(cwd, "screenshots");
    Service(false, false, false, false, "", dir)
  }

  /** Page operations need a running browser with a page. */
  predicate Ready(s: Service) {
    s.running && s.page
  }

  /** A page handle exists only while the service counts as running. */
  predicate PageOnlyWhileRunning(s: Service) {
    s.running || !s.page
  }

  // ---------------------------------------------------------------------------
  // Starting and stopping
  // ---------------------------------------------------------------------------

  /** Which step of `startBrowser` throws, if any. */
  datatype StartOutcome = Started | LaunchThrew | ContextThrew | PageThrew

  /** Which `close()` of `stopBrowser` throws, if any. */
  datatype StopOutcome = Closed | PageCloseThrew | ContextCloseThrew | BrowserCloseThrew

  /**
    `startBrowser()`: true at once when already running; otherwise launch,
    create the context and the page, and only then count as running. A throw
    leaves the handles assigned so far in place and reports false.
   */
  function StartBrowser(s: Service, outcome: StartOutcome): (r: (Service, bool))
    ensures s.running ==> r.0 == s && r.1
    ensures !s.running ==> (r.1 <==> outcome == Started)
    ensures !s.running && r.1 ==> Ready(r.0)
    ensures !r.1 ==> !r.0.running && r.0.page == s.page
    ensures r.0.currentUrl == s.currentUrl && r.0.screenshotDir == s.screenshotDir
  {
    if s.running then (s, true)
    else
      match outcome
      case Started => (s.(running := true, page := true, context := true, browser := true), true)
      case LaunchThrew => (s, false)
      case ContextThrew => (s.(browser := true), false)
      case PageThrew => (s.(browser := true, context := true), false)
  }

  /**
    `stopBrowser()`: true at once when not running; otherwise close and clear
    the page, the context and the browser in that order, skipping absent
    handles. A throw keeps the service running, with the handles closed so far
    cleared, and reports false.
   */
  function StopBrowser(s: Service, outcome: StopOutcome): (r: (Service, bool))
    ensures !s.running ==> r.0 == s && r.1
    ensures r.1 ==> !r.0.running
    ensures s.running && r.1 ==> !r.0.page && !r.0.context && !r.0.browser
    ensures s.running && outcome == Closed ==> r.1
    ensures !r.1 ==> r.0.running && s.running
    ensures r.0.currentUrl == s.currentUrl && r.0.screenshotDir == s.screenshotDir
  {
    if !s.running then (s, true)
    else if s.page && outcome == PageCloseThrew then (s, false)
    else
      var s1 := s.(page := false);
      if s1.context && outcome == ContextCloseThrew then (s1, false)
      else
        var s2 := s1.(context := false);
        if s2.browser && outcome == BrowserCloseThrew then (s2, false)
        else (s2.(browser := false, running := false), true)
  }

  /** Starting twice launches once: the second call finds the browser running. */
  lemma StartIdempotent(s: Service, first: StartOutcome, second: StartOutcome)
    requires StartBrowser(s, first).1
    ensures StartBrowser(StartBrowser(s, first).0, second) == StartBrowser(s, first)
  {
  }

  /** Stopping after a successful stop changes nothing and reports true. */
  lemma StopIdempotent(s: Service, first: StopOutcome, second: StopOutcome)
    requires StopBrowser(s, first).1
    ensures StopBrowser(StopBrowser(s, first).0, second) == StopBrowser(s, first)
  {
  }

  // ---------------------------------------------------------------------------
  // Navigation
  // ---------------------------------------------------------------------------

  /** `url` with `https://` put in front unless it already starts with `http://` or `https://`. */
  function NormalizeUrl(url: string): (r: string)
    ensures StartsWith(r, "http://") || StartsWith(r, "https://")
    ensures r == url <==> StartsWith(url, "http://") || StartsWith(url, "https://")
    ensures r != url ==> r == "https://" + url
  {
    if StartsWith(url, "http://") || StartsWith(url, "https://") then url
    else
      assert ("https://" + url)[..8] == "https://";
      "https://" + url
  }

  /** Normalising twice is normalising once. */
  lemma NormalizeUrlIdempotent(url: string)
    ensures NormalizeUrl(NormalizeUrl(url)) == NormalizeUrl(url)
  {
  }

  /**
    `navigateTo(url)`: starts the browser first when needed (false if that
    fails), then loads the normalised url. `goto(target)` is the url the page
    reports after loading `target`, or `None` when `page.goto` throws. A
    missing url makes `url.startsWith` throw; a missing page makes
    `page.goto` throw; both are caught and report false.
   */
  function NavigateTo(s: Service, url: Option<string>, start: StartOutcome, goto: string -> Option<string>): (r: (Service, bool))
    ensures r.1 ==> Ready(r.0) && url.Some? && goto(NormalizeUrl(url.value)) == Some(r.0.currentUrl)
    ensures !r.1 ==> r.0.currentUrl == s.currentUrl
    ensures Ready(s) && url.Some? && goto(NormalizeUrl(url.value)).Some? ==> r.1
    ensures !s.running && start != Started ==> !r.1 && !r.0.running
    ensures s.running ==> r.0.running == s.running && r.0.page == s.page
    ensures r.0.screenshotDir == s.screenshotDir
  {
    var started := if s.running then (s, true) else StartBrowser(s, start);
    var s1 := started.0;
    if !started.1 then (s1, false)
    else
      match url
      case None => (s1, false)
      case Some(u) =>
        if !s1.page then (s1, false)
        else
          match goto(NormalizeUrl(u))
          case None => (s1, false)
          case Some(landed) => (s1.(currentUrl := landed), true)
  }

  // ---------------------------------------------------------------------------
  // Page operations
  // ---------------------------------------------------------------------------

  /** `new Date().toISOString().replace(/[:.]/g, '-')`, given the ISO string. */
  function Stamp(iso: string): (r: string)
    ensures |r| == |iso|
    ensures forall i :: 0 <= i < |r| ==> r[i] != ':' && r[i] != '.'
    ensures forall i :: 0 <= i < |r| ==> r[i] == (if iso[i] == ':' || iso[i] == '.' then '-' else iso[i])
  {
    seq(|iso|, i requires 0 <= i < |iso| => if iso[i] == ':' || iso[i] == '.' then '-' else iso[i])
  }

  /** The screenshot file name: `<name>-<stamp>.png` for a non-empty name, else `screenshot-<stamp>.png`. */
  function ScreenshotFile(name: Option<string>, iso: string): (r: string)
    ensures name.Some? && name.value != "" ==> StartsWith(r, name.value + "-")
    ensures !(name.Some? && name.value != "") ==> StartsWith(r, "screenshot-")
    ensures EndsWith(r, ".png")
    ensures '/' in r <==> '/' in iso || (name.Some? && '/' in name.value)
  {
    var base := if name.Some? && name.value != "" then name.value else "screenshot";
    var stamp := Stamp(iso);
    var r := base + "-" + stamp + ".png";
    assert r[..|base + "-"|] == base + "-";
    assert r[|r| - 4..] == ".png";
    assert '/' in stamp <==> '/' in iso by {
      if '/' in iso {
        var i :| 0 <= i < |iso| && iso[i] == '/';
        assert stamp[i] == '/';
      }
    }
    assert '/' !in "screenshot" && '/' !in "-" && '/' !in ".png";
    r
  }

  /**
    `takeScreenshot(name)`: null without a ready page; otherwise the file is
    written to `path.join(screenshotDir, file)`, which is returned, or writing
    throws (`written` is false) and the result is null. A file name with no
    slash lands directly in the screenshot directory.
   */
  function TakeScreenshot(s: Service, name: Option<string>, iso: string, written: string -> bool): (r: Option<string>)
    ensures !Ready(s) ==> r.None?
    ensures r.Some? ==> written(r.value) && EndsWith(r.value, ".png")
    ensures Ready(s) && '/' !in ScreenshotFile(name, iso) ==>
              r == (var path := PosixPath.DirPrefix(s.screenshotDir) + ScreenshotFile(name, iso);
                    if written(path) then Some(path) else None)
  {
    if !Ready(s) then None
    else
      var file := ScreenshotFile(name, iso);
      var path := PosixPath.Join(s.screenshotDir, file);
      PosixPath.JoinKeepsSuffix(s.screenshotDir, file, ".png");
      if '/' !in file then
        assert file[|file| - 4..] == ".png";
        assert PosixPath.PlainName(file) by {
          if |file| <= 2 { assert false; }
        }
        PosixPath.JoinPlainName(s.screenshotDir, file);
        if written(path) then Some(path) else None
      else
        if written(path) then Some(path) else None
  }

  /**
    A name with a `..` segment leaves the directory: with the screenshot
    directory `/shots`, the name `../x` and an empty time stamp, the file is
    written to `/x-.png`.
   */
  lemma ScreenshotNameCanLeaveDirectory(s: Service, written: string -> bool)
    requires Ready(s) && s.screenshotDir == "/shots" && written("/x-.png")
    ensures TakeScreenshot(s, Some("../x"), "", written) == Some("/x-.png")
  {
    var file := ScreenshotFile(Some("../x"), "");
    assert Stamp("") == "";
    assert file == ".." + "/" + "x-.png";
    PosixPath.LeavingDirectory();
  }

  /** What the page has under a selector: nothing, an element, or an element whose handling throws. */
  datatype Element = Absent | Present | Broken

  /** A form field is handled without a throw: absent, or present with a string value to fill in. */
  predicate Fillable(entry: (string, Option<string>), element: string -> Element) {
    element(entry.0) == Absent || (element(entry.0) == Present && entry.1.Some?)
  }

  /** The selectors of the present fields, in order: the ones `fillForm` fills. */
  function PresentSelectors(entries: seq<(string, Option<string>)>, element: string -> Element): seq<string> {
    if entries == [] then []
    else (if element(entries[0].0) == Present then [entries[0].0] else [])
         + PresentSelectors(entries[1..], element)
  }

  /**
    The loop of `fillForm` over `Object.entries(formData)`: an absent selector
    is skipped; a present one is clicked and filled (a missing value makes
    `page.fill` throw); any throw ends the loop with false. Returns whether
    the loop finished and the selectors filled so far.
   */
  function FillEntries(entries: seq<(string, Option<string>)>, element: string -> Element): (r: (bool, seq<string>))
    ensures r.0 <==> forall i :: 0 <= i < |entries| ==> Fillable(entries[i], element)
    ensures r.0 ==> r.1 == PresentSelectors(entries, element)
    ensures forall x :: x in r.1 ==> element(x) == Present
  {
    if entries == [] then (true, [])
    else
      var sel := entries[0].0;
      match element(sel)
      case Absent =>
        var rest := FillEntries(entries[1..], element);
        assert forall i :: 1 <= i < |entries| ==> entries[i] == entries[1..][i - 1];
        rest
      case Broken => (false, [])
      case Present =>
        if entries[0].1.None? then (false, [sel])
        else
          var rest := FillEntries(entries[1..], element);
          assert forall i :: 1 <= i < |entries| ==> entries[i] == entries[1..][i - 1];
          (rest.0, [sel] + rest.1)
  }

  /** An absent selector anywhere in the form changes nothing. */
  lemma {:induction false} AbsentSelectorSkipped(
    before: seq<(string, Option<string>)>, entry: (string, Option<string>), after: seq<(string, Option<string>)>,
    element: string -> Element)
    requires element(entry.0) == Absent
    ensures FillEntries(before + [entry] + after, element) == FillEntries(before + after, element)
  {
    if before == [] {
      assert before + [entry] + after == [entry] + after;
      assert ([entry] + after)[0] == entry;
      assert ([entry] + after)[1..] == after;
      assert before + after == after;
    } else {
      AbsentSelectorSkipped(before[1..], entry, after, element);
      assert (before + [entry] + after)[1..] == before[1..] + [entry] + after;
      assert (before + after)[1..] == before[1..] + after;
      assert (before + [entry] + after)[0] == before[0];
      assert (before + after)[0] == before[0];
    }
  }

  /** `fillForm(formData)`: false without a ready page, otherwise the outcome of the fill loop. */
  function FillForm(s: Service, entries: seq<(string, Option<string>)>, element: string -> Element): (r: (bool, seq<string>))
    ensures !Ready(s) ==> r == (false, [])
    ensures r.0 <==> Ready(s) && forall i :: 0 <= i < |entries| ==> Fillable(entries[i], element)
    ensures r.0 ==> r.1 == PresentSelectors(entries, element)
  {
    if !Ready(s) then (false, []) else FillEntries(entries, element)
  }

  /**
    `clickElement(selector)`: true exactly when the page is ready and the
    element is there to click; a missing selector makes `page.$` throw.
   */
  function ClickElement(s: Service, selector: Option<string>, element: string -> Element): (r: bool)
    ensures r <==> Ready(s) && selector.Some? && element(selector.value) == Present
  {
    Ready(s) && selector.Some? && element(selector.value) == Present
  }

  /**
    `executeScript(script)`: the value `page.evaluate` gives (`None` when it
    throws), or null without a ready page or on a throw.
   */
  function ExecuteScript(s: Service, script: Option<string>, evaluate: Option<string> -> Option<Json>): (r: Json)
    ensures !Ready(s) ==> r == JNull
    ensures Ready(s) && evaluate(script).Some? ==> r == evaluate(script).value
    ensures evaluate(script).None? ==> r == JNull
  {
    if !Ready(s) then JNull
    else match evaluate(script)
      case Some(v) => v
      case None => JNull
  }

  /** `getPageContent()`: the page's HTML, or null without a ready page or when reading throws. */
  function GetPageContent(s: Service, content: Option<string>): (r: Option<string>)
    ensures r.Some? <==> Ready(s) && content.Some?
    ensures r.Some? ==> r == content
  {
    if Ready(s) then content else None
  }

  const DefaultWaitTimeout: int := 30000
  const DefaultPause: int := 1000

  /** The `timeout = 30000` default parameter: it applies only when the argument is undefined. */
  function WaitTimeout(timeout: Option<int>): (t: int)
    ensures timeout.Some? ==> t == timeout.value
    ensures timeout.None? ==> t == DefaultWaitTimeout
  {
    timeout.GetOr(DefaultWaitTimeout)
  }

  /**
    `waitForElement(selector, timeout)`: false without a ready page, otherwise
    whether the selector appears within the timeout (`appears`).
   */
  function WaitForElement(s: Service, selector: string, timeout: Option<int>, appears: (string, int) -> bool): (r: bool)
    ensures r <==> Ready(s) && appears(selector, WaitTimeout(timeout))
  {
    Ready(s) && appears(selector, WaitTimeout(timeout))
  }

  /** `step.timeout || 1000`: the pause of a `wait` step without a selector. */
  function PauseOf(timeout: Option<int>): (ms: int)
    ensures timeout.Some? && timeout.value != 0 ==> ms == timeout.value
    ensures !(timeout.Some? && timeout.value != 0) ==> ms == DefaultPause
  {
    if timeout.Some? && timeout.value != 0 then timeout.value else DefaultPause
  }

  // ---------------------------------------------------------------------------
  // The scenario interpreter
  // ---------------------------------------------------------------------------

  /** One entry of `scenario.steps`; absent properties are `None`. */
  datatype Step = Step(
    action: Option<string>,
    url: Option<string>,
    selector: Option<string>,
    value: Option<string>,
    timeout: Option<int>,
    name: Option<string>,
    script: Option<string>)

  /** What a recorded step carries besides `action` and `success`. */
  datatype Detail = Plain | Shot(path: Option<string>) | Script(result: Json) | Failure(message: string)

  datatype StepResult = StepResult(action: Option<string>, success: bool, detail: Detail)

  /** The outcomes of every Playwright call a scenario can make, and the clock. */
  datatype World = World(
    start: StartOutcome,
    stop: StopOutcome,
    goto: string -> Option<string>,
    element: string -> Element,
    appears: (string, int) -> bool,
    written: string -> bool,
    evaluate: Option<string> -> Option<Json>,
    iso: string)

  const KnownActions: set<string> := {"navigate", "click", "fill", "wait", "screenshot", "execute"}

  /** How a template literal shows a possibly undefined string. */
  function Show(v: Option<string>): string {
    v.GetOr("undefined")
  }

  /** A JavaScript string is truthy when it is non-empty. */
  predicate NonEmpty(v: Option<string>) {
    v.Some? && v.value != ""
  }

  /** One pass of the `switch (step.action)` of `runTestScenario`. */
  function RunStep(s: Service, step: Step, w: World): (r: (Service, StepResult))
    ensures r.1.action == step.action
    ensures step.action.None? || step.action.value !in KnownActions ==>
              !r.1.success && r.1.detail == Failure("Nieznana akcja: " + Show(step.action))
    ensures step.action == Some("execute") ==>
              r.1.success && r.1.detail == Script(ExecuteScript(s, step.script, w.evaluate))
    ensures step.action == Some("wait") && !NonEmpty(step.selector) ==> r.1.success
    ensures step.action == Some("screenshot") ==> (r.1.success <==> r.1.detail.Shot? && r.1.detail.path.Some?)
    ensures step.action != Some("navigate") ==> r.0 == s
    ensures !Ready(s) && step.action.Some? && step.action.value in {"click", "fill", "screenshot"} ==> !r.1.success
  {
    var a := step.action;
    if a == Some("navigate") then
      var nav := NavigateTo(s, step.url, w.start, w.goto);
      (nav.0, StepResult(a, nav.1, Plain))
    else if a == Some("click") then
      (s, StepResult(a, ClickElement(s, step.selector, w.element), Plain))
    else if a == Some("fill") then
      (s, StepResult(a, FillForm(s, [(Show(step.selector), step.value)], w.element).0, Plain))
    else if a == Some("wait") then
      if NonEmpty(step.selector) then
        (s, StepResult(a, WaitForElement(s, step.selector.value, step.timeout, w.appears), Plain))
      else
        (s, StepResult(a, true, Plain))
    else if a == Some("screenshot") then
      var path := TakeScreenshot(s, step.name, w.iso, w.written);
      (s, StepResult(a, path.Some?, Shot(path)))
    else if a == Some("execute") then
      (s, StepResult(a, true, Script(ExecuteScript(s, step.script, w.evaluate))))
    else
      (s, StepResult(a, false, Failure("Nieznana akcja: " + Show(a))))
  }

  /**
    The step loop. A `None` entry stands for a null step, whose `step.action`
    throws; the loop then ends with the service as it stands (`Err`). With
    `stopOnError` the loop ends right after the first failed step.
   */
  function RunSteps(s: Service, steps: seq<Option<Step>>, stopOnError: bool, w: World): (r: Result<(Service, seq<StepResult>), Service>)
    ensures r.Err? ==> exists i :: 0 <= i < |steps| && steps[i].None?
    ensures (forall i :: 0 <= i < |steps| ==> steps[i].Some?) && !stopOnError ==> r.Ok?
    ensures r.Ok? ==> |r.value.1| <= |steps|
    ensures r.Ok? ==> forall i :: 0 <= i < |r.value.1| ==> steps[i].Some? && r.value.1[i].action == steps[i].value.action
    ensures r.Ok? && !stopOnError ==> |r.value.1| == |steps|
    ensures r.Ok? && stopOnError ==> forall i :: 0 <= i < |r.value.1| - 1 ==> r.value.1[i].success
    ensures r.Ok? && stopOnError && |r.value.1| < |steps| ==> |r.value.1| > 0 && !r.value.1[|r.value.1| - 1].success
    decreases |steps|
  {
    if steps == [] then Ok((s, []))
    else
      match steps[0]
      case None => Err(s)
      case Some(step) =>
        var (s1, res) := RunStep(s, step, w);
        if !res.success && stopOnError then Ok((s1, [res]))
        else
          match RunSteps(s1, steps[1..], stopOnError, w)
          case Err(s2) => Err(s2)
          case Ok((s2, rs)) => Ok((s2, [res] + rs))
  }

  datatype Scenario = Scenario(
    name: Option<string>,
    steps: Option<seq<Option<Step>>>,   // None: `steps` is not an array
    stopOnError: bool,
    screenshotOnComplete: bool,
    closeBrowserAfter: bool)

  /** What `runTestScenario` resolves to. */
  datatype Report =
    | Rejected(error: string)                                         // malformed scenario
    | Threw                                                            // `{success: false, error: error.message}`
    | Completed(success: bool, results: seq<StepResult>, url: string)

  const InvalidScenario: string := "Nieprawidłowy format scenariusza testu"
  const FinalShot: string := "final-screenshot"

  /** Every recorded step succeeded: `results.every(result => result.success)`. */
  predicate AllSucceeded(results: seq<StepResult>) {
    forall i :: 0 <= i < |results| ==> results[i].success
  }

  /** The name of the closing screenshot: `${scenario.name || 'test'}-final`. */
  function FinalShotName(name: Option<string>): string {
    (if NonEmpty(name) then name.value else "test") + "-final"
  }

  /** The results after the optional closing screenshot. */
  function WithFinalShot(s: Service, sc: Scenario, rs: seq<StepResult>, w: World): (r: seq<StepResult>)
    ensures !sc.screenshotOnComplete ==> r == rs
    ensures sc.screenshotOnComplete ==> |r| == |rs| + 1 && r[..|rs|] == rs && r[|rs|].action == Some(FinalShot)
  {
    if sc.screenshotOnComplete then
      var shot := TakeScreenshot(s, Some(FinalShotName(sc.name)), w.iso, w.written);
      rs + [StepResult(Some(FinalShot), shot.Some?, Shot(shot))]
    else rs
  }

  /**
    `runTestScenario(scenario)`: rejects a missing scenario or non-array steps;
    otherwise starts the browser if needed (ignoring the outcome), runs the
    steps, takes the closing screenshot and stops the browser when asked, and
    succeeds exactly when every recorded result did.
   */
  function RunTestScenario(s: Service, scenario: Option<Scenario>, w: World): (r: (Service, Report))
    ensures r.1.Rejected? <==> scenario.None? || scenario.value.steps.None?
    ensures r.1.Rejected? ==> r == (s, Rejected(InvalidScenario))
    ensures r.1.Completed? ==> (r.1.success <==> AllSucceeded(r.1.results))
    ensures r.1.Completed? ==> |r.1.results| <= |scenario.value.steps.value| + 1
    ensures r.1.Completed? && scenario.value.screenshotOnComplete ==>
              |r.1.results| >= 1 && r.1.results[|r.1.results| - 1].action == Some(FinalShot)
    ensures r.1.Completed? ==> r.1.url == r.0.currentUrl
    ensures r.1.Threw? ==> exists i :: 0 <= i < |scenario.value.steps.value| && scenario.value.steps.value[i].None?
  {
    if scenario.None? || scenario.value.steps.None? then (s, Rejected(InvalidScenario))
    else
      var sc := scenario.value;
      var s1 := if !s.running then StartBrowser(s, w.start).0 else s;
      match RunSteps(s1, sc.steps.value, sc.stopOnError, w)
      case Err(s2) => (s2, Threw)
      case Ok((s2, rs)) =>
        var results := WithFinalShot(s2, sc, rs, w);
        var s3 := if sc.closeBrowserAfter then StopBrowser(s2, w.stop).0 else s2;
        (s3, Completed(AllSucceeded(results), results, s3.currentUrl))
  }

  // ---------------------------------------------------------------------------
  // The page handle never outlives the running flag
  // ---------------------------------------------------------------------------

  lemma StartStopKeepPage(s: Service, start: StartOutcome, stop: StopOutcome)
    requires PageOnlyWhileRunning(s)
    ensures PageOnlyWhileRunning(StartBrowser(s, start).0)
    ensures PageOnlyWhileRunning(StopBrowser(s, stop).0)
  {
  }

  lemma {:induction false} StepsKeepPage(s: Service, steps: seq<Option<Step>>, stopOnError: bool, w: World)
    requires PageOnlyWhileRunning(s)
    ensures match RunSteps(s, steps, stopOnError, w)
            case Ok((s', _)) => PageOnlyWhileRunning(s')
            case Err(s') => PageOnlyWhileRunning(s')
    decreases |steps|
  {
    if steps != [] && steps[0].Some? {
      var (s1, res) := RunStep(s, steps[0].value, w);
      assert PageOnlyWhileRunning(s1);
      StepsKeepPage(s1, steps[1..], stopOnError, w);
    }
  }

  /** No run of a scenario leaves a page handle on a service that is not running. */
  lemma ScenarioKeepsPage(s: Service, scenario: Option<Scenario>, w: World)
    requires PageOnlyWhileRunning(s)
    ensures PageOnlyWhileRunning(RunTestScenario(s, scenario, w).0)
  {
    if scenario.Some? && scenario.value.steps.Some? {
      var sc := scenario.value;
      var s1 := if !s.running then StartBrowser(s, w.start).0 else s;
      StepsKeepPage(s1, sc.steps.value, sc.stopOnError, w);
    }
  }

  /** With `stopOnError`, no step after the first failure is recorded. */
  lemma StopOnErrorStopsAtFirstFailure(s: Service, steps: seq<Option<Step>>, w: World, i: nat)
    requires RunSteps(s, steps, true, w).Ok?
    requires i < |RunSteps(s, steps, true, w).value.1|
    requires !RunSteps(s, steps, true, w).value.1[i].success
    ensures i == |RunSteps(s, steps, true, w).value.1| - 1
  {
  }
}

=== FILE: browser_commands.dfy ===
/**
  Spoken browser commands (src/renderer/modules/browserCommands.js). A text is
  checked for two button phrases first, then against five case-insensitive
  patterns in order; the first that matches decides the command. A command is
  forwarded to the server as a `browser-command` message when a socket exists.

  Case-insensitive matching is modelled by comparing the lower-cased text with
  the lower-case pattern; captured groups are taken from the original text.
 */
module BrowserCommands {
  import opened Base
  import opened Text

  datatype Action = GoogleSearch | FormFill | Navigate | TakeScreenshot | ClickLink

  /** The `CommandTypes` string of an action. */
  function ActionName(a: Action): string {
    match a
    case GoogleSearch => "googleSearch"
    case FormFill => "formFill"
    case Navigate => "navigate"
    case TakeScreenshot => "takeScreenshot"
    case ClickLink => "clickLink"
  }

  /** Distinct actions travel under distinct names. */
  lemma ActionNameInjective(a: Action, b: Action)
    ensures ActionName(a) == ActionName(b) <==> a == b
  {
    if a != b {
      assert ActionName(a)[..2] != ActionName(b)[..2] || ActionName(a)[1] != ActionName(b)[1] || |ActionName(a)| != |ActionName(b)|;
    }
  }

  /** The `params` object of a command. */
  datatype Params = NoParams | Query(query: string) | Url(url: string) | LinkIndex(index: nat)

  datatype Command = Command(action: Action, description: string, params: Params)

  const SearchDescription: string := "Wyszukiwanie w Google"
  const FormDescription: string := "Wypełnianie formularza"
  const NavigateDescription: string := "Przejście do strony"
  const ScreenshotDescription: string := "Wykonanie zrzutu ekranu"
  const ClickDescription: string := "Kliknięcie linku"

  /** The phrase of the search button, and the query used when the text quotes none. */
  const SearchPhrase: string := "wyszukaj w google frazę"
  const DefaultQuery: string := "Playwright browser automation"
  /** The phrase of the form-filling button. */
  const FormPagePhrase: string := "wypełnij formularz na stronie"

  const FormPhrase: string := "wypełnij formularz"
  const NavigatePhrase: string := "przejdź do strony "
  const ScreenshotPhrase: string := "zrób zrzut ekranu"
  const ClickPhrase: string := "kliknij "
  /** The ordinals of the click pattern; an ordinal's position is the link index. */
  const Ordinals: seq<string> := ["pierwszy", "drugi", "trzeci", "czwarty", "piąty"]

  predicate IsQuote(c: char) {
    c == '\'' || c == '"'
  }

  // ---------------------------------------------------------------------------
  // Regular-expression matching, one pattern at a time
  // ---------------------------------------------------------------------------

  /**
    The lazy `(.*?)['"]` tail starting at `from`: the first quote at or after
    `from`, provided no line terminator comes before it.
   */
  function LazyClose(t: string, from: nat): (r: Option<nat>)
    ensures r.Some? ==> from <= r.value < |t| && IsQuote(t[r.value])
    ensures r.Some? ==> forall k :: from <= k < r.value ==> !IsQuote(t[k]) && !IsLineTerminator(t[k])
    ensures r.None? ==> forall k :: from <= k < |t| && IsQuote(t[k]) ==>
              exists m :: from <= m < k && IsLineTerminator(t[m])
  {
    var p := (k: nat) => k < |t| && (IsQuote(t[k]) || IsLineTerminator(t[k]));
    assert forall k: nat :: p(k) == (k < |t| && (IsQuote(t[k]) || IsLineTerminator(t[k])));
    match FindFrom(from, |t|, p)
    case Some(k) =>
      if IsQuote(t[k]) then Some(k)
      else
        assert forall j :: from <= j < |t| && IsQuote(t[j]) ==> k < j;
        None
    case None => None
  }

  /** The index just past the line that contains position `from`. */
  function LineEnd(t: string, from: nat): (r: nat)
    requires from <= |t|
    ensures from <= r <= |t|
    ensures r < |t| ==> IsLineTerminator(t[r])
    ensures forall k :: from <= k < r ==> !IsLineTerminator(t[k])
  {
    var p := (k: nat) => k < |t| && IsLineTerminator(t[k]);
    assert forall k: nat :: p(k) == (k < |t| && IsLineTerminator(t[k]));
    match FindFrom(from, |t|, p)
    case Some(k) => k
    case None => |t|
  }

  /** `/['"](.*?)['"]/` at start `i`: the capture between the quotes. */
  function QuotedAt(t: string, i: nat): Option<string> {
    if i < |t| && IsQuote(t[i]) then
      match LazyClose(t, i + 1)
      case Some(j) => Some(t[i + 1..j])
      case None => None
    else None
  }

  /** `text.match(/['"](.*?)['"]/)[1]`: the capture at the leftmost start that matches. */
  function QuotedText(t: string): (r: Option<string>)
    ensures r.Some? ==> exists i :: 0 <= i < |t| && QuotedAt(t, i) == r
                          && forall j :: 0 <= j < i ==> QuotedAt(t, j).None?
    ensures r.None? ==> forall i :: 0 <= i < |t| ==> QuotedAt(t, i).None?
  {
    var p := (i: nat) => QuotedAt(t, i).Some?;
    assert forall i: nat :: p(i) == QuotedAt(t, i).Some?;
    match FindFrom(0, |t|, p)
    case Some(i) => QuotedAt(t, i)
    case None => None
  }

  /** `/kliknij (pierwszy|…|piąty)? ?link/i` after the prefix: ` link` or `link` at `p`. */
  predicate LinkAt(lowered: string, p: nat) {
    OccursAt(lowered, " link", p) || OccursAt(lowered, "link", p)
  }

  /** An ordinal followed by the link word at `p`. */
  predicate OrdinalLinkAt(lowered: string, o: nat, p: nat)
    requires o < |Ordinals|
  {
    OccursAt(lowered, Ordinals[o], p) && LinkAt(lowered, p + |Ordinals[o]|)
  }

  /** The first alternative of `(pierwszy|drugi|trzeci|czwarty|piąty)` that lets ` ?link` follow at `p`. */
  function OrdinalAt(lowered: string, p: nat): (r: Option<nat>)
    ensures r.Some? ==> r.value < |Ordinals| && OrdinalLinkAt(lowered, r.value, p)
    ensures r.Some? ==> forall o :: 0 <= o < r.value ==> !OrdinalLinkAt(lowered, o, p)
    ensures r.None? ==> forall o :: 0 <= o < |Ordinals| ==> !OrdinalLinkAt(lowered, o, p)
  {
    var f := (o: nat) => o < |Ordinals| && OrdinalLinkAt(lowered, o, p);
    assert forall o: nat :: o < |Ordinals| ==> (f(o) <==> OrdinalLinkAt(lowered, o, p));
    FindFrom(0, |Ordinals|, f)
  }

  /**
    Pattern `k` of `commandPatterns` tried at start index `i`: the extracted
    params when the pattern matches there.
   */
  function MatchAt(k: nat, t: string, i: nat): Option<Params>
    requires k < 5
  {
    var lowered := Lower(t);
    if k == 0 then
      // /wyszukaj w google frazę ['"](.+?)['"]/i
      var q := i + |SearchPhrase|;
      if OccursAt(lowered, SearchPhrase, i) && q + 2 < |t| && t[q] == ' ' && IsQuote(t[q + 1])
         && !IsLineTerminator(t[q + 2]) then
        match LazyClose(t, q + 3)
        case Some(j) => Some(Query(t[q + 2..j]))
        case None => None
      else None
    else if k == 1 then
      // /wypełnij formularz/i
      if OccursAt(lowered, FormPhrase, i) then Some(NoParams) else None
    else if k == 2 then
      // /przejdź do strony (.+)/i
      var p := i + |NavigatePhrase|;
      if OccursAt(lowered, NavigatePhrase, i) && p < |t| && !IsLineTerminator(t[p]) then
        Some(Url(t[p..LineEnd(t, p)]))
      else None
    else if k == 3 then
      // /zrób zrzut ekranu/i
      if OccursAt(lowered, ScreenshotPhrase, i) then Some(NoParams) else None
    else
      // /kliknij (pierwszy|drugi|trzeci|czwarty|piąty)? ?link/i
      var p := i + |ClickPhrase|;
      if OccursAt(lowered, ClickPhrase, i) then
        match OrdinalAt(lowered, p)
        case Some(o) => Some(LinkIndex(o))
        case None => if LinkAt(lowered, p) then Some(LinkIndex(0)) else None
      else None
  }

  /** `text.match(pattern)`: the params of the leftmost match of pattern `k`. */
  function MatchPattern(k: nat, t: string): (r: Option<Params>)
    requires k < 5
    ensures r.Some? ==> exists i :: 0 <= i <= |t| && MatchAt(k, t, i) == r
                          && forall j :: 0 <= j < i ==> MatchAt(k, t, j).None?
    ensures r.None? ==> forall i :: 0 <= i <= |t| ==> MatchAt(k, t, i).None?
  {
    var p := (i: nat) => MatchAt(k, t, i).Some?;
    assert forall i: nat :: p(i) == MatchAt(k, t, i).Some?;
    match FindFrom(0, |t| + 1, p)
    case Some(i) => MatchAt(k, t, i)
    case None => None
  }

  /** The search phrase is already lower case. */
  lemma SearchPhraseLowered()
    ensures Lower(SearchPhrase) == SearchPhrase
  {
  }

  /**
    The search pattern wants one space between the phrase and the opening
    quote: after a space it captures the quoted text.
   */
  lemma SearchPatternAfterSpace()
    ensures MatchPattern(0, SearchPhrase + " 'x'") == Some(Query("x"))
  {
    var t := SearchPhrase + " 'x'";
    SearchPhraseLowered();
    LowerAppend(SearchPhrase, " 'x'");
    assert Lower(t)[0..|SearchPhrase|] == SearchPhrase;
    var q := |SearchPhrase|;
    assert t[q] == ' ' && t[q + 1] == '\'' && t[q + 2] == 'x' && t[q + 3] == '\'';
    assert LazyClose(t, q + 3) == Some(q + 3);
    assert t[q + 2..q + 3] == "x";
    assert MatchAt(0, t, 0) == Some(Query("x"));
  }

  /** Without that space the search pattern does not match. */
  lemma SearchPatternNeedsSpace()
    ensures MatchPattern(0, SearchPhrase + "'x'").None?
  {
  }

  /** The action and description pattern `k` produces. */
  function PatternCommand(k: nat, params: Params): Command
    requires k < 5
  {
    if k == 0 then Command(GoogleSearch, SearchDescription, params)
    else if k == 1 then Command(FormFill, FormDescription, params)
    else if k == 2 then Command(Navigate, NavigateDescription, params)
    else if k == 3 then Command(TakeScreenshot, ScreenshotDescription, params)
    else Command(ClickLink, ClickDescription, params)
  }

  /** The first pattern, in source order, that matches the text. */
  function FirstPattern(t: string): (r: Option<nat>)
    ensures r.Some? ==> r.value < 5 && MatchPattern(r.value, t).Some?
    ensures r.Some? ==> forall j :: 0 <= j < r.value ==> MatchPattern(j, t).None?
    ensures r.None? ==> forall j :: 0 <= j < 5 ==> MatchPattern(j, t).None?
  {
    var p := (k: nat) => k < 5 && MatchPattern(k, t).Some?;
    var r := FindFrom(0, 5, p);
    assert forall j: nat :: j < 5 ==> (p(j) <==> MatchPattern(j, t).Some?);
    r
  }

  /**
    `checkForBrowserCommand(text)`; `None` stands for a `null` argument and for
    a `null` result.
   */
  function CheckForBrowserCommand(text: Option<string>): (r: Option<Command>)
    ensures r.None? <==> text.None? || text == Some("")
                         || (!Contains(Lower(text.value), SearchPhrase) && !Contains(Lower(text.value), FormPagePhrase)
                             && FirstPattern(text.value).None?)
    ensures text.Some? && Contains(Lower(text.value), SearchPhrase) ==>
              r.Some? && r.value.action == GoogleSearch && r.value.description == SearchDescription
              && r.value.params == Query(if QuotedText(text.value).Some? then QuotedText(text.value).value else DefaultQuery)
    ensures text.Some? && !Contains(Lower(text.value), SearchPhrase) && Contains(Lower(text.value), FormPagePhrase) ==>
              r == Some(Command(FormFill, FormDescription, NoParams))
    ensures text.Some? && text.value != "" && !Contains(Lower(text.value), SearchPhrase)
            && !Contains(Lower(text.value), FormPagePhrase) && FirstPattern(text.value).Some? ==>
              r == Some(PatternCommand(FirstPattern(text.value).value, MatchPattern(FirstPattern(text.value).value, text.value).value))
  {
    match text
    case None => None
    case Some(t) =>
      if t == "" then None
      else
        var lowered := Lower(t);
        if Contains(lowered, SearchPhrase) then
          var query := match QuotedText(t) case Some(q) => q case None => DefaultQuery;
          Some(Command(GoogleSearch, SearchDescription, Query(query)))
        else if Contains(lowered, FormPagePhrase) then
          Some(Command(FormFill, FormDescription, NoParams))
        else
          match FirstPattern(t)
          case Some(k) => Some(PatternCommand(k, MatchPattern(k, t).value))
          case None => None
  }

  // ---------------------------------------------------------------------------
  // Properties of the checker
  // ---------------------------------------------------------------------------

  /** The fixed phrase every match of pattern `k` starts with. */
  function PatternPhrase(k: nat): string
    requires k < 5
  {
    [SearchPhrase, FormPhrase, NavigatePhrase, ScreenshotPhrase, ClickPhrase][k]
  }

  /** A pattern can only match where its fixed phrase occurs. */
  lemma {:induction false} PatternNeedsPhrase(k: nat, t: string)
    requires k < 5 && !Contains(Lower(t), PatternPhrase(k))
    ensures MatchPattern(k, t).None?
  {
    if MatchPattern(k, t).Some? {
      var i :| 0 <= i <= |t| && MatchAt(k, t, i) == MatchPattern(k, t);
      assert OccursAt(Lower(t), PatternPhrase(k), i);
      ContainsAt(Lower(t), PatternPhrase(k), i);
      assert false;
    }
  }

  /**
    The first pattern can never decide a command: whenever it matches, the
    search phrase occurs and the button check before the loop has already
    answered.
   */
  lemma SearchPatternShadowed(t: string)
    requires !Contains(Lower(t), SearchPhrase)
    ensures MatchPattern(0, t).None?
  {
    PatternNeedsPhrase(0, t);
  }

  /** `s` contains the concatenation `a + b` only if it contains `a`. */
  lemma ContainsPrefixOf(s: string, a: string, b: string)
    requires Contains(s, a + b)
    ensures Contains(s, a)
  {
    var i := IndexOf(s, a + b, 0).value;
    assert s[i..i + |a|] == (a + b)[..|a|];
    ContainsAt(s, a, i);
  }

  /** A text without some character of `sub` does not contain `sub`. */
  lemma MissingCharExcludes(s: string, sub: string, c: char)
    requires c in sub && c !in s
    ensures !Contains(s, sub)
  {
  }

  /**
    The search action is chosen exactly when the lower-cased text contains the
    search phrase.
   */
  lemma SearchIff(t: string)
    ensures (CheckForBrowserCommand(Some(t)).Some? && CheckForBrowserCommand(Some(t)).value.action == GoogleSearch)
            <==> Contains(Lower(t), SearchPhrase)
  {
    var r := CheckForBrowserCommand(Some(t));
    if !Contains(Lower(t), SearchPhrase) {
      SearchPatternShadowed(t);
      if t != "" && !Contains(Lower(t), FormPagePhrase) && FirstPattern(t).Some? {
        assert FirstPattern(t).value != 0;
      }
    }
  }

  /**
    Both form phrases lead to the same command: a text containing "wypełnij
    formularz" and not the search phrase is a form-filling command with no
    parameters, whichever phrase it carries.
   */
  lemma FormFillIff(t: string)
    requires !Contains(Lower(t), SearchPhrase)
    ensures CheckForBrowserCommand(Some(t)) == Some(Command(FormFill, FormDescription, NoParams))
            <==> Contains(Lower(t), FormPhrase)
  {
    var lowered := Lower(t);
    assert FormPagePhrase == FormPhrase + " na stronie";
    SearchPatternShadowed(t);
    if Contains(lowered, FormPagePhrase) {
      ContainsPrefixOf(lowered, FormPhrase, " na stronie");
    } else if Contains(lowered, FormPhrase) {
      var i := IndexOf(lowered, FormPhrase, 0).value;
      assert MatchAt(1, t, i).Some?;
      assert MatchPattern(1, t).Some?;
      assert FirstPattern(t) == Some(1);
    }
  }

  /**
    A navigation command carries the rest of the line after "przejdź do
    strony ": a non-empty URL without line terminators, found in the text
    right after the phrase.
   */
  lemma NavigateUrl(t: string)
    requires CheckForBrowserCommand(Some(t)).Some? && CheckForBrowserCommand(Some(t)).value.action == Navigate
    ensures CheckForBrowserCommand(Some(t)).value.params.Url?
    ensures var url := CheckForBrowserCommand(Some(t)).value.params.url;
            |url| > 0 && (forall k :: 0 <= k < |url| ==> !IsLineTerminator(url[k]))
            && exists i: nat :: OccursAt(Lower(t), NavigatePhrase, i) && OccursAt(t, url, i + |NavigatePhrase|)
  {
    var r := CheckForBrowserCommand(Some(t));
    SearchIff(t);
    var k := FirstPattern(t).value;
    assert r == Some(PatternCommand(k, MatchPattern(k, t).value));
    assert k == 2;
    var i :| 0 <= i <= |t| && MatchAt(2, t, i) == MatchPattern(2, t);
    NavigateShape(t, i);
  }

  /** What a navigation match at `i` captures. */
  lemma NavigateShape(t: string, i: nat)
    requires MatchAt(2, t, i).Some?
    ensures MatchAt(2, t, i).value.Url?
    ensures var url := MatchAt(2, t, i).value.url;
            |url| > 0 && (forall k :: 0 <= k < |url| ==> !IsLineTerminator(url[k]))
            && OccursAt(Lower(t), NavigatePhrase, i) && OccursAt(t, url, i + |NavigatePhrase|)
  {
    var p := i + |NavigatePhrase|;
    var url := t[p..LineEnd(t, p)];
    assert OccursAt(t, url, p);
  }

  /**
    A click command's link index comes from the leftmost "kliknij " the click
    pattern matches at: it is the position of the first ordinal that fits
    there, or 0 when the link word follows without an ordinal.
   */
  lemma ClickIndexBound(t: string)
    requires CheckForBrowserCommand(Some(t)).Some? && CheckForBrowserCommand(Some(t)).value.action == ClickLink
    ensures CheckForBrowserCommand(Some(t)).value.params.LinkIndex?
    ensures CheckForBrowserCommand(Some(t)).value.params.index < |Ordinals|
    ensures exists i :: 0 <= i <= |t| && OccursAt(Lower(t), ClickPhrase, i)
              && (forall j :: 0 <= j < i ==> MatchAt(4, t, j).None?)
              && CheckForBrowserCommand(Some(t)).value.params.index
                 == (match OrdinalAt(Lower(t), i + |ClickPhrase|) case Some(o) => o case None => 0)
  {
    SearchIff(t);
    assert FirstPattern(t) == Some(4);
    var i :| 0 <= i <= |t| && MatchAt(4, t, i) == MatchPattern(4, t)
             && forall j :: 0 <= j < i ==> MatchAt(4, t, j).None?;
    assert OccursAt(Lower(t), ClickPhrase, i);
  }

  /**
    A search query is the text of the first quoted substring, or the default
    query when the text has none; either way it lies between two quotes of
    the text or is the default.
   */
  lemma SearchQuery(t: string)
    requires Contains(Lower(t), SearchPhrase)
    ensures CheckForBrowserCommand(Some(t)).Some?
    ensures QuotedText(t).None? ==> CheckForBrowserCommand(Some(t)).value.params == Query(DefaultQuery)
    ensures QuotedText(t).Some? ==> CheckForBrowserCommand(Some(t)).value.params == Query(QuotedText(t).value)
    ensures var p := CheckForBrowserCommand(Some(t)).value.params;
            (p == Query(DefaultQuery) && QuotedText(t).None?)
            || exists i, j :: 0 <= i < j < |t| && IsQuote(t[i]) && IsQuote(t[j]) && p == Query(t[i + 1..j])
  {
    var r := CheckForBrowserCommand(Some(t));
    if QuotedText(t).Some? {
      var i :| 0 <= i < |t| && QuotedAt(t, i) == QuotedText(t);
      var j := LazyClose(t, i + 1).value;
      assert r.value.params == Query(t[i + 1..j]);
    }
  }

  /** With two quoted words after the phrase, the query is the first of them. */
  lemma SearchFirstQuotedExample()
    ensures CheckForBrowserCommand(Some(SearchPhrase + " \"a\" \"b\"")) == Some(Command(GoogleSearch, SearchDescription, Query("a")))
  {
    var t := SearchPhrase + " \"a\" \"b\"";
    var q := |SearchPhrase|;
    SearchPhraseLowered();
    LowerAppend(SearchPhrase, " \"a\" \"b\"");
    assert Lower(t)[0..q] == SearchPhrase;
    ContainsAt(Lower(t), SearchPhrase, 0);
    FirstQuoteAfterPhrase(t);
    SearchQuery(t);
  }

  /** The search phrase and the space after it carry no quote. */
  lemma NoQuoteInPhrase()
    ensures forall j :: 0 <= j < |SearchPhrase + " "| ==> !IsQuote((SearchPhrase + " ")[j])
  {
  }

  /** The first quote of that text is the one after the phrase and the space, and it closes after `a`. */
  lemma FirstQuoteAfterPhrase(t: string)
    requires t == SearchPhrase + " \"a\" \"b\""
    ensures QuotedText(t) == Some("a")
  {
    var q := |SearchPhrase|;
    NoQuoteInPhrase();
    forall j | 0 <= j < q + 1 ensures QuotedAt(t, j).None? {
      assert t[j] == (SearchPhrase + " ")[j];
    }
    assert t[q + 1] == '"' && t[q + 2] == 'a' && t[q + 3] == '"';
    assert LazyClose(t, q + 2) == Some(q + 3);
    assert t[q + 2..q + 3] == "a";
    assert QuotedAt(t, q + 1) == Some("a");
    var i :| 0 <= i < |t| && QuotedAt(t, i) == QuotedText(t) && forall j :: 0 <= j < i ==> QuotedAt(t, j).None?;
    if i < q + 1 {
      assert QuotedAt(t, i).None?;
    }
  }

  // ---------------------------------------------------------------------------
  // Forwarding to the server
  // ---------------------------------------------------------------------------

  /** The `browser-command` message: the action's name and its params. */
  datatype Emission = BrowserCommandMessage(action: string, params: Params)

  /** `executeBrowserCommand(command, socket)`: emits only when both are present. */
  function ExecuteBrowserCommand(command: Option<Command>, socketPresent: bool): (r: Option<Emission>)
    ensures r.Some? <==> command.Some? && socketPresent
    ensures r.Some? ==> r.value.action == ActionName(command.value.action)
                        && r.value.params == command.value.params
  {
    if command.None? || !socketPresent then None
    else Some(BrowserCommandMessage(ActionName(command.value.action), command.value.params))
  }

  // ---------------------------------------------------------------------------
  // The unit-test examples
  // ---------------------------------------------------------------------------

  /** "Zrób zrzut ekranu" asks for a screenshot. */
  lemma ScreenshotExample()
    ensures CheckForBrowserCommand(Some("Zrób zrzut ekranu")).Some?
    ensures CheckForBrowserCommand(Some("Zrób zrzut ekranu")).value.action == TakeScreenshot
  {
    var t := "Zrób zrzut ekranu";
    var lowered := Lower(t);
    assert lowered == ScreenshotPhrase;
    // the earlier phrases are longer than the whole text
    assert !Contains(lowered, SearchPhrase) && !Contains(lowered, FormPagePhrase);
    assert MatchPattern(0, t).None? && MatchPattern(1, t).None? && MatchPattern(2, t).None?;
    assert MatchAt(3, t, 0).Some?;
    assert FirstPattern(t) == Some(3);
  }

  lemma NavigateExampleLowered()
    ensures Lower("Przejdź do strony example.com") == "przejdź do strony example.com"
  {
  }

  /**
    After a phrase that lower-cases to "przejdź do strony ", the navigation
    pattern captures the whole rest of a one-line text.
   */
  lemma NavigateRemainder(phrase: string, rest: string)
    requires Lower(phrase) == NavigatePhrase
    requires rest != [] && forall k :: 0 <= k < |rest| ==> !IsLineTerminator(rest[k])
    ensures MatchAt(2, phrase + rest, 0) == Some(Url(rest))
  {
    var t := phrase + rest;
    var p := |phrase|;
    assert OccursAt(Lower(t), NavigatePhrase, 0) by {
      forall i | 0 <= i < p ensures Lower(t)[i] == NavigatePhrase[i] {
        assert t[i] == phrase[i];
      }
      assert Lower(t)[0..p] == NavigatePhrase;
    }
    assert |NavigatePhrase| == p;
    forall k | p <= k < |t| ensures !IsLineTerminator(t[k]) {
      assert t[k] == rest[k - p];
    }
    assert LineEnd(t, p) == |t|;
    assert t[p..|t|] == rest;
  }

  lemma NavigatePhraseLowered()
    ensures Lower("Przejdź do strony ") == NavigatePhrase
  {
  }

  lemma NavigateExampleSplit()
    ensures "Przejdź do strony " + "example.com" == "Przejdź do strony example.com"
  {
  }

  lemma NavigateExampleMatch()
    ensures MatchAt(2, "Przejdź do strony example.com", 0) == Some(Url("example.com"))
  {
    NavigatePhraseLowered();
    NavigateRemainder("Przejdź do strony ", "example.com");
    NavigateExampleSplit();
  }

  /**
    A text whose lower-cased form has no 'w' contains neither button phrase
    and matches neither of the first two patterns, so the pattern loop decides it.
   */
  lemma WithoutW(t: string)
    requires 'w' !in Lower(t)
    ensures t != "" ==> (CheckForBrowserCommand(Some(t)) ==
              match FirstPattern(t) case Some(m) => Some(PatternCommand(m, MatchPattern(m, t).value)) case None => None)
    ensures MatchPattern(0, t).None? && MatchPattern(1, t).None?
  {
    assert SearchPhrase[0] == 'w' && FormPhrase[0] == 'w' && FormPagePhrase[0] == 'w';
    MissingCharExcludes(Lower(t), SearchPhrase, 'w');
    MissingCharExcludes(Lower(t), FormPhrase, 'w');
    MissingCharExcludes(Lower(t), FormPagePhrase, 'w');
    PatternNeedsPhrase(0, t);
    PatternNeedsPhrase(1, t);
  }

  /** Without 'w', 'p' and 'ó' only the click pattern can match. */
  lemma OnlyClickCanMatch(t: string)
    requires 'w' !in Lower(t) && 'p' !in Lower(t) && 'ó' !in Lower(t)
    ensures t != "" ==> (CheckForBrowserCommand(Some(t)) ==
              match FirstPattern(t) case Some(m) => Some(PatternCommand(m, MatchPattern(m, t).value)) case None => None)
    ensures MatchPattern(0, t).None? && MatchPattern(1, t).None?
    ensures MatchPattern(2, t).None? && MatchPattern(3, t).None?
  {
    WithoutW(t);
    assert NavigatePhrase[0] == 'p' && ScreenshotPhrase[2] == 'ó';
    MissingCharExcludes(Lower(t), NavigatePhrase, 'p');
    MissingCharExcludes(Lower(t), ScreenshotPhrase, 'ó');
    PatternNeedsPhrase(2, t);
    PatternNeedsPhrase(3, t);
  }

  /** "Przejdź do strony example.com" navigates to "example.com". */
  lemma NavigateExample()
    ensures CheckForBrowserCommand(Some("Przejdź do strony example.com"))
            == Some(Command(Navigate, NavigateDescription, Url("example.com")))
  {
    var t := "Przejdź do strony example.com";
    NavigateExampleLowered();
    assert 'w' !in Lower(t);
    WithoutW(t);
    NavigateExampleMatch();
    assert MatchPattern(2, t) == Some(Url("example.com"));
    assert FirstPattern(t) == Some(2);
  }

  /**
    "kliknij ", then ordinal `o`, then " link" picks link `o`, provided no
    earlier ordinal starts with the same letter (true of the first four).
   */
  lemma ClickOrdinalLink(phrase: string, ordinal: string, tail: string, o: nat)
    requires o < |Ordinals| && forall j :: 0 <= j < o ==> Ordinals[j][0] != Ordinals[o][0]
    requires Lower(phrase) == ClickPhrase && Lower(ordinal) == Ordinals[o]
    requires |tail| >= 5 && Lower(tail)[..5] == " link"
    ensures MatchAt(4, phrase + ordinal + tail, 0) == Some(LinkIndex(o))
  {
    var t := phrase + ordinal + tail;
    LowerAppend(phrase, ordinal);
    LowerAppend(phrase + ordinal, tail);
    var lowered := Lower(t);
    assert lowered == ClickPhrase + Ordinals[o] + Lower(tail);
    var p := |ClickPhrase|;
    assert lowered[..p] == ClickPhrase;
    assert lowered[p..p + |Ordinals[o]|] == Ordinals[o];
    assert lowered[p + |Ordinals[o]|..p + |Ordinals[o]| + 5] == " link";
    assert OrdinalLinkAt(lowered, o, p);
    forall j | 0 <= j < o ensures !OrdinalLinkAt(lowered, j, p) {
      assert lowered[p] == Ordinals[o][0];
    }
  }

  lemma ClickExampleLowered()
    ensures Lower("Kliknij trzeci link na stronie") == "kliknij trzeci link na stronie"
  {
  }

  lemma ClickExampleThird()
    ensures OrdinalLinkAt(Lower("Kliknij trzeci link na stronie"), 2, 8)
  {
    ClickExampleLowered();
    var lowered := Lower("Kliknij trzeci link na stronie");
    assert lowered == ClickPhrase + "trzeci" + " link" + " na stronie";
    assert lowered[8..14] == "trzeci" && lowered[14..19] == " link";
  }

  lemma ClickExampleNotEarlier()
    ensures !OrdinalLinkAt(Lower("Kliknij trzeci link na stronie"), 0, 8)
    ensures !OrdinalLinkAt(Lower("Kliknij trzeci link na stronie"), 1, 8)
  {
    ClickExampleLowered();
    assert Lower("Kliknij trzeci link na stronie")[8] == 't';
  }

  lemma ClickExampleOrdinal()
    ensures OrdinalAt(Lower("Kliknij trzeci link na stronie"), 8) == Some(2)
  {
    ClickExampleThird();
    ClickExampleNotEarlier();
  }

  lemma ClickExampleMatch()
    ensures MatchAt(4, "Kliknij trzeci link na stronie", 0) == Some(LinkIndex(2))
  {
    ClickExampleOrdinal();
    ClickExampleLowered();
    assert Lower("Kliknij trzeci link na stronie")[0..8] == ClickPhrase;
  }

  lemma ClickExampleMissing()
    ensures var lowered := Lower("Kliknij trzeci link na stronie");
            'w' !in lowered && 'p' !in lowered && 'ó' !in lowered
  {
    ClickExampleLowered();
  }

  /** "Kliknij trzeci link na stronie" clicks the link at index 2. */
  lemma ClickExample()
    ensures CheckForBrowserCommand(Some("Kliknij trzeci link na stronie"))
            == Some(Command(ClickLink, ClickDescription, LinkIndex(2)))
  {
    var t := "Kliknij trzeci link na stronie";
    ClickExampleMissing();
    OnlyClickCanMatch(t);
    ClickExampleMatch();
    assert MatchPattern(4, t) == Some(LinkIndex(2));
    assert FirstPattern(t) == Some(4);
  }

  /**
    `sub` cannot occur in `a + b` when its character at `p` is missing from
    `a` and a later character, at `q`, is missing from `b`.
   */
  lemma MissingAcrossExcludes(a: string, b: string, sub: string, p: nat, q: nat)
    requires p < q < |sub| && sub[p] !in a && sub[q] !in b
    ensures !Contains(a + b, sub)
  {
  }

  /** The no-command sentence of the unit tests, lower-cased, in two pieces. */
  const NoCommandHead: string := "to nie jest komenda prz"
  const NoCommandTail: string := "eglądarki"

  lemma NoCommandExampleLowered()
    ensures Lower("To nie jest komenda przeglądarki") == NoCommandHead + NoCommandTail
  {
    LowerAppend("To nie jest komenda prz", "eglądarki");
    assert Lower("To nie jest komenda prz") == NoCommandHead;
    assert Lower("eglądarki") == NoCommandTail;
    assert "To nie jest komenda prz" + "eglądarki" == "To nie jest komenda przeglądarki";
  }

  /** The lowered sentence has no 'w', so neither button phrase nor the first two patterns. */
  lemma NoCommandLacksW()
    ensures 'w' !in NoCommandHead + NoCommandTail
  {
  }

  /** The lowered sentence has no 'ź', so no navigation phrase. */
  lemma NoCommandLacksNavigate()
    ensures !Contains(NoCommandHead + NoCommandTail, NavigatePhrase)
  {
    assert NavigatePhrase[6] == 'ź';
    MissingCharExcludes(NoCommandHead + NoCommandTail, NavigatePhrase, 'ź');
  }

  /** The lowered sentence has no 'ó', so no screenshot phrase. */
  lemma NoCommandLacksScreenshot()
    ensures !Contains(NoCommandHead + NoCommandTail, ScreenshotPhrase)
  {
    assert ScreenshotPhrase[2] == 'ó';
    MissingCharExcludes(NoCommandHead + NoCommandTail, ScreenshotPhrase, 'ó');
  }

  /** No 'l' in the head and no 'n' in the tail, so "kliknij " fits nowhere. */
  lemma NoCommandLacksClick()
    ensures !Contains(NoCommandHead + NoCommandTail, ClickPhrase)
  {
    assert ClickPhrase[1] == 'l' && ClickPhrase[4] == 'n';
    MissingAcrossExcludes(NoCommandHead, NoCommandTail, ClickPhrase, 1, 4);
  }

  /** "To nie jest komenda przeglądarki" is no command. */
  lemma NoCommandExample()
    ensures CheckForBrowserCommand(Some("To nie jest komenda przeglądarki")).None?
  {
    var t := "To nie jest komenda przeglądarki";
    NoCommandExampleLowered();
    NoCommandLacksW();
    NoCommandLacksNavigate();
    NoCommandLacksScreenshot();
    NoCommandLacksClick();
    WithoutW(t);
    PatternNeedsPhrase(2, t);
    PatternNeedsPhrase(3, t);
    PatternNeedsPhrase(4, t);
  }

  /** The empty text and a missing text give no command. */
  lemma EmptyExamples()
    ensures CheckForBrowserCommand(Some("")).None?
    ensures CheckForBrowserCommand(None).None?
  {
  }
}

=== FILE: config_manager.dfy ===
/**
  The configuration store (src/services/configManager.js): a JSON tree read
  from `config.json` (or the built-in defaults), read and written by keys whose
  dots separate nested property names. Reading, parsing and writing the file
  are oracles.
 */
module Config {
  import opened Base
  import opened Text
  import opened Json
  import PosixPath

  datatype Manager = Manager(config: Json, initialized: bool)

  datatype ConfigError =
    | NotInitialized     // "Menedżer konfiguracji nie został zainicjalizowany"
    | TypeError          // a property test or assignment on null or a primitive
    | ArrayPath          // a path through an array: not modelled
    | WriteFailed        // `writeFileSync` threw after the tree was updated

  /** `new ConfigManager()`: no tree yet. */
  const Fresh: Manager := Manager(JNull, false)

  // ---------------------------------------------------------------------------
  // Defaults and initialize
  // ---------------------------------------------------------------------------

  /** `getDefaultConfig()`. */
  function DefaultConfig(cwd: string): Json {
    JObj(map[
      "app" := JObj(map[
        "name" := JStr("VideoChat LLM"),
        "version" := JStr("1.0.0"),
        "port" := JNum(3000),
        "novnc_port" := JNum(6080)]),
      "models" := JObj(map[
        "llm" := JStr(PosixPath.Join(cwd, "models/llm/model.onnx")),
        "tts" := JStr(PosixPath.Join(cwd, "models/tts/model.bin")),
        "stt" := JStr(PosixPath.Join(cwd, "models/stt/model.bin"))]),
      "infrastructure" := JObj(map[
        "k3s_enabled" := JBool(false),
        "kubeconfig" := JStr(PosixPath.Join(cwd, "kubernetes/kubeconfig")),
        "use_terraform" := JBool(true)]),
      "ui" := JObj(map[
        "theme" := JStr("dark"),
        "animate_ascii" := JBool(true),
        "auto_start_conversation" := JBool(true)]),
      "audio" := JObj(map[
        "input_device" := JStr("default"),
        "output_device" := JStr("default"),
        "volume" := JNum(80)])
    ])
  }

  /** What the file system holds: a file whose read and parse gave a tree (or threw), or no file. */
  datatype ConfigFile = Existing(parsed: Option<Json>) | Absent(writeOk: bool)

  /**
    `initialize()`: an existing file's tree, or the defaults written to a new
    file. A read or parse error, or a failed write of the defaults, returns
    false and leaves the manager uninitialized (a failed write still installs
    the defaults in memory).
   */
  function Initialize(m: Manager, cwd: string, file: ConfigFile): (r: (Manager, bool))
    ensures r.1 ==> r.0.initialized
    ensures !r.1 ==> r.0.initialized == m.initialized
    ensures r.1 <==> (file.Existing? && file.parsed.Some?) || (file.Absent? && file.writeOk)
    ensures file.Existing? && file.parsed.Some? ==> r.0.config == file.parsed.value
    ensures file.Absent? ==> r.0.config == DefaultConfig(cwd)
    ensures file.Existing? && file.parsed.None? ==> r.0 == m
  {
    match file
    case Existing(parsed) =>
      if parsed.Some? then (Manager(parsed.value, true), true) else (m, false)
    case Absent(writeOk) =>
      if writeOk then (Manager(DefaultConfig(cwd), true), true)
      else (m.(config := DefaultConfig(cwd)), false)
  }

  // ---------------------------------------------------------------------------
  // Paths
  // ---------------------------------------------------------------------------

  /** The property names of a key: `key.split('.')`. */
  function Path(key: string): (p: seq<string>)
    ensures |p| >= 1
    ensures '.' !in key ==> p == [key]
  {
    if '.' !in key then
      forall i: nat ensures !OccursAt(key, ".", i) {
        if i + 1 <= |key| {
          assert key[i..i + 1] == [key[i]];
        }
      }
      Split(key, ".")
    else Split(key, ".")
  }

  /**
    The value at `path`, walking only through truthy objects that have the
    next name as an own property (the loop of the dotted `get`).
   */
  function Lookup(v: Json, path: seq<string>): (r: Option<Json>)
    ensures path == [] ==> r == Some(v)
    decreases |path|
  {
    if path == [] then Some(v)
    else if Truthy(v) && v.JObj? && path[0] in v.fields then Lookup(v.fields[path[0]], path[1..])
    else None
  }

  /**
    `get(key, defaultValue)`: a dotted key walks the tree and falls back to the
    default at the first missing step; a plain key reads the root, which must
    be an object (`in` throws on null and primitives).
   */
  function Get(m: Manager, key: string, default: Json): (r: Result<Json, ConfigError>)
    ensures !m.initialized <==> r == Err(NotInitialized)
    ensures m.initialized && '.' in key ==> r == Ok(Lookup(m.config, Path(key)).GetOr(default))
    ensures m.initialized && '.' !in key && m.config.JObj? ==>
              r == Ok(if key in m.config.fields then m.config.fields[key] else default)
    ensures m.initialized && '.' !in key && !IsObject(m.config) ==> r == Err(TypeError)
  {
    if !m.initialized then Err(NotInitialized)
    else if '.' in key then Ok(Lookup(m.config, Path(key)).GetOr(default))
    else
      match m.config
      case JObj(fields) => Ok(if key in fields then fields[key] else default)
      case JArr(_) => Ok(default)
      case _ => Err(TypeError)
  }

  /**
    The tree after `obj[path[last]] = value` along `path`, creating an empty
    object for each missing intermediate name. Stepping into null or a
    primitive throws before anything is written.
   */
  function Update(v: Json, path: seq<string>, x: Json): (r: Result<Json, ConfigError>)
    requires |path| >= 1
    ensures r.Ok? ==> r.value.JObj?
    ensures v.JObj? && |path| == 1 ==> r == Ok(JObj(v.fields[path[0] := x]))
    ensures !IsObject(v) ==> r == Err(TypeError)
    decreases |path|
  {
    match v
    case JObj(fields) =>
      if |path| == 1 then Ok(JObj(fields[path[0] := x]))
      else
        var child := if path[0] in fields then fields[path[0]] else JObj(map[]);
        (match Update(child, path[1..], x)
         case Ok(c) => Ok(JObj(fields[path[0] := c]))
         case Err(e) => Err(e))
    case JArr(_) => Err(ArrayPath)
    case _ => Err(TypeError)
  }

  /**
    `set(key, value)`: writes along the key's path, then saves the file; the
    result is always true when nothing throws.
   */
  function Set(m: Manager, key: string, value: Json, writeOk: bool): (r: (Manager, Result<bool, ConfigError>))
    ensures !m.initialized ==> r == (m, Err(NotInitialized))
    ensures r.1.Ok? ==> r.1.value
    ensures r.1.Ok? <==> m.initialized && Update(m.config, Path(key), value).Ok? && writeOk
    ensures m.initialized && Update(m.config, Path(key), value).Ok? ==>
              r.0 == m.(config := Update(m.config, Path(key), value).value)
    ensures m.initialized && Update(m.config, Path(key), value).Err? ==>
              r == (m, Err(Update(m.config, Path(key), value).error))
  {
    if !m.initialized then (m, Err(NotInitialized))
    else
      match Update(m.config, Path(key), value)
      case Err(e) => (m, Err(e))
      case Ok(c) => (m.(config := c), if writeOk then Ok(true) else Err(WriteFailed))
  }

  /** `getAll()`: the whole tree once initialized. */
  function GetAll(m: Manager): (r: Result<Json, ConfigError>)
    ensures r.Ok? <==> m.initialized
    ensures r.Ok? ==> r.value == m.config
    ensures r.Err? ==> r.error == NotInitialized
  {
    if m.initialized then Ok(m.config) else Err(NotInitialized)
  }

  // ---------------------------------------------------------------------------
  // Properties
  // ---------------------------------------------------------------------------

  /** Reading back the path just written gives the value written. */
  lemma {:induction false} LookupUpdated(v: Json, path: seq<string>, x: Json)
    requires |path| >= 1 && Update(v, path, x).Ok?
    ensures Lookup(Update(v, path, x).value, path) == Some(x)
    decreases |path|
  {
    var fields := v.fields;
    var r := Update(v, path, x).value;
    assert r.fields[path[0]] == (if |path| == 1 then x else Update(if path[0] in fields then fields[path[0]] else JObj(map[]), path[1..], x).value);
    if |path| > 1 {
      var child := if path[0] in fields then fields[path[0]] else JObj(map[]);
      LookupUpdated(child, path[1..], x);
    } else {
      assert Lookup(x, path[1..]) == Some(x);
    }
  }

  predicate IsPrefix(a: seq<string>, b: seq<string>) {
    |a| <= |b| && b[..|a|] == a
  }

  /** A write leaves every path that neither extends nor is extended by the written one. */
  lemma {:induction false} LookupOtherPath(v: Json, path: seq<string>, x: Json, other: seq<string>)
    requires |path| >= 1 && Update(v, path, x).Ok?
    requires !IsPrefix(other, path) && !IsPrefix(path, other)
    ensures Lookup(Update(v, path, x).value, other) == Lookup(v, other)
    decreases |path|
  {
    var fields := v.fields;
    var r := Update(v, path, x).value;
    assert other != [] by { assert other == [] ==> IsPrefix(other, path); }
    if other[0] != path[0] {
      assert r.fields == fields[path[0] := r.fields[path[0]]];
    } else {
      assert |path| > 1;
      var child := if path[0] in fields then fields[path[0]] else JObj(map[]);
      assert !IsPrefix(other[1..], path[1..]);
      assert !IsPrefix(path[1..], other[1..]);
      LookupOtherPath(child, path[1..], x, other[1..]);
      if path[0] !in fields {
        assert other[1..] != [];
      }
    }
  }

  /** After a successful `set`, `get` of the same key gives the value written. */
  lemma GetAfterSet(m: Manager, key: string, value: Json, writeOk: bool, default: Json)
    requires Set(m, key, value, writeOk).1.Ok?
    ensures Get(Set(m, key, value, writeOk).0, key, default) == Ok(value)
  {
    LookupUpdated(m.config, Path(key), value);
  }

  /**
    After a successful `set`, `get` of any key whose path neither extends nor
    is extended by the written path gives what it gave before.
   */
  lemma GetOtherKeyAfterSet(m: Manager, key: string, value: Json, writeOk: bool, other: string, default: Json)
    requires Set(m, key, value, writeOk).1.Ok?
    requires !IsPrefix(Path(other), Path(key)) && !IsPrefix(Path(key), Path(other))
    ensures Get(Set(m, key, value, writeOk).0, other, default) == Get(m, other, default)
  {
    var p := Path(key);
    var c := Update(m.config, p, value).value;
    assert Set(m, key, value, writeOk).0 == m.(config := c);
    if '.' in other {
      LookupOtherPath(m.config, p, value, Path(other));
    } else {
      assert Path(other) == [other];
      assert p[0] != other by { assert p[..1] == [p[0]]; }
      assert m.config.JObj?;
      assert c.fields == m.config.fields[p[0] := c.fields[p[0]]];
    }
  }

  /** Writing a dotted key into an empty object creates every intermediate object. */
  lemma SetCreatesIntermediates(path: seq<string>, x: Json)
    requires |path| >= 1
    ensures Update(JObj(map[]), path, x).Ok?
    decreases |path|
  {
    if |path| > 1 {
      SetCreatesIntermediates(path[1..], x);
    }
  }

  /** `key.split('.')` of a key with one dot. */
  lemma PathOfPair(a: string, b: string)
    requires '.' !in a && '.' !in b
    ensures Path(a + "." + b) == [a, b]
  {
    var key := a + "." + b;
    assert key[|a|] == '.';
    assert OccursAt(key, ".", |a|);
    forall i: nat | i < |a| ensures !OccursAt(key, ".", i) {
      assert key[i..i + 1] == [a[i]];
    }
    assert IndexOf(key, ".", 0) == Some(|a|);
    assert key[..|a|] == a;
    assert key[|a| + 1..] == b;
    assert Path(b) == [b] == Split(b, ".");
    assert '.' in key;
    assert Split(key, ".") == [a] + Split(b, ".");
  }

  /** The configuration a first start leaves: the defaults, initialized. */
  lemma FirstStart(cwd: string)
    ensures Initialize(Fresh, cwd, Absent(true)).0 == Manager(DefaultConfig(cwd), true)
  {
  }

  /** A two-name key read from the defaults. */
  lemma DefaultAt(cwd: string, a: string, b: string)
    requires '.' !in a && '.' !in b
    requires a in DefaultConfig(cwd).fields && DefaultConfig(cwd).fields[a].JObj?
    requires b in DefaultConfig(cwd).fields[a].fields
    ensures Get(Manager(DefaultConfig(cwd), true), a + "." + b, JNull) == Ok(DefaultConfig(cwd).fields[a].fields[b])
  {
    NestedAt(DefaultConfig(cwd), a, b);
  }

  /** In any tree, a key `a.b` reads field `b` of the object under `a`. */
  lemma NestedAt(c: Json, a: string, b: string)
    requires '.' !in a && '.' !in b
    requires c.JObj? && a in c.fields && c.fields[a].JObj? && b in c.fields[a].fields
    ensures Get(Manager(c, true), a + "." + b, JNull) == Ok(c.fields[a].fields[b])
  {
    PathOfPair(a, b);
    assert '.' in a + "." + b by { assert (a + "." + b)[|a|] == '.'; }
    assert Lookup(c, [a, b]) == Lookup(c.fields[a], [b]) by { assert [a, b][1..] == [b]; }
    assert Lookup(c.fields[a], [b]) == Some(c.fields[a].fields[b]) by { assert [b][1..] == []; }
  }

  /** The dotted keys of the first-start lemmas, spelled as their two names. */
  lemma DottedKeys()
    ensures "app" + "." + "port" == "app.port"
    ensures "app" + "." + "novnc_port" == "app.novnc_port"
    ensures "infrastructure" + "." + "k3s_enabled" == "infrastructure.k3s_enabled"
    ensures '.' !in "infrastructure" && '.' !in "k3s_enabled"
  {
  }

  /** On a first start the application port is 3000. */
  lemma FirstStartAppPort(cwd: string)
    ensures Get(Initialize(Fresh, cwd, Absent(true)).0, "app.port", JNull) == Ok(JNum(3000))
  {
    DottedKeys();
    FirstStart(cwd);
    DefaultAt(cwd, "app", "port");
  }

  /** On a first start the noVNC port is 6080. */
  lemma FirstStartNovncPort(cwd: string)
    ensures Get(Initialize(Fresh, cwd, Absent(true)).0, "app.novnc_port", JNull) == Ok(JNum(6080))
  {
    DottedKeys();
    FirstStart(cwd);
    DefaultAt(cwd, "app", "novnc_port");
  }

  /** On a first start k3s is off. */
  lemma FirstStartK3sOff(cwd: string)
    ensures Get(Initialize(Fresh, cwd, Absent(true)).0, "infrastructure.k3s_enabled", JNull) == Ok(JBool(false))
  {
    DottedKeys();
    FirstStart(cwd);
    DefaultAt(cwd, "infrastructure", "k3s_enabled");
  }
}

=== FILE: json.dfy ===
/**
  JavaScript values as they appear in parsed JSON payloads and configuration
  trees, with JavaScript's truthiness and `typeof … === 'object'` tests.
  Numbers are integers; fractional numbers are not modelled.
 */
module Json {
  import opened Base

  datatype Json =
    | JNull
    | JBool(b: bool)
    | JNum(n: int)
    | JStr(s: string)
    | JArr(items: seq<Json>)
    | JObj(fields: map<string, Json>)

  /** JavaScript truthiness: `null`, `false`, `0` and `""` are falsy; arrays and objects are truthy. */
  predicate Truthy(v: Json) {
    match v
    case JNull => false
    case JBool(b) => b
    case JNum(n) => n != 0
    case JStr(s) => s != ""
    case JArr(_) => true
    case JObj(_) => true
  }

  /** `v && typeof v === 'object'`: a non-null object or array. */
  predicate IsObject(v: Json) {
    v.JArr? || v.JObj?
  }

  /** `v.k` for an own property of an object; primitives and arrays have no such named property. */
  function Property(v: Json, k: string): (r: Option<Json>)
    ensures r.Some? <==> v.JObj? && k in v.fields
    ensures r.Some? ==> r.value == v.fields[k]
  {
    if v.JObj? && k in v.fields then Some(v.fields[k]) else None
  }
}

=== FILE: legacy_recognition.dfy ===
/**
  The older capture code of the single-file renderer (src/renderer/bundle.js,
  the recording part of its `DOMContentLoaded` handler). Unlike the module
  version it has no offline mode: a network error stops the recognizer and
  schedules a fresh start two seconds later, and every final result is sent on
  its own, trimmed, as soon as it arrives.
 */
module LegacyRecognition {
  import opened Base
  import opened Text
  import Recognition

  type ResultItem = Recognition.ResultItem

  /**
    The closure variables of the page script: the recording flag, whether
    `window.speechRecognition` and `mediaRecorder` are set, and the two
    transcript buffers of the live recognizer.
   */
  datatype State = State(
    recording: bool,
    recognizer: bool,
    recorder: bool,
    finalText: string,
    interimText: string)

  const Initial: State := State(false, false, false, "", "")

  /** The system messages of the page script. */
  datatype Notice =
    | Listening          // "Nasłuchiwanie... Mów teraz."
    | MicGranted         // "Dostęp do mikrofonu został przyznany. Rozpoczynam nasłuchiwanie..."
    | PermissionHint     // "Brak dostępu do mikrofonu. Kliknij ikonkę kłódki w pasku adresu …"
    | NoRecognition      // "Twoja przeglądarka nie obsługuje rozpoznawania mowy. Spróbuj użyć Chrome lub Edge."
    | MicActive          // "Mikrofon aktywny - mów wyraźnie po polsku"
    | MicError           // "Błąd dostępu do mikrofonu. Sprawdź uprawnienia i odśwież stronę."
    | NetworkRetry       // "Wystąpił problem z połączeniem sieciowym. Spróbuję ponownie za chwilę..."
    | RecognitionFailed(name: string)   // "Błąd rozpoznawania mowy: " + name
    | FallbackAttempt    // "Próba uruchomienia trybu awaryjnego nagrywania..."
    | FallbackActive     // "Mikrofon aktywny w trybie awaryjnym - mowa będzie rozpoznawana na serwerze"
    | NoDevice           // "Nie znaleziono urządzenia audio. Sprawdź, czy mikrofon jest podłączony."
    | AccessError(detail: string)       // "Błąd dostępu do mikrofonu: " + detail
    | NoRecognitionChrome  // "Twoja przeglądarka nie obsługuje rozpoznawania mowy. Spróbuj użyć Chrome."
    | MicOff             // "Mikrofon wyłączony"

  /** What a permission button's click calls. */
  datatype Retry = RetryStart | RetryFallback

  datatype Effect =
    | SystemMessage(notice: Notice)
    | UserMessage(text: string)
    | SendTranscript(transcript: string)     // socket 'web-stt-result'
    | ShowInterim(text: string)
    | ClearInterim
    | PermissionButton(retry: Retry)
    | StartRecognizer
    | StopRecognizer
    | ScheduleStart(ms: nat)                 // setTimeout(startRecording, ms)
    | StartCapture                           // startRecording() is called
    | StartFallback                          // startFallbackRecording() is called
    | StartRecorder(timeslice: nat)
    | StopRecorder

  // ---------------------------------------------------------------------------
  // onresult
  // ---------------------------------------------------------------------------

  /** The effects of one final result: the trimmed text as the user's line, then to the server. */
  function Emit(text: string): seq<Effect> {
    [UserMessage(Trim(text)), SendTranscript(Trim(text))]
  }

  /**
    The reference reading of the result loop: `pending` is the final buffer
    carried in; every final result is sent together with the buffer and the
    buffer is emptied.
   */
  function FinalEmits(rs: seq<ResultItem>, pending: string): seq<Effect> {
    if rs == [] then []
    else if rs[0].isFinal then Emit(pending + rs[0].transcript) + FinalEmits(rs[1..], "")
    else FinalEmits(rs[1..], pending)
  }

  /** The final buffer left after the loop: the carried one if no final result came, else empty. */
  function PendingAfter(rs: seq<ResultItem>, pending: string): string {
    if rs == [] then pending
    else if rs[0].isFinal then PendingAfter(rs[1..], "")
    else PendingAfter(rs[1..], pending)
  }

  /** `recognition.onresult`: the new state and the effects, in order. */
  function OnResult(s: State, results: seq<ResultItem>, resultIndex: nat): (r: (State, seq<Effect>))
    ensures r.0.recording == s.recording && r.0.recognizer == s.recognizer && r.0.recorder == s.recorder
  {
    var rs := Recognition.Visited(results, resultIndex);
    var interim := Recognition.Concat(Recognition.InterimParts(rs));
    (s.(finalText := PendingAfter(rs, s.finalText), interimText := interim),
     FinalEmits(rs, s.finalText) + (if interim != "" then [ShowInterim(interim)] else []))
  }

  lemma {:induction false} FinalEmitsSnoc(rs: seq<ResultItem>, x: ResultItem, pending: string)
    ensures FinalEmits(rs + [x], pending) ==
            FinalEmits(rs, pending) + (if x.isFinal then Emit(PendingAfter(rs, pending) + x.transcript) else [])
    ensures PendingAfter(rs + [x], pending) == (if x.isFinal then "" else PendingAfter(rs, pending))
    decreases |rs|
  {
    if rs == [] {
      assert rs + [x] == [x];
      assert [x][1..] == [];
    } else {
      assert (rs + [x])[1..] == rs[1..] + [x];
      if rs[0].isFinal {
        FinalEmitsSnoc(rs[1..], x, "");
      } else {
        FinalEmitsSnoc(rs[1..], x, pending);
      }
    }
  }

  /** One turn of the result loop, stated on the reference functions. */
  lemma ResultStep(rs: seq<ResultItem>, x: ResultItem, pending: string)
    ensures FinalEmits(rs + [x], pending) ==
            FinalEmits(rs, pending) + (if x.isFinal then Emit(PendingAfter(rs, pending) + x.transcript) else [])
    ensures PendingAfter(rs + [x], pending) == (if x.isFinal then "" else PendingAfter(rs, pending))
    ensures Recognition.Concat(Recognition.InterimParts(rs + [x])) ==
            Recognition.Concat(Recognition.InterimParts(rs)) + (if x.isFinal then "" else x.transcript)
  {
    FinalEmitsSnoc(rs, x, pending);
    Recognition.PartsSnoc(rs, x);
    if x.isFinal {
      assert Recognition.InterimParts(rs + [x]) == Recognition.InterimParts(rs) + [] == Recognition.InterimParts(rs);
      assert Recognition.Concat(Recognition.InterimParts(rs)) + "" == Recognition.Concat(Recognition.InterimParts(rs));
    } else {
      Recognition.ConcatSnoc(Recognition.InterimParts(rs), x.transcript);
    }
  }

  /**
    The `onresult` loop as written, over the visited results: each final
    result is appended to the final buffer, sent trimmed and the buffer
    emptied; interim results are appended to the interim buffer.
   */
  method ResultLoop(rs: seq<ResultItem>, pending: string) returns (fx: seq<Effect>, finalText: string, interimText: string)
    ensures fx == FinalEmits(rs, pending)
    ensures finalText == PendingAfter(rs, pending)
    ensures interimText == Recognition.Concat(Recognition.InterimParts(rs))
  {
    finalText := pending;
    interimText := "";
    fx := [];
    var i := 0;
    while i < |rs|
      invariant 0 <= i <= |rs|
      invariant fx == FinalEmits(rs[..i], pending)
      invariant finalText == PendingAfter(rs[..i], pending)
      invariant interimText == Recognition.Concat(Recognition.InterimParts(rs[..i]))
    {
      fx, finalText, interimText := VisitResult(rs, i, pending, fx, finalText, interimText);
      i := i + 1;
    }
    assert rs[..i] == rs;
  }

  /** One turn of the loop: the buffers and effects after `rs[..i]` become those after `rs[..i + 1]`. */
  method VisitResult(rs: seq<ResultItem>, i: nat, pending: string,
                     fx0: seq<Effect>, final0: string, interim0: string)
      returns (fx: seq<Effect>, finalText: string, interimText: string)
    requires i < |rs|
    requires fx0 == FinalEmits(rs[..i], pending)
    requires final0 == PendingAfter(rs[..i], pending)
    requires interim0 == Recognition.Concat(Recognition.InterimParts(rs[..i]))
    ensures fx == FinalEmits(rs[..i + 1], pending)
    ensures finalText == PendingAfter(rs[..i + 1], pending)
    ensures interimText == Recognition.Concat(Recognition.InterimParts(rs[..i + 1]))
  {
    var item := rs[i];
    assert rs[..i + 1] == rs[..i] + [item];
    ResultStep(rs[..i], item, pending);
    fx, finalText, interimText := fx0, final0, interim0;
    if item.isFinal {
      finalText := finalText + item.transcript;
      fx := fx + Emit(finalText);
      finalText := "";
    } else {
      interimText := interimText + item.transcript;
    }
  }

  /** `recognition.onresult`: the loop, then the interim text is shown when non-empty. */
  method HandleResult(s: State, results: seq<ResultItem>, resultIndex: nat) returns (s': State, fx: seq<Effect>)
    ensures s' == OnResult(s, results, resultIndex).0
    ensures fx == OnResult(s, results, resultIndex).1
  {
    var finalText, interimText;
    fx, finalText, interimText := ResultLoop(Recognition.Visited(results, resultIndex), s.finalText);
    if interimText != "" {
      fx := fx + [ShowInterim(interimText)];
    }
    s' := s.(finalText := finalText, interimText := interimText);
  }

  /** How many transcripts `fx` sends to the server. */
  function Sends(fx: seq<Effect>): nat {
    if fx == [] then 0 else (if fx[0].SendTranscript? then 1 else 0) + Sends(fx[1..])
  }

  lemma {:induction false} SendsAppend(a: seq<Effect>, b: seq<Effect>)
    ensures Sends(a + b) == Sends(a) + Sends(b)
  {
    if a == [] {
      assert a + b == b;
    } else {
      assert (a + b)[0] == a[0];
      assert (a + b)[1..] == a[1..] + b;
      SendsAppend(a[1..], b);
    }
  }

  /** How many of `rs` are final. */
  function FinalCount(rs: seq<ResultItem>): nat {
    if rs == [] then 0 else (if rs[0].isFinal then 1 else 0) + FinalCount(rs[1..])
  }

  /** Each final result is sent exactly once: one `web-stt-result` per final result. */
  lemma {:induction false} OneSendPerFinal(rs: seq<ResultItem>, pending: string)
    ensures Sends(FinalEmits(rs, pending)) == FinalCount(rs)
    decreases |rs|
  {
    if rs != [] {
      if rs[0].isFinal {
        OneSendPerFinal(rs[1..], "");
        var e := Emit(pending + rs[0].transcript);
        SendsAppend(e, FinalEmits(rs[1..], ""));
        assert Sends(e[1..]) == 1;
      } else {
        OneSendPerFinal(rs[1..], pending);
      }
    }
  }

  /**
    The final buffer is empty after any event that started with it empty, so
    each send carries exactly one result's transcript, trimmed.
   */
  lemma {:induction false} FinalBufferStaysEmpty(rs: seq<ResultItem>)
    ensures PendingAfter(rs, "") == ""
    decreases |rs|
  {
    if rs != [] {
      FinalBufferStaysEmpty(rs[1..]);
    }
  }

  /** The interim buffer is rebuilt by every result event: the previous one never leaks into it. */
  lemma InterimResetEachEvent(s: State, t: State, results: seq<ResultItem>, resultIndex: nat)
    ensures OnResult(s, results, resultIndex).0.interimText == OnResult(t, results, resultIndex).0.interimText
  {
  }

  // ---------------------------------------------------------------------------
  // onerror, onend
  // ---------------------------------------------------------------------------

  /**
    `recognition.onerror`: `no-speech` is silent; `not-allowed` asks for
    permission with a button that restarts capture; `network` stops the
    recognizer and schedules a new `startRecording` after 2000 ms; any other
    error is reported by name. The state never changes.
   */
  function OnError(s: State, name: string): (r: (State, seq<Effect>))
    ensures r.0 == s
    ensures StartRecognizer !in r.1 && StartCapture !in r.1
    ensures name == "no-speech" ==> r.1 == []
    ensures name == "not-allowed" ==> r.1 == [SystemMessage(PermissionHint), PermissionButton(RetryStart)]
    ensures (ScheduleStart(2000) in r.1) <==> name == "network"
    ensures name == "network" ==> r.1 == [SystemMessage(NetworkRetry), StopRecognizer, ScheduleStart(2000)]
    ensures name != "no-speech" && name != "not-allowed" && name != "network" ==>
              r.1 == [SystemMessage(RecognitionFailed(name))]
  {
    if name == "no-speech" then (s, [])
    else if name == "not-allowed" then (s, [SystemMessage(PermissionHint), PermissionButton(RetryStart)])
    else if name == "network" then (s, [SystemMessage(NetworkRetry), StopRecognizer, ScheduleStart(2000)])
    else (s, [SystemMessage(RecognitionFailed(name))])
  }

  /** `recognition.onend`: restart while recording; a throwing restart is only logged. */
  function OnEnd(s: State): (r: (State, seq<Effect>))
    ensures r.0 == s
    ensures (StartRecognizer in r.1) <==> s.recording
  {
    if s.recording then (s, [StartRecognizer]) else (s, [])
  }

  // ---------------------------------------------------------------------------
  // startRecording, startFallbackRecording, stopRecording
  // ---------------------------------------------------------------------------

  /** What the browser does during `startRecording`. */
  datatype StartEnv = StartEnv(micGranted: bool, apiAvailable: bool, startThrows: bool)

  /**
    `startRecording()`: microphone permission is asked first and a refusal
    returns before any recognizer exists; without the speech API the fallback
    recorder is started; a recognizer whose `start` throws ends in the outer
    handler, which also starts the fallback.
   */
  function StartRecording(s: State, env: StartEnv): (r: (State, seq<Effect>))
    ensures |r.1| >= 1 && r.1[0] == SystemMessage(Listening)
    ensures !env.micGranted ==> r == (s, [SystemMessage(Listening), SystemMessage(PermissionHint), PermissionButton(RetryStart)])
    ensures r.0.recording <==> s.recording || (env.micGranted && env.apiAvailable && !env.startThrows)
    ensures (StartRecognizer in r.1) <==> env.micGranted && env.apiAvailable
    ensures (StartFallback in r.1) <==> env.micGranted && (!env.apiAvailable || env.startThrows)
    ensures r.0.recognizer <==> s.recognizer || (env.micGranted && env.apiAvailable && !env.startThrows)
  {
    var listening := [SystemMessage(Listening)];
    if !env.micGranted then
      assert listening + [SystemMessage(PermissionHint), PermissionButton(RetryStart)]
             == [SystemMessage(Listening), SystemMessage(PermissionHint), PermissionButton(RetryStart)];
      (s, listening + [SystemMessage(PermissionHint), PermissionButton(RetryStart)])
    else
      var granted := listening + [SystemMessage(MicGranted)];
      if !env.apiAvailable then (s, granted + [SystemMessage(NoRecognition), StartFallback])
      else
        // a new recognizer with its own, empty, transcript buffers
        var s1 := s.(finalText := "", interimText := "");
        if env.startThrows then (s1, granted + [StartRecognizer, SystemMessage(MicError), StartFallback])
        else (s1.(recognizer := true, recording := true), granted + [StartRecognizer, SystemMessage(MicActive)])
  }

  /** How `getUserMedia` ends in the fallback: granted, or rejected with an error name and message. */
  datatype MediaOutcome = Granted | Rejected(errorName: string, message: string)

  /** The detail of an unclassified access error: `error.message || error.name || 'Nieznany błąd'`. */
  function ErrorDetail(name: string, message: string): (d: string)
    ensures d == (if message != "" then message else if name != "" then name else "Nieznany błąd")
    ensures d != ""
  {
    if message != "" then message else if name != "" then name else "Nieznany błąd"
  }

  /**
    `startFallbackRecording()`: the recorder starts in one-second slices, or
    the rejection is explained by its error name.
   */
  function StartFallbackRecording(s: State, outcome: MediaOutcome): (r: (State, seq<Effect>))
    ensures |r.1| >= 2 && r.1[0] == SystemMessage(FallbackAttempt)
    ensures outcome.Granted? ==> r.0 == s.(recorder := true, recording := true)
    ensures outcome.Rejected? ==> r.0 == s
    ensures (exists retry :: PermissionButton(retry) in r.1) <==>
              outcome.Rejected? && (outcome.errorName == "NotAllowedError" || outcome.errorName == "PermissionDeniedError")
    ensures outcome.Rejected? && outcome.errorName == "NotFoundError" ==> r.1[1] == SystemMessage(NoDevice)
  {
    var attempt := [SystemMessage(FallbackAttempt)];
    match outcome
    case Granted =>
      (s.(recorder := true, recording := true), attempt + [StartRecorder(1000), SystemMessage(FallbackActive)])
    case Rejected(name, message) =>
      if name == "NotAllowedError" || name == "PermissionDeniedError" then
        var fx := attempt + [SystemMessage(PermissionHint), PermissionButton(RetryFallback)];
        assert PermissionButton(RetryFallback) == fx[2];
        (s, fx)
      else if name == "NotFoundError" then (s, attempt + [SystemMessage(NoDevice)])
      else (s, attempt + [SystemMessage(AccessError(ErrorDetail(name, message)))])
  }

  /**
    `stopRecording()`: stops the recognizer (the reference is kept), stops the
    recorder only while recording, clears the flag and tells the user.
   */
  function StopRecording(s: State): (r: (State, seq<Effect>))
    ensures r.0 == s.(recording := false)
    ensures (StopRecognizer in r.1) <==> s.recognizer
    ensures (StopRecorder in r.1) <==> s.recorder && s.recording
    ensures |r.1| >= 1 && r.1[|r.1| - 1] == SystemMessage(MicOff)
  {
    var fx := (if s.recognizer then [StopRecognizer, ClearInterim] else [])
              + (if s.recorder && s.recording then [StopRecorder] else []);
    (s.(recording := false), fx + [SystemMessage(MicOff)])
  }

  /**
    The `web-stt-request` socket handler: without the speech API the user is
    told; otherwise capture starts unless it is already running.
   */
  function WebSttRequest(s: State, apiAvailable: bool): (fx: seq<Effect>)
    ensures (StartCapture in fx) <==> apiAvailable && !s.recording
    ensures !apiAvailable ==> fx == [SystemMessage(NoRecognitionChrome)]
  {
    if !apiAvailable then [SystemMessage(NoRecognitionChrome)]
    else if !s.recording then [StartCapture]
    else []
  }

  // ---------------------------------------------------------------------------
  // Event sequences
  // ---------------------------------------------------------------------------

  datatype Event =
    | RecognizerResult(results: seq<ResultItem>, resultIndex: nat)
    | RecognizerError(name: string)
    | RecognizerEnd
    | UserStart(env: StartEnv)
    | FallbackStart(outcome: MediaOutcome)
    | UserStop

  function Step(s: State, e: Event): (State, seq<Effect>) {
    match e
    case RecognizerResult(results, resultIndex) => OnResult(s, results, resultIndex)
    case RecognizerError(name) => OnError(s, name)
    case RecognizerEnd => OnEnd(s)
    case UserStart(env) => StartRecording(s, env)
    case FallbackStart(outcome) => StartFallbackRecording(s, outcome)
    case UserStop => StopRecording(s)
  }

  function Run(s: State, es: seq<Event>): (State, seq<Effect>)
    decreases |es|
  {
    if es == [] then (s, [])
    else
      var (s1, fx1) := Step(s, es[0]);
      var (s2, fx2) := Run(s1, es[1..]);
      (s2, fx1 + fx2)
  }

  /** Between events the final buffer is always empty. */
  lemma {:induction false} FinalBufferEmptyBetweenEvents(s: State, es: seq<Event>)
    requires s.finalText == ""
    ensures Run(s, es).0.finalText == ""
    decreases |es|
  {
    if es != [] {
      var s1 := Step(s, es[0]).0;
      if es[0].RecognizerResult? {
        FinalBufferStaysEmpty(Recognition.Visited(es[0].results, es[0].resultIndex));
      }
      assert s1.finalText == "";
      FinalBufferEmptyBetweenEvents(s1, es[1..]);
    }
  }

  /** After the user stops, an end event does not restart the recognizer. */
  lemma StopThenEndDoesNotRestart(s: State)
    ensures StartRecognizer !in Run(s, [UserStop, RecognizerEnd]).1
  {
    var s1 := StopRecording(s).0;
    assert [UserStop, RecognizerEnd][1..] == [RecognizerEnd];
    assert Run(s1, [RecognizerEnd]).1 == [];
  }
}

=== FILE: llm.dfy ===
/**
  The reply generator (src/services/llm.js). No model is run: `process`
  lower-cases the text and answers with the reply of the first keyword rule
  whose keywords occur in it, or a default reply quoting the text. A thrown
  error inside `process` (for instance a non-string argument, whose
  `toLowerCase` is not a function) is answered with a fixed fallback reply.
 */
module Llm {
  import opened Base
  import opened Text
  import opened Json

  datatype Service = Service(initialized: bool)

  datatype LlmError = NotInitialized | ModelDirFailed

  /** One `if (text.toLowerCase().includes(...) || ...)` rule of `_useExternalAPI`. */
  datatype Rule = Rule(keywords: seq<string>, reply: string)

  const GreetingReply: string := "Cześć! Jak mogę Ci dzisiaj pomóc?"
  // Long replies are written as concatenations of short literals: the verifier
  // sees the individual characters of a short literal only.
  const WellbeingReply: string := "Dziękuję, mam się dobrze! " + "Jestem tutaj, aby Ci pomóc."
  const RtspReply: string := "Mogę pomóc Ci skonfigurować " + "strumień RTSP. Potrzebuję adresu URL, " + "nazwy użytkownika i hasła. " + "Czy chcesz skonfigurować to teraz?"
  const WeatherReply: string := "Niestety nie mam dostępu do aktualnych " + "danych pogodowych. Czy mogę pomóc Ci w czymś innym?"
  const ThanksReply: string := "Nie ma za co! " + "Czy mogę jeszcze w czymś pomóc?"
  const FarewellReply: string := "Do widzenia! Miło było porozmawiać. " + "Wróć, gdy będziesz potrzebować pomocy!"

  /** The reply `_generateFallbackResponse` gives whatever the text. */
  const FallbackReply: string := "Przepraszam, ale miałem problem z przetworzeniem Twojej wypowiedzi. Czy możesz powtórzyć lub sformułować to inaczej?"

  /** The keyword rules, in the order the source tests them. */
  const Rules: seq<Rule> := [
    Rule(["cześć", "witaj", "hej"], GreetingReply),
    Rule(["jak się masz"], WellbeingReply),
    Rule(["rtsp"], RtspReply),
    Rule(["pogoda"], WeatherReply),
    Rule(["dziękuję", "dzięki"], ThanksReply),
    Rule(["do widzenia", "pa", "żegnaj"], FarewellReply)
  ]

  const DefaultLead: string := "Rozumiem, że pytasz o "
  const DefaultTail: string := ". Niestety, nie mam wystarczających informacji, aby udzielić szczegółowej odpowiedzi. Czy możesz podać więcej szczegółów?"

  /** The reply when no keyword occurs: the original text in double quotes. */
  function DefaultReply(text: string): string {
    DefaultLead + ("\"" + text + "\"") + DefaultTail
  }

  /** Some keyword of rule `k` occurs in the lower-cased text. */
  predicate RuleMatches(k: nat, lowered: string)
    requires k < |Rules|
  {
    exists i :: 0 <= i < |Rules[k].keywords| && Contains(lowered, Rules[k].keywords[i])
  }

  /** The first rule that matches, if any. */
  function FirstRule(lowered: string): (r: Option<nat>)
    ensures r.Some? ==> r.value < |Rules| && RuleMatches(r.value, lowered)
    ensures r.Some? ==> forall j :: 0 <= j < r.value ==> !RuleMatches(j, lowered)
    ensures r.None? ==> forall j :: 0 <= j < |Rules| ==> !RuleMatches(j, lowered)
  {
    var p := (k: nat) => k < |Rules| && RuleMatches(k, lowered);
    var r := FindFrom(0, |Rules|, p);
    assert forall j: nat :: j < |Rules| ==> (p(j) <==> RuleMatches(j, lowered));
    r
  }

  /** `_useExternalAPI(text)` for a string argument: the reply of the first matching rule, or the default one. */
  function ExternalReply(text: string): string {
    match FirstRule(Lower(text))
    case Some(k) => Rules[k].reply
    case None => DefaultReply(text)
  }

  /**
    The reply is rule `k`'s exactly when rule `k` is the first rule whose
    keywords occur in the lower-cased text, and the default reply exactly when
    no rule's keywords occur.
   */
  lemma ReplyOfFirstMatchingRule(text: string)
    ensures forall k :: 0 <= k < |Rules| ==>
              (ExternalReply(text) == Rules[k].reply <==>
                 RuleMatches(k, Lower(text)) && forall j :: 0 <= j < k ==> !RuleMatches(j, Lower(text)))
    ensures ExternalReply(text) == DefaultReply(text) <==> forall j :: 0 <= j < |Rules| ==> !RuleMatches(j, Lower(text))
  {
    var t := Lower(text);
    RepliesDistinct(text);
    match FirstRule(t)
    case Some(i) =>
      forall k | 0 <= k < |Rules|
        ensures Rules[i].reply == Rules[k].reply <==> RuleMatches(k, t) && forall j :: 0 <= j < k ==> !RuleMatches(j, t)
      {
        if k < i {
          assert Rules[k].reply != Rules[i].reply;
        } else if k > i {
          assert Rules[i].reply != Rules[k].reply;
        }
      }
    case None =>
  }

  /** The characters at indices 0, 1 and 3, which tell the replies apart. */
  function Key(reply: string): string
    requires |reply| >= 4
  {
    [reply[0], reply[1], reply[3]]
  }

  lemma RuleKeys()
    ensures |GreetingReply| >= 4 && Key(GreetingReply) == "Czś"
    ensures |WellbeingReply| >= 4 && Key(WellbeingReply) == "Dzę"
    ensures |RtspReply| >= 4 && Key(RtspReply) == "Moę"
    ensures |WeatherReply| >= 4 && Key(WeatherReply) == "Nis"
    ensures |ThanksReply| >= 4 && Key(ThanksReply) == "Ni "
    ensures |FarewellReply| >= 4 && Key(FarewellReply) == "Dow"
  {
  }

  /** The rule replies differ from one another and from every default reply. */
  lemma RepliesDistinct(text: string)
    ensures forall j, k :: 0 <= j < k < |Rules| ==> Rules[j].reply != Rules[k].reply
    ensures forall k :: 0 <= k < |Rules| ==> Rules[k].reply != DefaultReply(text)
  {
    RuleKeys();
    assert forall k :: 0 <= k < |Rules| ==> |Rules[k].reply| >= 4;
    forall j, k | 0 <= j < k < |Rules| ensures Rules[j].reply != Rules[k].reply {
      assert Key(Rules[j].reply) != Key(Rules[k].reply);
    }
    assert DefaultReply(text)[0] == 'R';
    forall k | 0 <= k < |Rules| ensures Rules[k].reply != DefaultReply(text) {
      assert Rules[k].reply[0] != 'R';
    }
  }

  /** Every reply to a string starts with one of the capitals of the rule replies or of the default reply. */
  lemma ReplyInitial(text: string)
    ensures |ExternalReply(text)| > 0 && ExternalReply(text)[0] in "CDMNR"
  {
    match FirstRule(Lower(text))
    case Some(k) =>
      assert GreetingReply[0] == 'C' && WellbeingReply[0] == 'D' && RtspReply[0] == 'M';
      assert WeatherReply[0] == 'N' && ThanksReply[0] == 'N' && FarewellReply[0] == 'D';
    case None =>
      assert DefaultReply(text)[0] == 'R';
  }

  /**
    `process(text)`: throws before initialization; a string gets the keyword
    reply; any other value makes `toLowerCase` throw, which is answered with the
    fallback reply.
   */
  function Process(svc: Service, text: Json): (r: Result<string, LlmError>)
    ensures !svc.initialized <==> r == Err(NotInitialized)
    ensures svc.initialized && text.JStr? ==> r == Ok(ExternalReply(text.s))
    ensures svc.initialized && !text.JStr? ==> r == Ok(FallbackReply)
  {
    if !svc.initialized then Err(NotInitialized)
    else if text.JStr? then Ok(ExternalReply(text.s))
    else Ok(FallbackReply)
  }

  /** A greeting keyword anywhere in the text wins over every other rule. */
  lemma GreetingComesFirst(text: string)
    requires Contains(Lower(text), "cześć") || Contains(Lower(text), "witaj") || Contains(Lower(text), "hej")
    ensures ExternalReply(text) == GreetingReply
  {
    var t := Lower(text);
    if Contains(t, "cześć") {
      assert Rules[0].keywords[0] == "cześć";
    } else if Contains(t, "witaj") {
      assert Rules[0].keywords[1] == "witaj";
    } else {
      assert Rules[0].keywords[2] == "hej";
    }
    assert RuleMatches(0, t);
  }

  /** With no keyword present, the reply quotes the original (not lower-cased) text. */
  lemma DefaultQuotesText(text: string)
    requires forall j :: 0 <= j < |Rules| ==> !RuleMatches(j, Lower(text))
    ensures OccursAt(ExternalReply(text), "\"" + text + "\"", 22)
  {
    var r := ExternalReply(text);
    var q := "\"" + text + "\"";
    assert r == DefaultLead + q + DefaultTail;
    assert |DefaultLead| == 22;
    assert r[22..22 + |q|] == q;
  }

  /** The fallback reply is the same for every non-string argument. */
  lemma FallbackIgnoresInput(svc: Service, a: Json, b: Json)
    requires svc.initialized && !a.JStr? && !b.JStr?
    ensures Process(svc, a) == Process(svc, b) == Ok(FallbackReply)
  {
  }

  /** `initialize`: sets the flag unless creating the model directory throws. */
  function Initialize(svc: Service, modelDirOk: bool): (r: Result<Service, LlmError>)
    ensures r.Ok? <==> modelDirOk
    ensures r.Ok? ==> r.value.initialized
  {
    if modelDirOk then Ok(svc.(initialized := true)) else Err(ModelDirFailed)
  }
}

=== FILE: log_monitor.dfy ===
/**
  The log watcher (src/services/logMonitor.js): it remembers how far into the
  log file it has read, reads whatever was appended on each tick, and for
  every line picks the first error pattern that matches it. The file is an
  oracle (`LogFile`), one character stands for one byte, and the fix actions
  themselves are not modelled: a dispatch records which fix would be called.
 */
module LogMonitor {
  import opened Base
  import opened Text
  import PosixPath

  /** The log file as `fs.existsSync` / `fs.statSync` / `fs.readSync` see it. */
  datatype LogFile = NoFile | Contents(text: string)

  /** The four fixes, in the order of `errorPatterns`. */
  datatype FixKind = NetworkResolution | MicrophoneAccess | Navigation | BrowserContext

  datatype Pattern = Pattern(text: string, kind: FixKind)

  /** `errorPatterns`: literal, case-insensitive patterns, tried in this order. */
  const ErrorPatterns: seq<Pattern> := [
    Pattern("net::ERR_NAME_NOT_RESOLVED", NetworkResolution),
    Pattern("Błąd dostępu do mikrofonu", MicrophoneAccess),
    Pattern("Error: Navigation failed", Navigation),
    Pattern("Error: Browser context", BrowserContext)
  ]

  /**
    The monitor's state. `intervalId` is the handle of the current interval;
    `live` holds every interval that was set and not cleared; `nextId` is the
    next handle `setInterval` hands out.
   */
  datatype Monitor = Monitor(
    initialized: bool,
    logPath: string,
    checkInterval: int,
    position: nat,
    intervalId: Option<nat>,
    live: set<nat>,
    nextId: nat)

  const DefaultCheckInterval: int := 5000

  /** The parts `path.join` puts after the home directory for the default log file. */
  const LogPathNames: seq<string> := [".config", "videochat-llm-app", "logs", "main.log"]

  /** Those parts joined by slashes, `.config/videochat-llm-app/logs/main.log`. */
  const DefaultLogPath: string := Text.Join(LogPathNames, "/")

  /**
    `new LogMonitorService(options)`: `logPath || path.join(home, '.config',
    'videochat-llm-app', 'logs', 'main.log')`, `checkInterval || 5000`. The
    default file lies in the normal form of the home directory.
   */
  function New(home: string, logPath: Option<string>, checkInterval: Option<int>): (m: Monitor)
    ensures !m.initialized && m.position == 0 && m.intervalId.None? && m.live == {}
    ensures logPath.Some? && logPath.value != "" ==> m.logPath == logPath.value
    ensures !(logPath.Some? && logPath.value != "") ==> m.logPath == PosixPath.Join(home, DefaultLogPath)
    ensures !(logPath.Some? && logPath.value != "") && home != [] ==>
              m.logPath == PosixPath.DirPrefix(home) + DefaultLogPath
    ensures checkInterval.Some? && checkInterval.value != 0 ==> m.checkInterval == checkInterval.value
    ensures !(checkInterval.Some? && checkInterval.value != 0) ==> m.checkInterval == DefaultCheckInterval
  {
    var path := if logPath.Some? && logPath.value != "" then logPath.value
                else PosixPath.Join(home, DefaultLogPath);
    var every := if checkInterval.Some? && checkInterval.value != 0 then checkInterval.value else DefaultCheckInterval;
    if home != [] then
      DefaultLogUnderHome(home);
      Monitor(false, path, every, 0, None, {}, 1)
    else Monitor(false, path, every, 0, None, {}, 1)
  }

  /** Each part is a plain name. */
  lemma LogPathPlain()
    ensures forall i :: 0 <= i < |LogPathNames| ==> PosixPath.PlainName(LogPathNames[i])
  {
  }

  /** Joined onto a home directory, the default path sits inside the home's normal form. */
  lemma DefaultLogUnderHome(home: string)
    requires home != []
    ensures PosixPath.Join(home, DefaultLogPath) == PosixPath.DirPrefix(home) + DefaultLogPath
  {
    LogPathPlain();
    PosixPath.JoinPlainNames(home, LogPathNames);
  }

  /** A home of `/` gives one leading slash, not two. */
  lemma RootHomeLogPath()
    ensures New("/", None, None).logPath == "/" + DefaultLogPath
  {
    PosixPath.RootPrefix();
  }

  /** A home with a trailing slash gives no doubled slash. */
  lemma TrailingSlashHomeLogPath()
    ensures New("/home/u/", None, None).logPath == "/home/u/" + DefaultLogPath
  {
    PosixPath.HomeDirPrefix();
  }

  /** At most one interval is alive, and it is the one the monitor holds. */
  predicate OneInterval(m: Monitor) {
    m.live == (if m.intervalId.Some? then {m.intervalId.value} else {})
    && (m.intervalId.Some? ==> m.intervalId.value < m.nextId)
  }

  // ---------------------------------------------------------------------------
  // Starting and stopping the interval
  // ---------------------------------------------------------------------------

  datatype MonitorError = NotInitialized | FileError

  /**
    `startMonitoring()`: throws when not initialized; otherwise clears the
    interval it holds, if any, and sets a new one.
   */
  function StartMonitoring(m: Monitor): (r: Result<Monitor, MonitorError>)
    ensures r.Err? <==> !m.initialized
    ensures r.Err? ==> r.error == NotInitialized
    ensures r.Ok? ==> r.value.intervalId == Some(m.nextId) && m.nextId in r.value.live
    ensures r.Ok? ==> r.value.position == m.position && r.value.initialized
  {
    if !m.initialized then Err(NotInitialized)
    else
      var cleared := if m.intervalId.Some? then m.live - {m.intervalId.value} else m.live;
      Ok(m.(intervalId := Some(m.nextId), live := cleared + {m.nextId}, nextId := m.nextId + 1))
  }

  /** `stopMonitoring()`: clears and forgets the interval it holds, if any. */
  function StopMonitoring(m: Monitor): (r: Monitor)
    ensures r.intervalId.None?
    ensures m.intervalId.Some? ==> r.live == m.live - {m.intervalId.value}
    ensures m.intervalId.None? ==> r == m
    ensures r.position == m.position && r.initialized == m.initialized
  {
    if m.intervalId.Some? then m.(intervalId := None, live := m.live - {m.intervalId.value}) else m
  }

  /** Stopping twice is stopping once. */
  lemma StopIdempotent(m: Monitor)
    ensures StopMonitoring(StopMonitoring(m)) == StopMonitoring(m)
  {
  }

  /** Starting replaces the interval rather than adding one; stopping leaves none. */
  lemma MonitoringKeepsOneInterval(m: Monitor)
    requires OneInterval(m)
    ensures StartMonitoring(m).Ok? ==> OneInterval(StartMonitoring(m).value)
    ensures StartMonitoring(m).Ok? ==> StartMonitoring(m).value.live == {m.nextId}
    ensures OneInterval(StopMonitoring(m)) && StopMonitoring(m).live == {}
  {
    if m.initialized {
      var r := StartMonitoring(m).value;
      assert m.intervalId.Some? ==> m.live - {m.intervalId.value} == {};
      assert r.live == {m.nextId};
    }
  }

  // ---------------------------------------------------------------------------
  // Initialisation and the read position
  // ---------------------------------------------------------------------------

  /**
    `initialize(browserAutomation)`: creates an empty log file when there is
    none (`createOk` is false when that throws, and the error is re-thrown),
    sets the read position to the file's size, marks the monitor initialized
    and starts monitoring.
   */
  function Initialize(m: Monitor, file: LogFile, createOk: bool): (r: Result<Monitor, MonitorError>)
    ensures r.Err? <==> file.NoFile? && !createOk
    ensures r.Err? ==> r.error == FileError
    ensures r.Ok? ==> r.value.initialized && r.value.intervalId == Some(m.nextId)
    ensures r.Ok? && file.Contents? ==> r.value.position == |file.text|
    ensures r.Ok? && file.NoFile? ==> r.value.position == 0
  {
    if file.NoFile? && !createOk then Err(FileError)
    else
      var size := if file.Contents? then |file.text| else 0;
      StartMonitoring(m.(position := size, initialized := true))
  }

  /**
    `_checkLogs()`: nothing happens when the file is missing. Otherwise a
    size not beyond the read position (equal included) resets the position
    to 0; then, when the file is longer than the position, the characters
    from the position to the end are read and analysed and the position moves
    to the end. `readOk` is false when opening or reading throws; the error
    is logged and the position stays as reset. Returns the text handed to
    `_analyzeLogs`, if any.
   */
  function CheckLogs(m: Monitor, file: LogFile, readOk: bool): (r: (Monitor, Option<string>))
    ensures file.NoFile? ==> r == (m, None)
    ensures r.0.initialized == m.initialized && r.0.intervalId == m.intervalId && r.0.live == m.live
    ensures file.Contents? && readOk ==> r.0.position == |file.text|
    ensures file.Contents? && |file.text| <= m.position ==>
              r.1 == (if readOk && |file.text| > 0 then Some(file.text) else None)
    ensures file.Contents? && |file.text| > m.position ==>
              r.1 == (if readOk then Some(file.text[m.position..]) else None)
    ensures r.1.Some? ==> |r.1.value| > 0
  {
    match file
    case NoFile => (m, None)
    case Contents(text) =>
      var from := if |text| <= m.position then 0 else m.position;
      if |text| > from then
        if readOk then (m.(position := |text|), Some(text[from..]))
        else (m.(position := from), None)
      else (m.(position := from), None)
  }

  /** Whatever was in the log when the monitor started is never analysed: only what is appended. */
  lemma StartupContentSkipped(m: Monitor, before: string, appended: string, createOk: bool)
    requires |appended| > 0
    requires Initialize(m, Contents(before), createOk).Ok?
    ensures CheckLogs(Initialize(m, Contents(before), createOk).value, Contents(before + appended), true).1
              == Some(appended)
  {
    var m1 := Initialize(m, Contents(before), createOk).value;
    assert (before + appended)[|before|..] == appended;
  }

  /** A non-empty file that did not change since the last read is read again from the start. */
  lemma UnchangedFileReread(m: Monitor, text: string)
    requires |text| > 0
    ensures var m1 := CheckLogs(m, Contents(text), true).0;
            CheckLogs(m1, Contents(text), true).1 == Some(text)
  {
  }

  // ---------------------------------------------------------------------------
  // Dispatch
  // ---------------------------------------------------------------------------

  /** `pattern.test(line)` for a literal pattern with the `i` flag. */
  predicate Matches(line: string, p: Pattern) {
    Contains(Lower(line), Lower(p.text))
  }

  /** The first pattern from index `k` on that matches the line. */
  function FirstMatchFrom(line: string, k: nat): (r: Option<nat>)
    requires k <= |ErrorPatterns|
    ensures r.Some? ==> k <= r.value < |ErrorPatterns| && Matches(line, ErrorPatterns[r.value])
    ensures r.Some? ==> forall j :: k <= j < r.value ==> !Matches(line, ErrorPatterns[j])
    ensures r.None? ==> forall j :: k <= j < |ErrorPatterns| ==> !Matches(line, ErrorPatterns[j])
    decreases |ErrorPatterns| - k
  {
    if k == |ErrorPatterns| then None
    else if Matches(line, ErrorPatterns[k]) then Some(k)
    else FirstMatchFrom(line, k + 1)
  }

  /** The fix one line triggers: the first matching pattern's, or none. */
  function Dispatch(line: string): Option<FixKind> {
    match FirstMatchFrom(line, 0)
    case Some(j) => Some(ErrorPatterns[j].kind)
    case None => None
  }

  /**
    A line triggers a fix exactly when some pattern matches it, and the fix is
    that of the first pattern in table order that matches.
   */
  lemma DispatchFirstMatch(line: string)
    ensures Dispatch(line).Some? <==> exists j :: 0 <= j < |ErrorPatterns| && Matches(line, ErrorPatterns[j])
    ensures Dispatch(line).Some? ==>
              exists j :: 0 <= j < |ErrorPatterns| && ErrorPatterns[j].kind == Dispatch(line).value
                          && Matches(line, ErrorPatterns[j])
                          && (forall i :: 0 <= i < j ==> !Matches(line, ErrorPatterns[i]))
  {
  }

  /** The inner loop of `_analyzeLogs`: try the patterns in order and stop at the first that matches. */
  method FirstFix(line: string) returns (fix: Option<FixKind>)
    ensures fix == Dispatch(line)
  {
    fix := None;
    var j := 0;
    while j < |ErrorPatterns|
      invariant 0 <= j <= |ErrorPatterns|
      invariant FirstMatchFrom(line, 0) == FirstMatchFrom(line, j)
    {
      if Matches(line, ErrorPatterns[j]) {
        return Some(ErrorPatterns[j].kind);
      }
      j := j + 1;
    }
  }

  /** The fixes of `lines`, one per line, in order. */
  function DispatchAll(lines: seq<string>): (r: seq<Option<FixKind>>)
    ensures |r| == |lines|
    ensures forall i :: 0 <= i < |lines| ==> r[i] == Dispatch(lines[i])
  {
    if lines == [] then [] else DispatchAll(lines[..|lines| - 1]) + [Dispatch(lines[|lines| - 1])]
  }

  /** The outer loop of `_analyzeLogs`: one dispatch per line, in order. */
  method DispatchLines(lines: seq<string>) returns (fixes: seq<Option<FixKind>>)
    ensures fixes == DispatchAll(lines)
  {
    fixes := [];
    var i := 0;
    while i < |lines|
      invariant 0 <= i <= |lines|
      invariant fixes == DispatchAll(lines[..i])
    {
      var fix := FirstFix(lines[i]);
      assert lines[..i + 1][..i] == lines[..i];
      fixes := fixes + [fix];
      i := i + 1;
    }
    assert lines[..i] == lines;
  }

  /**
    `_analyzeLogs(content)`: the content is split on `\n` and each line
    dispatches to at most one fix. The result holds one entry per line.
   */
  method AnalyzeLogs(content: string) returns (fixes: seq<Option<FixKind>>)
    ensures |fixes| == |Split(content, "\n")|
    ensures forall i :: 0 <= i < |fixes| ==> fixes[i] == Dispatch(Split(content, "\n")[i])
  {
    fixes := DispatchLines(Split(content, "\n"));
  }

  /** Lower-casing keeps an occurrence where it was. */
  lemma LowerKeepsOccurrence(s: string, sub: string, i: nat)
    requires OccursAt(s, sub, i)
    ensures OccursAt(Lower(s), Lower(sub), i)
  {
    assert Lower(s)[i..i + |sub|] == Lower(sub) by {
      forall k | 0 <= k < |sub| ensures Lower(s)[i..i + |sub|][k] == Lower(sub)[k] {
        assert s[i + k] == sub[k];
      }
    }
  }

  /** A line quoting a pattern verbatim dispatches to some fix. */
  lemma VerbatimPatternDispatches(line: string, j: nat, i: nat)
    requires j < |ErrorPatterns| && OccursAt(line, ErrorPatterns[j].text, i)
    ensures Dispatch(line).Some?
  {
    LowerKeepsOccurrence(line, ErrorPatterns[j].text, i);
    ContainsAt(Lower(line), Lower(ErrorPatterns[j].text), i);
    DispatchFirstMatch(line);
  }

  /** A DNS failure is handled by the network fix, whatever else the line mentions. */
  lemma NameResolutionFirst(line: string, i: nat)
    requires OccursAt(line, ErrorPatterns[0].text, i)
    ensures Dispatch(line) == Some(NetworkResolution)
  {
    LowerKeepsOccurrence(line, ErrorPatterns[0].text, i);
    ContainsAt(Lower(line), Lower(ErrorPatterns[0].text), i);
  }
}

=== FILE: main_handlers.dfy ===
/**
  The main process's handlers (src/main.js): one spoken turn on the
  `audio-data` socket event, the welcome sequence sent to a new connection,
  and the `llm-process`, `tts-synthesize` and `set-animation-type` IPC
  handlers. The services are the models of their own modules; a service
  global that stayed null because start-up failed is `None`. Speech synthesis
  is an oracle (`Speech`), and the `setTimeout` that returns the avatar to
  idle is an effect fired later by `Settle`.
 */
module MainProcess {
  import opened Base
  import opened Text
  import opened Json
  import Stt
  import Llm
  import AvatarServer

  /** The service globals a handler reads. */
  datatype Services = Services(stt: Option<Stt.Service>, llm: Option<Llm.Service>, avatar: Option<AvatarServer.Server>)

  /** What `ttsService.synthesize` gives: the audio value, or a throw. */
  datatype Speech = Audio(audio: Json) | SynthesisThrew

  /** What a handler does, in order. */
  datatype Effect =
    | Animate(animation: string)                                   // novncServer.setAnimation
    | EmitTranscription(user: Option<string>, assistant: string)   // socket.emit('transcription', …)
    | EmitAudio(audio: Json)                                       // socket.emit('audio-response', …)
    | IdleAfter(ms: nat)                                           // setTimeout(() => setAnimation('idle'), ms)

  /** The avatar after a handler, and what the handler did. */
  datatype Turn = Turn(avatar: Option<AvatarServer.Server>, effects: seq<Effect>)

  const IdleDelayMs: nat := 1000
  const WelcomeIdleDelayMs: nat := 3000
  const WelcomeMessage: string := "Witaj w aplikacji VideoChat! Jak mogę Ci dziś pomóc?"
  const LlmApology: string := "Przepraszam, wystąpił błąd przetwarzania."

  /** `if (novncServer) novncServer.setAnimation(name)`. */
  function AnimateIfPresent(avatar: Option<AvatarServer.Server>, name: string): (r: Turn)
    ensures avatar.None? ==> r == Turn(None, [])
    ensures avatar.Some? ==> r.avatar == Some(AvatarServer.SetAnimation(avatar.value, name)) && r.effects == [Animate(name)]
  {
    match avatar
    case Some(s) => Turn(Some(AvatarServer.SetAnimation(s, name)), [Animate(name)])
    case None => Turn(None, [])
  }

  /** The animations a trace sets, in order. */
  function Animations(effects: seq<Effect>): seq<string> {
    if effects == [] then []
    else (if effects[0].Animate? then [effects[0].animation] else []) + Animations(effects[1..])
  }

  lemma {:induction false} AnimationsAppend(a: seq<Effect>, b: seq<Effect>)
    ensures Animations(a + b) == Animations(a) + Animations(b)
    decreases |a|
  {
    if a == [] {
      assert a + b == b;
    } else {
      AnimationsAppend(a[1..], b);
      assert (a + b)[1..] == a[1..] + b;
    }
  }

  /** The text the turn works on: a non-empty string after trimming, or nothing (a throw or a blank result). */
  function SpokenText(sv: Services, payload: Stt.Payload): (r: Option<string>)
    ensures r.Some? ==> sv.stt.Some? && Stt.Transcribe(sv.stt.value, payload) == Ok(Stt.Transcript(JStr(r.value)))
    ensures r.Some? ==> Trim(r.value) != ""
    ensures sv.stt.Some? && Stt.Transcribe(sv.stt.value, payload).Ok?
            && Stt.Transcribe(sv.stt.value, payload).value.Transcript?
            && Stt.Transcribe(sv.stt.value, payload).value.text.JStr?
            && Trim(Stt.Transcribe(sv.stt.value, payload).value.text.s) != ""
            ==> r == Some(Stt.Transcribe(sv.stt.value, payload).value.text.s)
  {
    if sv.stt.None? then None   // `sttService.transcribe` on null throws
    else
      match Stt.Transcribe(sv.stt.value, payload)
      case Err(_) => None
      case Ok(t) =>
        // A capture request is an object and a non-string transcript has no
        // `trim`: `text.trim()` throws for both.
        if t.Transcript? && t.text.JStr? && Trim(t.text.s) != "" then Some(t.text.s) else None
  }

  /** `llmService.process(text)`: the reply, or nothing when the global is null or not initialized (a throw). */
  function Reply(sv: Services, text: string): (r: Option<string>)
    ensures r.Some? <==> sv.llm.Some? && sv.llm.value.initialized
    ensures r.Some? ==> Llm.Process(sv.llm.value, JStr(text)) == Ok(r.value)
  {
    if sv.llm.Some? && sv.llm.value.initialized then Some(Llm.Process(sv.llm.value, JStr(text)).value) else None
  }

  /** The effects of synthesising and sending the audio, then scheduling `idle`. */
  function Voice(speech: Speech, delay: nat): (r: seq<Effect>)
    ensures speech.SynthesisThrew? ==> r == []
    ensures speech.Audio? ==> r == [EmitAudio(speech.audio), IdleAfter(delay)]
    ensures Animations(r) == []
  {
    match speech
    case SynthesisThrew => []
    case Audio(audio) =>
      assert [EmitAudio(audio), IdleAfter(delay)][1..] == [IdleAfter(delay)];
      assert Animations([IdleAfter(delay)]) == [] + Animations([]);
      [EmitAudio(audio), IdleAfter(delay)]
  }

  /** The part of a turn after the reply exists: emit it, set `talking`, then voice it. */
  function Answer(avatar: Option<AvatarServer.Server>, text: string, reply: string, speech: Speech): Turn {
    var talking := AnimateIfPresent(avatar, "talking");
    Turn(talking.avatar, [EmitTranscription(Some(text), reply)] + talking.effects + Voice(speech, IdleDelayMs))
  }

  /**
    A turn once the text is known: set `thinking`, then, when the reply
    generator answered (`reply`), emit, set `talking` and voice the reply.
   */
  function Respond(avatar: Option<AvatarServer.Server>, text: string, reply: Option<string>, speech: Speech): Turn {
    var thinking := AnimateIfPresent(avatar, "thinking");
    match reply
    case None => thinking
    case Some(answer) =>
      var a := Answer(thinking.avatar, text, answer, speech);
      Turn(a.avatar, thinking.effects + a.effects)
  }

  /** The only transcription a turn emits pairs the user's text with the reply to it; audio follows only a voiced reply. */
  lemma RespondEmitsReply(avatar: Option<AvatarServer.Server>, text: string, reply: Option<string>, speech: Speech)
    ensures forall e :: e in Respond(avatar, text, reply, speech).effects && e.EmitTranscription? ==>
              e.user == Some(text) && reply == Some(e.assistant)
    ensures reply.Some? ==> EmitTranscription(Some(text), reply.value) in Respond(avatar, text, reply, speech).effects
    ensures (exists e :: e in Respond(avatar, text, reply, speech).effects && e.EmitAudio?) <==>
              reply.Some? && speech.Audio?
  {
    var thinking := AnimateIfPresent(avatar, "thinking");
    assert forall e :: e in thinking.effects ==> e.Animate?;
    if reply.Some? {
      var talking := AnimateIfPresent(thinking.avatar, "talking");
      assert forall e :: e in talking.effects ==> e.Animate?;
      assert forall e :: e in Voice(speech, IdleDelayMs) ==> !e.EmitTranscription?;
      var a := Answer(thinking.avatar, text, reply.value, speech);
      assert a.effects[0] == EmitTranscription(Some(text), reply.value);
      if speech.Audio? {
        assert EmitAudio(speech.audio) in Respond(avatar, text, reply, speech).effects;
      }
    }
  }

  /**
    `socket.on('audio-data', …)`: transcribe; for a non-blank string set
    `thinking`, ask the reply generator, emit `{user, assistant}`, set
    `talking`, synthesise the reply, emit the audio and schedule `idle` after
    1000 ms. Any throw ends the handler where it happens and is only logged.
    The `transcription` event carries the transcribed text and the reply to
    exactly that text, and is sent exactly when both exist; the avatar ends
    in the state the traced animations made it.
   */
  function AudioData(sv: Services, payload: Stt.Payload, speech: Speech): (r: Turn)
    ensures SpokenText(sv, payload).None? ==> r == Turn(sv.avatar, [])
    ensures forall e :: e in r.effects && e.EmitTranscription? ==>
              SpokenText(sv, payload).Some? && e.user == SpokenText(sv, payload)
              && Reply(sv, SpokenText(sv, payload).value) == Some(e.assistant)
    ensures (exists e :: e in r.effects && e.EmitTranscription?) <==>
              SpokenText(sv, payload).Some? && Reply(sv, SpokenText(sv, payload).value).Some?
    ensures (exists e :: e in r.effects && e.EmitAudio?) <==>
              SpokenText(sv, payload).Some? && Reply(sv, SpokenText(sv, payload).value).Some? && speech.Audio?
    ensures sv.avatar.None? ==> r.avatar.None? && Animations(r.effects) == []
    ensures sv.avatar.Some? ==> r.avatar == Some(AvatarServer.SetAll(sv.avatar.value, Animations(r.effects)))
    ensures sv.avatar.Some? && SpokenText(sv, payload).Some? ==>
              Animations(r.effects)
              == (if Reply(sv, SpokenText(sv, payload).value).Some? then ["thinking", "talking"] else ["thinking"])
  {
    match SpokenText(sv, payload)
    case None => Turn(sv.avatar, [])
    case Some(text) =>
      var reply := Reply(sv, text);
      RespondEmitsReply(sv.avatar, text, reply, speech);
      RespondFollowsTrace(sv.avatar, text, reply, speech);
      Respond(sv.avatar, text, reply, speech)
  }

  /** Without an avatar server nothing is animated; with one, its state is what the traced animations made it. */
  lemma RespondFollowsTrace(avatar: Option<AvatarServer.Server>, text: string, reply: Option<string>, speech: Speech)
    ensures var r := Respond(avatar, text, reply, speech);
            (avatar.None? ==> r.avatar.None? && Animations(r.effects) == [])
            && (avatar.Some? ==> r.avatar == Some(AvatarServer.SetAll(avatar.value, Animations(r.effects))))
            && (avatar.Some? ==> Animations(r.effects) == (if reply.Some? then ["thinking", "talking"] else ["thinking"]))
  {
    var r := Respond(avatar, text, reply, speech);
    var thinking := AnimateIfPresent(avatar, "thinking");
    assert Animations(thinking.effects) == (if avatar.Some? then ["thinking"] else []);
    if reply.Some? {
      var talking := AnimateIfPresent(thinking.avatar, "talking");
      var e := [EmitTranscription(Some(text), reply.value)];
      var v := Voice(speech, IdleDelayMs);
      assert Animations(e) == [];
      assert Animations(talking.effects) == (if avatar.Some? then ["talking"] else []);
      AnimationsAppend(e, talking.effects);
      AnimationsAppend(e + talking.effects, v);
      AnimationsAppend(thinking.effects, e + talking.effects + v);
      assert r.effects == thinking.effects + (e + talking.effects + v);
      if avatar.Some? {
        assert Animations(r.effects) == ["thinking", "talking"];
        AvatarServer.LastWriteWins(avatar.value, ["thinking", "talking"]);
      }
    } else if avatar.Some? {
      AvatarServer.LastWriteWins(avatar.value, ["thinking"]);
    }
  }

  /** The scheduled timers fire: an `IdleAfter` sets `idle` when the avatar server exists. */
  function Settle(t: Turn): (r: Option<AvatarServer.Server>)
    ensures t.avatar.None? ==> r.None?
    ensures t.avatar.Some? && (exists e :: e in t.effects && e.IdleAfter?) ==>
              r.Some? && r.value.currentAnimation == "idle"
    ensures (forall e :: e in t.effects ==> !e.IdleAfter?) ==> r == t.avatar
  {
    if t.avatar.Some? && exists e :: e in t.effects && e.IdleAfter? then Some(AvatarServer.SetAnimation(t.avatar.value, "idle"))
    else t.avatar
  }

  /** An undecodable payload, a capture request, or a blank or non-string transcript does nothing at all. */
  lemma BlankTurnDoesNothing(sv: Services, payload: Stt.Payload, speech: Speech)
    requires sv.stt.Some? && sv.stt.value.initialized
    requires Stt.Transcribe(sv.stt.value, payload).Err?
             || Stt.Transcribe(sv.stt.value, payload).value.CaptureRequest?
             || !Stt.Transcribe(sv.stt.value, payload).value.text.JStr?
             || IsBlank(Stt.Transcribe(sv.stt.value, payload).value.text.s)
    ensures AudioData(sv, payload, speech) == Turn(sv.avatar, [])
  {
    var r := Stt.Transcribe(sv.stt.value, payload);
    if r.Ok? && r.value.Transcript? && r.value.text.JStr? {
      TrimEmptyIffBlank(r.value.text.s);
    }
  }

  /**
    A full turn emits the transcription before the audio, leaves the avatar
    `talking`, and its timer returns it to `idle`.
   */
  lemma FullTurnEndsIdle(s: AvatarServer.Server, text: string, reply: string, audio: Json)
    ensures var r := Respond(Some(s), text, Some(reply), Audio(audio));
            r.effects == [Animate("thinking"), EmitTranscription(Some(text), reply), Animate("talking"),
                          EmitAudio(audio), IdleAfter(IdleDelayMs)]
            && r.avatar.value.currentAnimation == "talking"
            && Settle(r).value.currentAnimation == "idle"
  {
    var r := Respond(Some(s), text, Some(reply), Audio(audio));
    RespondFollowsTrace(Some(s), text, Some(reply), Audio(audio));
    assert r.effects[4].IdleAfter?;
  }

  /** When synthesis throws, the transcription has gone out, no audio follows, and the avatar stays `talking` for good. */
  lemma SynthesisFailureLeavesTalking(s: AvatarServer.Server, text: string, reply: string)
    ensures var r := Respond(Some(s), text, Some(reply), SynthesisThrew);
            r.effects == [Animate("thinking"), EmitTranscription(Some(text), reply), Animate("talking")]
            && r.avatar.value.currentAnimation == "talking"
            && Settle(r) == r.avatar
  {
    var r := Respond(Some(s), text, Some(reply), SynthesisThrew);
    RespondFollowsTrace(Some(s), text, Some(reply), SynthesisThrew);
    assert r.effects == [Animate("thinking"), EmitTranscription(Some(text), reply), Animate("talking")];
  }

  /** A reply-generator throw leaves the avatar `thinking` and emits nothing. */
  lemma ReplyFailureLeavesThinking(sv: Services, payload: Stt.Payload, speech: Speech)
    requires sv.avatar.Some? && (sv.llm.None? || !sv.llm.value.initialized)
    requires SpokenText(sv, payload).Some?
    ensures AudioData(sv, payload, speech).effects == [Animate("thinking")]
    ensures AudioData(sv, payload, speech).avatar.value.currentAnimation == "thinking"
  {
  }

  /**
    The welcome sequence a connection gets one second after connecting:
    `talking`, the assistant-only transcription, the synthesised greeting and
    `idle` after 3000 ms. Nothing catches a synthesis throw, so it ends the
    sequence before the audio.
   */
  function Welcome(avatar: Option<AvatarServer.Server>, speech: Speech): (r: Turn)
    ensures avatar.None? ==> r.avatar.None? && Animations(r.effects) == []
    ensures avatar.Some? ==>
              r.avatar == Some(AvatarServer.SetAnimation(avatar.value, "talking")) && Animations(r.effects) == ["talking"]
    ensures forall e :: e in r.effects && e.EmitTranscription? ==> e == EmitTranscription(None, WelcomeMessage)
    ensures EmitTranscription(None, WelcomeMessage) in r.effects
    ensures (exists e :: e in r.effects && e.EmitAudio?) <==> speech.Audio?
  {
    var talking := AnimateIfPresent(avatar, "talking");
    GreetingTrace(avatar, speech);
    Turn(talking.avatar, talking.effects + [EmitTranscription(None, WelcomeMessage)] + Voice(speech, WelcomeIdleDelayMs))
  }

  /** The welcome effects, one case at a time. */
  lemma GreetingTrace(avatar: Option<AvatarServer.Server>, speech: Speech)
    ensures var fx := AnimateIfPresent(avatar, "talking").effects + [EmitTranscription(None, WelcomeMessage)]
                      + Voice(speech, WelcomeIdleDelayMs);
            && Animations(fx) == (if avatar.Some? then ["talking"] else [])
            && (forall e :: e in fx && e.EmitTranscription? ==> e == EmitTranscription(None, WelcomeMessage))
            && EmitTranscription(None, WelcomeMessage) in fx
            && ((exists e :: e in fx && e.EmitAudio?) <==> speech.Audio?)
  {
    var fx := AnimateIfPresent(avatar, "talking").effects + [EmitTranscription(None, WelcomeMessage)]
              + Voice(speech, WelcomeIdleDelayMs);
    var head := if avatar.Some? then [Animate("talking")] else [];
    var tail := if speech.Audio? then [EmitAudio(speech.audio), IdleAfter(WelcomeIdleDelayMs)] else [];
    assert fx == head + [EmitTranscription(None, WelcomeMessage)] + tail;
    AnimationsAppend(head, [EmitTranscription(None, WelcomeMessage)]);
    AnimationsAppend(head + [EmitTranscription(None, WelcomeMessage)], tail);
    assert Animations([EmitTranscription(None, WelcomeMessage)]) == [];
    if speech.Audio? {
      assert fx[|fx| - 2] == EmitAudio(speech.audio);
    }
  }

  /** The greeting leaves the avatar `talking` until its timer (when synthesis worked) sets `idle`. */
  lemma WelcomeEndsIdle(s: AvatarServer.Server, speech: Speech)
    ensures Welcome(Some(s), speech).avatar.value.currentAnimation == "talking"
    ensures speech.Audio? ==> Settle(Welcome(Some(s), speech)).value.currentAnimation == "idle"
    ensures speech.SynthesisThrew? ==> Settle(Welcome(Some(s), speech)).value.currentAnimation == "talking"
  {
    var r := Welcome(Some(s), speech);
    if speech.Audio? {
      assert r.effects[|r.effects| - 1].IdleAfter?;
    } else {
      assert r.effects == [Animate("talking"), EmitTranscription(None, WelcomeMessage)];
    }
  }

  // ---------------------------------------------------------------------------
  // IPC handlers
  // ---------------------------------------------------------------------------

  /** `llm-process`: the reply, or a fixed apology when the generator is missing or throws. */
  function LlmProcess(llm: Option<Llm.Service>, text: Json): (r: string)
    ensures llm.None? || !llm.value.initialized ==> r == LlmApology
    ensures llm.Some? && llm.value.initialized ==> r == Llm.Process(llm.value, text).value
  {
    if llm.None? then LlmApology
    else match Llm.Process(llm.value, text)
      case Ok(reply) => reply
      case Err(_) => LlmApology
  }

  /** The apology is never a reply the generator gives. */
  lemma ApologyIsNotAReply(svc: Llm.Service, text: Json)
    requires svc.initialized
    ensures LlmProcess(Some(svc), text) != LlmApology
  {
    assert LlmApology[0] == 'P';
    if text.JStr? {
      Llm.ReplyInitial(text.s);
    } else {
      assert |Llm.FallbackReply| != |LlmApology|;
    }
  }

  /** `tts-synthesize`: the audio, or null when synthesis throws. */
  function TtsSynthesize(speech: Speech): (r: Json)
    ensures speech.Audio? ==> r == speech.audio
    ensures speech.SynthesisThrew? ==> r == JNull
  {
    match speech
    case Audio(audio) => audio
    case SynthesisThrew => JNull
  }

  /** `set-animation-type`: stores the name and reports true when the avatar server exists, else false. */
  function SetAnimationType(avatar: Option<AvatarServer.Server>, animationType: string): (r: (Option<AvatarServer.Server>, bool))
    ensures r.1 <==> avatar.Some?
    ensures r.1 ==> r.0.Some? && r.0.value.currentAnimation == animationType
    ensures !r.1 ==> r.0.None?
  {
    match avatar
    case Some(s) => (Some(AvatarServer.SetAnimation(s, animationType)), true)
    case None => (None, false)
  }
}

=== FILE: network_utils.dfy ===
/**
  Port probing for the avatar server (src/services/novnc/networkUtils.js; the
  same search is repeated as a method of src/services/novncServer.js). Binding
  a test server is an oracle: `probe(p)` says whether port `p` was free, in use
  (`EADDRINUSE`) or failed with another error code.
 */
module NetworkUtils {
  import opened Base

  datatype Probe = Free | InUse | Failed(code: string)

  datatype PortError =
    | Exhausted(maxAttempts: int)     // "Nie można znaleźć dostępnego portu po N próbach"
    | ProbeFailed(code: string)       // the probe's own error, passed on

  const DefaultMaxAttempts: int := 10

  /** The number of retries allowed after the first probe. */
  function Retries(maxAttempts: int): nat {
    if maxAttempts < 0 then 0 else maxAttempts
  }

  /**
    `tryPort(port)` after `attempts` retries: a free port resolves, a port in
    use moves on while `attempts < maxAttempts`, any other error rejects.
   */
  function TryPort(port: int, attempts: nat, maxAttempts: int, probe: int -> Probe): (r: Result<int, PortError>)
    requires attempts <= Retries(maxAttempts)
    ensures r.Ok? ==> port <= r.value <= port + (Retries(maxAttempts) - attempts) && probe(r.value) == Free
    ensures r.Ok? ==> forall p :: port <= p < r.value ==> probe(p) == InUse
    ensures r == Err(Exhausted(maxAttempts)) <==>
              forall p :: port <= p <= port + (Retries(maxAttempts) - attempts) ==> probe(p) == InUse
    ensures r.Err? && r.error.ProbeFailed? ==>
              exists p :: port <= p <= port + (Retries(maxAttempts) - attempts) && probe(p) == Failed(r.error.code)
                && forall q :: port <= q < p ==> probe(q) == InUse
    decreases Retries(maxAttempts) - attempts
  {
    match probe(port)
    case Free => Ok(port)
    case Failed(code) => Err(ProbeFailed(code))
    case InUse =>
      if attempts < maxAttempts then TryPort(port + 1, attempts + 1, maxAttempts, probe)
      else Err(Exhausted(maxAttempts))
  }

  /** `findAvailablePort(startPort, maxAttempts)`. */
  function FindAvailablePort(start: int, maxAttempts: int, probe: int -> Probe): (r: Result<int, PortError>)
    ensures r.Ok? ==> start <= r.value <= start + Retries(maxAttempts) && probe(r.value) == Free
    ensures r.Ok? ==> forall p :: start <= p < r.value ==> probe(p) == InUse
    ensures r == Err(Exhausted(maxAttempts)) <==>
              forall p :: start <= p <= start + Retries(maxAttempts) ==> probe(p) == InUse
    ensures probe(start) == Free ==> r == Ok(start)
    ensures probe(start).Failed? ==> r == Err(ProbeFailed(probe(start).code))
    ensures r.Err? && r.error.ProbeFailed? ==>
              exists p :: start <= p <= start + Retries(maxAttempts) && probe(p) == Failed(r.error.code)
                && forall q :: start <= q < p ==> probe(q) == InUse
  {
    TryPort(start, 0, maxAttempts, probe)
  }

  /** The ports `tryPort` binds, in order, starting after `attempts` retries. */
  function ProbedFrom(port: int, attempts: nat, maxAttempts: int, probe: int -> Probe): seq<int>
    requires attempts <= Retries(maxAttempts)
    decreases Retries(maxAttempts) - attempts
  {
    if probe(port) == InUse && attempts < maxAttempts then [port] + ProbedFrom(port + 1, attempts + 1, maxAttempts, probe)
    else [port]
  }

  /**
    The search binds consecutive ports starting at `port`, at most one more
    than the retries left, and stops at the first one that is not in use or
    when the retries run out.
   */
  lemma {:induction false} ProbedPortsConsecutive(port: int, attempts: nat, maxAttempts: int, probe: int -> Probe)
    requires attempts <= Retries(maxAttempts)
    ensures var ps := ProbedFrom(port, attempts, maxAttempts, probe);
            1 <= |ps| <= Retries(maxAttempts) - attempts + 1
            && (forall i :: 0 <= i < |ps| ==> ps[i] == port + i)
            && (forall i :: 0 <= i < |ps| - 1 ==> probe(ps[i]) == InUse)
    decreases Retries(maxAttempts) - attempts
  {
    if probe(port) == InUse && attempts < maxAttempts {
      ProbedPortsConsecutive(port + 1, attempts + 1, maxAttempts, probe);
    }
  }

  /** The port found is the last one probed. */
  lemma {:induction false} FoundIsLastProbed(port: int, attempts: nat, maxAttempts: int, probe: int -> Probe)
    requires attempts <= Retries(maxAttempts)
    requires TryPort(port, attempts, maxAttempts, probe).Ok?
    ensures var ps := ProbedFrom(port, attempts, maxAttempts, probe);
            ps[|ps| - 1] == TryPort(port, attempts, maxAttempts, probe).value
    decreases Retries(maxAttempts) - attempts
  {
    if probe(port) == InUse && attempts < maxAttempts {
      FoundIsLastProbed(port + 1, attempts + 1, maxAttempts, probe);
    }
  }

  /** With the default of ten retries, at most eleven ports are bound. */
  lemma DefaultProbeBound(start: int, probe: int -> Probe)
    ensures |ProbedFrom(start, 0, DefaultMaxAttempts, probe)| <= 11
  {
    ProbedPortsConsecutive(start, 0, DefaultMaxAttempts, probe);
  }

  /** What `server.listen` reports: the bound port, or a server error. */
  datatype Listen = Bound(actualPort: nat) | ServerError(message: string)

  /** `startServer(server, port)`: resolves with the port actually bound, rejects on an error. */
  function StartServer(port: int, outcome: Listen): (r: Result<nat, string>)
    ensures r.Ok? <==> outcome.Bound?
    ensures r.Ok? ==> r.value == outcome.actualPort
    ensures r.Err? ==> r.error == outcome.message
  {
    match outcome
    case Bound(actual) => Ok(actual)
    case ServerError(message) => Err(message)
  }
}

=== FILE: novnc_server.dfy ===
/**
  The avatar server (src/services/novncServer.js): a global animation name,
  frames chosen from the animation file of that name or a built-in face, one
  send loop per viewer socket, the client set, and the static file responses
  (path and content type). Sockets are identified by numbers; file reads, the
  port search and `listen` are oracles.
 */
module AvatarServer {
  import opened Base
  import opened Text
  import opened Json
  import NetworkUtils
  import AsciiAnimations
  import PosixPath

  type FileRead = AsciiAnimations.FileRead

  datatype Server = Server(
    port: int,
    clients: set<nat>,
    currentAnimation: string,
    running: bool)

  const DefaultPort: int := 6080
  const FrameIntervalMs: nat := 250
  const MaxPortAttempts: int := 10

  /** `new NoVNCServer(options)`: `options.port || 6080`, no clients, idle, not running. */
  function New(port: Option<int>): (s: Server)
    ensures s.port == (if port.Some? && port.value != 0 then port.value else DefaultPort)
    ensures s.clients == {} && s.currentAnimation == "idle" && !s.running
  {
    Server(if port.Some? && port.value != 0 then port.value else DefaultPort, {}, "idle", false)
  }

  // ---------------------------------------------------------------------------
  // initialize
  // ---------------------------------------------------------------------------

  /** What `initialize` resolves to: `true`, `false` (a caught error), or a rejection from `listen`. */
  datatype InitOutcome = Started(server: Server) | ReturnedFalse | Rejected(message: string)

  /**
    `initialize()`: creating the vendor directory may throw (caught: false);
    a failed port search falls back to port 0 (any port); the listen outcome
    then decides, and a listen error rejects the returned promise.
   */
  function Initialize(s: Server, directoryOk: bool, probe: int -> NetworkUtils.Probe,
                      listen: NetworkUtils.Listen): (r: InitOutcome)
    ensures !directoryOk ==> r == ReturnedFalse
    ensures directoryOk && listen.Bound? ==>
              r == Started(s.(port := listen.actualPort, running := true))
    ensures directoryOk && listen.ServerError? ==> r == Rejected(listen.message)
  {
    if !directoryOk then ReturnedFalse
    else
      var port := ListenPort(s.port, probe);
      match NetworkUtils.StartServer(port, listen)
      case Ok(actual) => Started(s.(port := actual, running := true))
      case Err(message) => Rejected(message)
  }

  /**
    The port handed to `listen`: the first free one from the configured port,
    or 0 (any port) when the search throws, because every port it tries is in
    use or because a probe fails with another error.
   */
  function ListenPort(configured: int, probe: int -> NetworkUtils.Probe): (p: int)
    ensures p != 0 ==> configured <= p <= configured + MaxPortAttempts && probe(p) == NetworkUtils.Free
                       && forall q :: configured <= q < p ==> probe(q) == NetworkUtils.InUse
    ensures configured > 0 ==> (p == 0 <==> NetworkUtils.FindAvailablePort(configured, MaxPortAttempts, probe).Err?)
    ensures (forall q :: configured <= q <= configured + MaxPortAttempts ==> probe(q) == NetworkUtils.InUse) ==> p == 0
    ensures probe(configured).Failed? ==> p == 0
    ensures p != 0 <== probe(configured) == NetworkUtils.Free && configured != 0
  {
    match NetworkUtils.FindAvailablePort(configured, MaxPortAttempts, probe)
    case Ok(p) => p
    case Err(_) => 0
  }

  /**
    The port is determined by the probes alone: when port `f` is free and every
    port from the configured one up to it is in use, within the ten retries,
    the server listens on `f`.
   */
  lemma ListenPortFirstFree(configured: int, probe: int -> NetworkUtils.Probe, f: int)
    requires configured <= f <= configured + MaxPortAttempts && probe(f) == NetworkUtils.Free
    requires forall q :: configured <= q < f ==> probe(q) == NetworkUtils.InUse
    ensures ListenPort(configured, probe) == f
  {
    var r := NetworkUtils.FindAvailablePort(configured, MaxPortAttempts, probe);
    if r.Ok? {
      assert !(r.value < f) && !(f < r.value);
    }
  }

  // ---------------------------------------------------------------------------
  // The animation name
  // ---------------------------------------------------------------------------

  /** `setAnimation(type)`: any string is stored; an equal one changes nothing. */
  function SetAnimation(s: Server, animationType: string): (r: Server)
    ensures r.currentAnimation == animationType
    ensures r == s.(currentAnimation := animationType)
    ensures animationType == s.currentAnimation ==> r == s
  {
    if s.currentAnimation != animationType then s.(currentAnimation := animationType) else s
  }

  /** A series of `setAnimation` calls. */
  function SetAll(s: Server, types: seq<string>): Server
    decreases |types|
  {
    if types == [] then s else SetAll(SetAnimation(s, types[0]), types[1..])
  }

  /** The last write wins, and nothing but the animation name changes. */
  lemma {:induction false} LastWriteWins(s: Server, types: seq<string>)
    requires types != []
    ensures SetAll(s, types) == s.(currentAnimation := types[|types| - 1])
    decreases |types|
  {
    if |types| > 1 {
      LastWriteWins(SetAnimation(s, types[0]), types[1..]);
    }
  }

  // ---------------------------------------------------------------------------
  // Frames
  // ---------------------------------------------------------------------------

  // This file's template literals double their backslashes, so the faces keep them.
  const EyesTop: string := "    /\\    /\\    "
  const EyesMid: string := "   /  \\  /  \\   "
  const EyesLow: string := "   \\__/  \\__/   "

  /**
    `generateDefaultFrame()`: a known animation is drawn with its own mouth,
    and any other name with the idle mouth.
   */
  function DefaultFrame(animation: string): (r: string)
    ensures animation in AsciiAnimations.AnimationTypes ==>
              r == AsciiAnimations.Face(EyesTop, EyesMid, EyesLow, AsciiAnimations.MouthOf(animation).value)
    ensures animation !in AsciiAnimations.AnimationTypes ==>
              r == AsciiAnimations.Face(EyesTop, EyesMid, EyesLow, AsciiAnimations.IdleMouth)
  {
    AsciiAnimations.MouthOfKnown(animation);
    match AsciiAnimations.MouthOf(animation)
    case Some(mouth) => AsciiAnimations.Face(EyesTop, EyesMid, EyesLow, mouth)
    case None => AsciiAnimations.Face(EyesTop, EyesMid, EyesLow, AsciiAnimations.IdleMouth)
  }

  /** The default frames of two names agree exactly when the names draw the same state. */
  lemma DefaultFramesDistinct(a: string, b: string)
    ensures DefaultFrame(a) == DefaultFrame(b) <==>
              AsciiAnimations.MouthOf(a).GetOr(AsciiAnimations.IdleMouth)
              == AsciiAnimations.MouthOf(b).GetOr(AsciiAnimations.IdleMouth)
  {
    AsciiAnimations.MouthOfKnown(a);
    AsciiAnimations.MouthOfKnown(b);
    AsciiAnimations.MouthDetermines(EyesTop, EyesMid, EyesLow,
      AsciiAnimations.MouthOf(a).GetOr(AsciiAnimations.IdleMouth),
      AsciiAnimations.MouthOf(b).GetOr(AsciiAnimations.IdleMouth));
  }

  /** An unknown name is drawn as idle. */
  lemma UnknownAnimationDrawnIdle(animation: string)
    requires animation !in AsciiAnimations.AnimationTypes
    ensures DefaultFrame(animation) == DefaultFrame("idle")
  {
    AsciiAnimations.MouthOfKnown(animation);
  }

  /**
    `generateAsciiFrame()`: a random frame among the file's non-blank pieces;
    the default frame when the file is missing, unreadable or has no pieces.
   */
  function GenerateFrame(animation: string, file: FileRead, pick: nat): (r: string)
    ensures file.Content? && AsciiAnimations.SplitFrames(file.text) != [] ==>
              r in AsciiAnimations.SplitFrames(file.text)
    ensures !(file.Content? && AsciiAnimations.SplitFrames(file.text) != []) ==> r == DefaultFrame(animation)
  {
    match file
    case Content(text) =>
      var frames := AsciiAnimations.SplitFrames(text);
      if frames == [] then DefaultFrame(animation)
      else frames[AsciiAnimations.RandomIndex(|frames|, pick)]
    case _ => DefaultFrame(animation)
  }

  /** Every candidate of the file can be chosen. */
  lemma EveryCandidateChosen(animation: string, text: string, k: nat)
    requires k < |AsciiAnimations.SplitFrames(text)|
    ensures GenerateFrame(animation, AsciiAnimations.Content(text), k) == AsciiAnimations.SplitFrames(text)[k]
  {
    var frames := AsciiAnimations.SplitFrames(text);
    assert AsciiAnimations.RandomIndex(|frames|, k) == k;
  }

  /** The message sent for one frame: `{type: 'ascii-frame', frame}`. */
  function FrameMessage(frame: string): (m: Json)
    ensures Property(m, "type") == Some(JStr("ascii-frame"))
    ensures Property(m, "frame") == Some(JStr(frame))
    ensures m.JObj? && m.fields.Keys == {"type", "frame"}
  {
    JObj(map["type" := JStr("ascii-frame"), "frame" := JStr(frame)])
  }

  // ---------------------------------------------------------------------------
  // The send loop of one viewer
  // ---------------------------------------------------------------------------

  /**
    What one run of `sendFrames` sees: whether the socket is OPEN, the
    animation name at that moment, the file read and the random draw.
   */
  datatype Tick = Tick(open: bool, animation: string, file: FileRead, pick: nat)

  /**
    The messages of a viewer's loop over successive runs: each run with an OPEN
    socket sends one frame and schedules the next run 250 ms later; the first
    run that finds the socket not OPEN sends nothing and schedules nothing.
   */
  function SendLoop(ticks: seq<Tick>): (sent: seq<Json>)
    ensures |sent| <= |ticks|
    ensures forall i :: 0 <= i < |sent| ==> ticks[i].open
    ensures |sent| < |ticks| ==> !ticks[|sent|].open
    ensures forall i :: 0 <= i < |sent| ==> sent[i] == TickMessage(ticks[i])
    decreases |ticks|
  {
    if ticks == [] || !ticks[0].open then []
    else [TickMessage(ticks[0])] + SendLoop(ticks[1..])
  }

  /** The frame message of one run with an OPEN socket. */
  function TickMessage(t: Tick): Json {
    FrameMessage(GenerateFrame(t.animation, t.file, t.pick))
  }

  /** Once a run finds the socket closed, later runs never happen: nothing after it is sent. */
  lemma {:induction false} LoopStopsForGood(ticks: seq<Tick>, j: nat)
    requires j < |ticks| && !ticks[j].open
    ensures SendLoop(ticks) == SendLoop(ticks[..j])
    decreases j
  {
    if j > 0 && ticks[0].open {
      assert ticks[..j][1..] == ticks[1..][..j - 1];
      LoopStopsForGood(ticks[1..], j - 1);
    }
  }

  // ---------------------------------------------------------------------------
  // Clients
  // ---------------------------------------------------------------------------

  /** A WebSocket connection: the socket joins the clients and its loop starts. */
  function Connect(s: Server, socket: nat): (r: Server)
    ensures r.clients == s.clients + {socket}
    ensures r.currentAnimation == s.currentAnimation && r.running == s.running && r.port == s.port
  {
    s.(clients := s.clients + {socket})
  }

  /** A socket's `close` event removes only that socket. */
  function Disconnect(s: Server, socket: nat): (r: Server)
    ensures r.clients == s.clients - {socket}
    ensures forall c :: c in s.clients && c != socket ==> c in r.clients
    ensures r.currentAnimation == s.currentAnimation && r.running == s.running && r.port == s.port
  {
    s.(clients := s.clients - {socket})
  }

  /**
    `stop()`: while running, every client is told to close, the HTTP server
    closes and the flag clears; the sockets leave the set through their own
    close events. Always resolves to true.
   */
  function Stop(s: Server): (r: (Server, set<nat>, bool))
    ensures !r.0.running && r.2
    ensures r.1 == (if s.running then s.clients else {})
    ensures r.0.clients == s.clients && r.0.currentAnimation == s.currentAnimation
  {
    if s.running then (s.(running := false), s.clients, true) else (s, {}, true)
  }

  /** Stopping twice closes nothing the second time. */
  lemma StopIdempotent(s: Server)
    ensures Stop(Stop(s).0).1 == {} && Stop(Stop(s).0).0 == Stop(s).0
  {
  }

  // ---------------------------------------------------------------------------
  // Static files
  // ---------------------------------------------------------------------------

  /**
    The file a request reads: `path.join(novncPath, 'vnc.html')` for the root
    URL, otherwise `path.join(novncPath, url)`. The root page and a URL naming
    one file read that file directly inside the directory.
   */
  function FilePath(novncPath: string, url: string): (p: string)
    ensures url == "/" ==> p == PosixPath.DirPrefix(novncPath) + "vnc.html"
    ensures novncPath != [] && |url| > 1 && url[0] == '/' && PosixPath.PlainName(url[1..]) ==>
              p == PosixPath.DirPrefix(novncPath) + url[1..]
  {
    if url == "/" then
      PosixPath.JoinPlainName(novncPath, "vnc.html");
      PosixPath.Join(novncPath, "vnc.html")
    else
      PosixPath.JoinRootedName(novncPath, url);
      PosixPath.Join(novncPath, url)
  }

  /** The content type by extension; anything else is served as HTML. */
  function ContentType(ext: string): (t: string)
    ensures ext == ".js" <==> t == "text/javascript"
    ensures ext == ".css" <==> t == "text/css"
    ensures ext == ".json" <==> t == "application/json"
    ensures ext == ".png" <==> t == "image/png"
    ensures ext == ".jpg" <==> t == "image/jpeg"
    ensures ext !in {".js", ".css", ".json", ".png", ".jpg"} <==> t == "text/html"
  {
    if ext == ".js" then "text/javascript"
    else if ext == ".css" then "text/css"
    else if ext == ".json" then "application/json"
    else if ext == ".png" then "image/png"
    else if ext == ".jpg" then "image/jpeg"
    else "text/html"
  }

  /** What reading the requested file gives: its data, or the error as JSON. */
  datatype Read = Data(bytes: seq<int>) | ReadError(error: Json)

  datatype Response = Response(status: nat, contentType: Option<string>, body: Json)

  /** The HTTP handler: 404 with the serialised error, or 200 with the type of the file's extension. */
  function Serve(novncPath: string, url: string, read: Read): (r: Response)
    ensures read.ReadError? <==> r.status == 404
    ensures read.ReadError? ==> r.contentType.None? && r.body == read.error
    ensures read.Data? ==>
              r.status == 200 && r.contentType == Some(ContentType(PosixPath.ExtName(FilePath(novncPath, url))))
  {
    match read
    case ReadError(e) => Response(404, None, e)
    case Data(bytes) =>
      Response(200, Some(ContentType(PosixPath.ExtName(FilePath(novncPath, url)))),
               JArr(seq(|bytes|, i requires 0 <= i < |bytes| => JNum(bytes[i]))))
  }

  /** The root page is served as HTML, wherever the noVNC directory is. */
  lemma RootIsHtml(novncPath: string, data: seq<int>)
    ensures Serve(novncPath, "/", Data(data)).contentType == Some("text/html")
  {
    RootFileType(novncPath);
  }

  lemma RootFileType(novncPath: string)
    ensures PosixPath.ExtName(FilePath(novncPath, "/")) == ".html"
  {
    PosixPath.DirPrefixEnds(novncPath);
    PageType(PosixPath.DirPrefix(novncPath));
  }

  /** `vnc.html` after any directory prefix has the extension `.html`. */
  lemma PageType(prefix: string)
    requires prefix == [] || prefix[|prefix| - 1] == '/'
    ensures PosixPath.ExtName(prefix + "vnc.html") == ".html"
  {
    assert "vnc" + "." + "html" == "vnc.html";
    assert "." + "html" == ".html";
    PosixPath.ExtNameOfFile(prefix, "vnc.html", "vnc", "html");
  }

  /**
    A file `/stem.ext` directly inside the (never empty) noVNC directory is
    served with the type of `.ext`.
   */
  lemma FileServedByExtension(novncPath: string, stem: string, ext: string, data: seq<int>)
    requires novncPath != []
    requires '/' !in stem && '/' !in ext && '.' !in ext && stem != "" && !(stem == "." && ext == "")
    ensures Serve(novncPath, "/" + stem + "." + ext, Data(data)).contentType == Some(ContentType("." + ext))
  {
    FileType(novncPath, stem, ext);
  }

  lemma FileType(novncPath: string, stem: string, ext: string)
    requires novncPath != []
    requires '/' !in stem && '/' !in ext && '.' !in ext && stem != "" && !(stem == "." && ext == "")
    ensures PosixPath.ExtName(FilePath(novncPath, "/" + stem + "." + ext)) == "." + ext
  {
    var url := "/" + stem + "." + ext;
    var name := stem + "." + ext;
    assert url[1..] == name && url[0] == '/';
    assert '/' !in name;
    assert name[..|stem|] == stem;
    assert FilePath(novncPath, url) == PosixPath.DirPrefix(novncPath) + name;
    PosixPath.DirPrefixEnds(novncPath);
    PosixPath.ExtNameOfFile(PosixPath.DirPrefix(novncPath), name, stem, ext);
  }

  /**
    The path is normalised before its extension is read: `/a.js/.` names the
    file `a.js`, so it is served as JavaScript.
   */
  lemma TrailingDotKeepsType(novncPath: string, data: seq<int>)
    requires novncPath != []
    ensures Serve(novncPath, "/a.js/.", Data(data)).contentType == Some("text/javascript")
  {
    TrailingDotType(novncPath);
  }

  lemma TrailingDotType(novncPath: string)
    requires novncPath != []
    ensures PosixPath.ExtName(FilePath(novncPath, "/a.js/.")) == ".js"
  {
    JoinTrailingDot(novncPath);
    PosixPath.DirPrefixEnds(novncPath);
    ScriptType(PosixPath.DirPrefix(novncPath));
  }

  /** `a.js` after any directory prefix has the extension `.js`. */
  lemma ScriptType(prefix: string)
    requires prefix == [] || prefix[|prefix| - 1] == '/'
    ensures PosixPath.ExtName(prefix + "a.js") == ".js"
  {
    assert "a" + "." + "js" == "a.js";
    assert "." + "js" == ".js";
    PosixPath.ExtNameOfFile(prefix, "a.js", "a", "js");
  }

  /** The file `/a.js/.` names in the vendor directory. */
  lemma JoinTrailingDot(novncPath: string)
    requires novncPath != []
    ensures FilePath(novncPath, "/a.js/.") == PosixPath.DirPrefix(novncPath) + "a.js"
  {
    PosixPath.TrailingDotResolves(novncPath);
    PosixPath.JoinResolvesTo(novncPath, "/a.js/.", "a.js");
  }
}

=== FILE: path.dfy ===
/**
  Node's `path` module on POSIX, as far as the services use it:
  `path.join` of two arguments (joined with a slash and then normalised:
  empty and `.` segments dropped, `..` taking back the name before it),
  `path.basename` and `path.extname`.
 */
module PosixPath {
  import opened Base
  import Text

  // ---------------------------------------------------------------------------
  // Segments
  // ---------------------------------------------------------------------------

  /** The pieces of `p` between slashes, `p.split('/')`. */
  function Segments(p: string): seq<string> {
    Text.Split(p, "/")
  }

  /** A one-character occurrence of `/` is just a slash at that index. */
  lemma SlashAt(s: string, i: nat)
    ensures Text.OccursAt(s, "/", i) <==> i < |s| && s[i] == '/'
  {
    if i < |s| {
      assert |s[i..i + 1]| == 1 && s[i..i + 1][0] == s[i];
    }
  }

  /** Where the first slash of a string is. */
  lemma FirstSlash(s: string)
    ensures '/' !in s ==> Text.IndexOf(s, "/", 0).None?
    ensures '/' in s ==> Text.IndexOf(s, "/", 0).Some? && '/' !in s[..Text.IndexOf(s, "/", 0).value]
  {
    var r := Text.IndexOf(s, "/", 0);
    if r.Some? {
      SlashAt(s, r.value);
      forall j | 0 <= j < r.value ensures s[j] != '/' {
        SlashAt(s, j);
      }
    } else if '/' in s {
      var j :| 0 <= j < |s| && s[j] == '/';
      SlashAt(s, j);
      assert false;
    }
  }

  /** A name with no slash is one segment. */
  lemma SegmentsOfName(f: string)
    requires '/' !in f
    ensures Segments(f) == [f]
  {
    FirstSlash(f);
  }

  /** A slash with none before it is the first slash. */
  lemma FirstSlashAt(s: string, k: nat)
    requires k < |s| && s[k] == '/' && '/' !in s[..k]
    ensures Text.IndexOf(s, "/", 0) == Some(k)
  {
    FirstSlash(s);
    var i := Text.IndexOf(s, "/", 0).value;
    SlashAt(s, i);
  }

  /** The segments of a path whose first slash is at `k`. */
  lemma SegmentsAtSlash(s: string, k: nat)
    requires k < |s| && s[k] == '/' && '/' !in s[..k]
    ensures Segments(s) == [s[..k]] + Segments(s[k + 1..])
  {
    FirstSlashAt(s, k);
  }

  /** Splitting at a slash splits the segments there. */
  lemma {:induction false} SegmentsAppend(a: string, b: string)
    ensures Segments(a + "/" + b) == Segments(a) + Segments(b)
    decreases |a|
  {
    var s := a + "/" + b;
    if '/' in a {
      FirstSlash(a);
      var k := Text.IndexOf(a, "/", 0).value;
      SlashAt(a, k);
      assert s[..k] == a[..k] && s[k] == a[k];
      SegmentsAtSlash(s, k);
      SegmentsAtSlash(a, k);
      var rest := a[k + 1..];
      assert s[k + 1..] == rest + "/" + b;
      SegmentsAppend(rest, b);
    } else {
      assert s[..|a|] == a && s[|a|] == '/';
      SegmentsAtSlash(s, |a|);
      assert s[|a| + 1..] == b;
      SegmentsOfName(a);
    }
  }

  // ---------------------------------------------------------------------------
  // Resolution
  // ---------------------------------------------------------------------------

  /** A name resolution keeps as it is: not empty, not `.` or `..`, no slash. */
  predicate PlainName(f: string) {
    f != "" && f != "." && f != ".." && '/' !in f
  }

  /**
    One segment applied to the names resolved so far (`normalizeString`):
    empty and `.` segments are dropped; `..` removes the last name unless that
    is itself `..`, and with nothing to remove it is kept for a relative path
    and dropped at the root of an absolute one.
   */
  function Step(names: seq<string>, seg: string, aboveRoot: bool): seq<string> {
    if seg == "" || seg == "." then names
    else if seg == ".." then
      if names != [] && names[|names| - 1] != ".." then names[..|names| - 1]
      else if aboveRoot then names + [".."]
      else names
    else names + [seg]
  }

  /** The segments applied in order, starting from `names`; no resolved name is empty. */
  function Resolve(names: seq<string>, segs: seq<string>, aboveRoot: bool): (r: seq<string>)
    ensures (forall x :: x in names ==> x != "") ==> forall x :: x in r ==> x != ""
    decreases |segs|
  {
    if segs == [] then names
    else Step(Resolve(names, segs[..|segs| - 1], aboveRoot), segs[|segs| - 1], aboveRoot)
  }

  /** Resolving two runs of segments is resolving the first and then the second. */
  lemma {:induction false} ResolveAppend(names: seq<string>, s: seq<string>, t: seq<string>, aboveRoot: bool)
    ensures Resolve(names, s + t, aboveRoot) == Resolve(Resolve(names, s, aboveRoot), t, aboveRoot)
    decreases |t|
  {
    if t == [] {
      assert s + t == s;
    } else {
      var u := s + t;
      assert u[..|u| - 1] == s + t[..|t| - 1];
      assert u[|u| - 1] == t[|t| - 1];
      ResolveAppend(names, s, t[..|t| - 1], aboveRoot);
    }
  }

  predicate IsAbsolute(p: string) {
    p != [] && p[0] == '/'
  }

  /**
    `path.normalize(p)`: `.` for the empty path; otherwise the resolved names
    joined by slashes, after a slash for an absolute path, with the trailing
    slash kept. With no names left it is `/`, `./` or `.`. (The names are never
    empty, so no names is exactly an empty joined string.)
   */
  function Normalize(p: string): string {
    if p == [] then "."
    else
      var names := Resolve([], Segments(p), !IsAbsolute(p));
      var trailing := p[|p| - 1] == '/';
      if names == [] then (if IsAbsolute(p) then "/" else if trailing then "./" else ".")
      else (if IsAbsolute(p) then "/" else "") + Text.Join(names, "/") + (if trailing then "/" else "")
  }

  /** `path.join(a, b)`: the non-empty arguments joined by a slash, then normalised. */
  function Join(a: string, b: string): string {
    Normalize(if a == [] then b else if b == [] then a else a + "/" + b)
  }

  /** The names a directory resolves to. */
  function DirNames(dir: string): seq<string> {
    Resolve([], Segments(dir), !IsAbsolute(dir))
  }

  /** A directory as the start of a path inside it: its normal form and a slash, or nothing for `.`. */
  function DirPrefix(dir: string): string {
    (if IsAbsolute(dir) then "/" else "")
    + (if DirNames(dir) == [] then "" else Text.Join(DirNames(dir), "/") + "/")
  }

  /** Joining one more part onto a non-empty list adds a separator and the part. */
  lemma {:induction false} JoinAppend(parts: seq<string>, x: string, sep: string)
    requires |parts| >= 1
    ensures Text.Join(parts + [x], sep) == Text.Join(parts, sep) + sep + x
    decreases |parts|
  {
    if |parts| > 1 {
      assert (parts + [x])[1..] == parts[1..] + [x];
      JoinAppend(parts[1..], x, sep);
    }
  }

  /**
    Joining `rest` onto a non-empty directory, when the segments of `rest`
    resolve against the directory's names to those names and one more, gives
    that name inside the directory.
   */
  lemma JoinResolvesTo(dir: string, rest: string, f: string)
    requires dir != [] && rest != [] && rest[|rest| - 1] != '/'
    requires Resolve(DirNames(dir), Segments(rest), !IsAbsolute(dir)) == DirNames(dir) + [f]
    ensures Join(dir, rest) == DirPrefix(dir) + f
  {
    var p := dir + "/" + rest;
    assert p[0] == dir[0] && p[|p| - 1] == rest[|rest| - 1];
    assert Join(dir, rest) == Normalize(p);
    JoinedNames(dir, rest, f);
    PrefixThenName(dir, f);
  }

  /** The names of `dir/rest` are the directory's names and then those of `rest` resolved after them. */
  lemma JoinedNames(dir: string, rest: string, f: string)
    requires dir != []
    requires Resolve(DirNames(dir), Segments(rest), !IsAbsolute(dir)) == DirNames(dir) + [f]
    ensures Resolve([], Segments(dir + "/" + rest), !IsAbsolute(dir + "/" + rest)) == DirNames(dir) + [f]
  {
    assert (dir + "/" + rest)[0] == dir[0];
    SegmentsAppend(dir, rest);
    ResolveAppend([], Segments(dir), Segments(rest), !IsAbsolute(dir));
  }

  /** The directory's names and one more, joined after the root slash, are the directory prefix and the name. */
  lemma PrefixThenName(dir: string, f: string)
    ensures (if IsAbsolute(dir) then "/" else "") + Text.Join(DirNames(dir) + [f], "/") == DirPrefix(dir) + f
  {
    var names := DirNames(dir);
    if names != [] {
      JoinAppend(names, f, "/");
    } else {
      assert names + [f] == [f];
    }
  }

  /** Joining two non-empty lists is joining each and putting a separator between. */
  lemma {:induction false} JoinConcat(a: seq<string>, b: seq<string>, sep: string)
    requires |a| >= 1 && |b| >= 1
    ensures Text.Join(a + b, sep) == Text.Join(a, sep) + sep + Text.Join(b, sep)
    decreases |a|
  {
    if |a| > 1 {
      assert (a + b)[1..] == a[1..] + b;
      JoinConcat(a[1..], b, sep);
    }
  }

  /** Slash-free names joined by slashes split back into those names. */
  lemma {:induction false} SegmentsOfNames(names: seq<string>)
    requires |names| >= 1 && forall i :: 0 <= i < |names| ==> '/' !in names[i]
    ensures Segments(Text.Join(names, "/")) == names
    decreases |names|
  {
    if |names| == 1 {
      SegmentsOfName(names[0]);
    } else {
      SegmentsOfName(names[0]);
      SegmentsAppend(names[0], Text.Join(names[1..], "/"));
      SegmentsOfNames(names[1..]);
    }
  }

  /** Plain names resolve to themselves, after whatever came before. */
  lemma {:induction false} ResolvePlain(base: seq<string>, names: seq<string>, aboveRoot: bool)
    requires forall i :: 0 <= i < |names| ==> PlainName(names[i])
    ensures Resolve(base, names, aboveRoot) == base + names
    decreases |names|
  {
    if names != [] {
      var n := |names|;
      ResolvePlain(base, names[..n - 1], aboveRoot);
      assert base + names[..n - 1] + [names[n - 1]] == base + names;
    }
  }

  /** The last character of slash-joined names is the last name's. */
  lemma JoinEndsWithLast(names: seq<string>)
    requires |names| >= 1 && names[|names| - 1] != ""
    ensures Text.Join(names, "/") != [] && Text.Join(names, "/")[|Text.Join(names, "/")| - 1] == names[|names| - 1][|names[|names| - 1]| - 1]
  {
    var n := |names|;
    if n > 1 {
      assert names == names[..n - 1] + [names[n - 1]];
      JoinAppend(names[..n - 1], names[n - 1], "/");
    }
  }

  /**
    A relative path of plain names joined onto a non-empty directory lies
    inside the directory's normal form, unchanged.
   */
  lemma JoinPlainNames(dir: string, names: seq<string>)
    requires dir != [] && |names| >= 1 && forall i :: 0 <= i < |names| ==> PlainName(names[i])
    ensures Join(dir, Text.Join(names, "/")) == DirPrefix(dir) + Text.Join(names, "/")
  {
    var rest := Text.Join(names, "/");
    JoinEndsWithLast(names);
    var p := dir + "/" + rest;
    assert p[0] == dir[0] && p[|p| - 1] == rest[|rest| - 1];
    assert Join(dir, rest) == Normalize(p);
    JoinedPlainNames(dir, names);
    PrefixThenNames(dir, names);
  }

  /** The names of `dir/n1/…/nk` are the directory's names and then the plain names. */
  lemma JoinedPlainNames(dir: string, names: seq<string>)
    requires dir != [] && |names| >= 1 && forall i :: 0 <= i < |names| ==> PlainName(names[i])
    ensures Resolve([], Segments(dir + "/" + Text.Join(names, "/")), !IsAbsolute(dir + "/" + Text.Join(names, "/")))
            == DirNames(dir) + names
  {
    var rest := Text.Join(names, "/");
    assert (dir + "/" + rest)[0] == dir[0];
    SegmentsAppend(dir, rest);
    SegmentsOfNames(names);
    ResolveAppend([], Segments(dir), names, !IsAbsolute(dir));
    ResolvePlain(DirNames(dir), names, !IsAbsolute(dir));
  }

  /** The directory's names and more, joined after the root slash, are the directory prefix and the joined names. */
  lemma PrefixThenNames(dir: string, names: seq<string>)
    requires |names| >= 1
    ensures (if IsAbsolute(dir) then "/" else "") + Text.Join(DirNames(dir) + names, "/")
            == DirPrefix(dir) + Text.Join(names, "/")
  {
    JoinAfterNames(DirNames(dir), names);
  }

  /** Names joined after a list of names, with a slash between when that list is not empty. */
  lemma JoinAfterNames(dn: seq<string>, names: seq<string>)
    requires |names| >= 1
    ensures (if dn == [] then "" else Text.Join(dn, "/") + "/") + Text.Join(names, "/") == Text.Join(dn + names, "/")
  {
    if dn == [] {
      assert dn + names == names;
    } else {
      JoinConcat(dn, names, "/");
    }
  }

  /** The root directory's prefix is a single slash. */
  lemma RootPrefix()
    ensures DirPrefix("/") == "/"
  {
    assert "/" == "" + "/" + "";
    SegmentsAppend("", "");
    SegmentsOfName("");
    assert Segments("/") == ["", ""];
  }

  /** `/home/u/` splits into an empty segment, `home`, `u` and an empty segment. */
  lemma HomeDirSegments()
    ensures Segments("/home/u/") == ["", "home", "u", ""]
  {
    var parts := ["", "home", "u", ""];
    assert Text.Join(parts, "/") == "/home/u/";
    SegmentsOfNames(parts);
  }

  /** Plain names between an empty first and an empty last segment resolve to themselves. */
  lemma ResolveBetweenEmpty(names: seq<string>, aboveRoot: bool)
    requires forall i :: 0 <= i < |names| ==> PlainName(names[i])
    ensures Resolve([], [""] + names + [""], aboveRoot) == names
  {
    ResolveAppend([], [""] + names, [""], aboveRoot);
    ResolveAppend([], [""], names, aboveRoot);
    assert [""][..0] == [];
    ResolvePlain([], names, aboveRoot);
  }

  /** `/home/u/` resolves to the names `home` and `u`. */
  lemma HomeDirNames()
    ensures DirNames("/home/u/") == ["home", "u"]
  {
    HomeDirSegments();
    assert ["", "home", "u", ""] == [""] + ["home", "u"] + [""];
    ResolveBetweenEmpty(["home", "u"], false);
  }

  /** The prefix of an absolute directory with some names: a slash, the names joined, a slash. */
  lemma AbsolutePrefix(dir: string, names: seq<string>)
    requires IsAbsolute(dir) && |names| >= 1 && DirNames(dir) == names
    ensures DirPrefix(dir) == "/" + Text.Join(names, "/") + "/"
  {
  }

  /** The prefix of `/home/u/` is the directory itself. */
  lemma HomeDirPrefix()
    ensures DirPrefix("/home/u/") == "/home/u/"
  {
    HomeDirNames();
    AbsolutePrefix("/home/u/", ["home", "u"]);
    assert Text.Join(["home", "u"], "/") == "home/u";
  }

  /** A plain name joined onto any directory lies directly inside it. */
  lemma JoinPlainName(dir: string, f: string)
    requires PlainName(f)
    ensures Join(dir, f) == DirPrefix(dir) + f
  {
    SegmentsOfName(f);
    if dir == [] {
      SegmentsOfName("");
      assert [f][..0] == [];
    } else {
      assert [f][..0] == [];
      JoinResolvesTo(dir, f, f);
    }
  }

  /** A URL path naming one plain file, joined onto a non-empty directory, lies directly inside it. */
  lemma JoinRootedName(dir: string, url: string)
    ensures dir != [] && |url| > 1 && url[0] == '/' && PlainName(url[1..]) ==>
              Join(dir, url) == DirPrefix(dir) + url[1..]
  {
    if dir != [] && |url| > 1 && url[0] == '/' && PlainName(url[1..]) {
      var f := url[1..];
      assert url == "" + "/" + f;
      SegmentsAppend("", f);
      SegmentsOfName("");
      SegmentsOfName(f);
      var names := DirNames(dir);
      var above := !IsAbsolute(dir);
      assert Resolve(names, ["", f], above) == names + [f] by {
        assert ["", f] == [""] + [f];
        ResolveAppend(names, [""], [f], above);
        assert [""][..0] == [] && [f][..0] == [];
      }
      JoinResolvesTo(dir, url, f);
    }
  }

  /** The segments of `/a.js/.`: an empty one before the root slash, the name, and `.`. */
  lemma SegmentsOfDottedFile()
    ensures Segments("/a.js/.") == ["", "a.js", "."]
  {
    assert "/a.js/." == "" + "/" + ("a.js" + "/" + ".");
    SegmentsAppend("", "a.js" + "/" + ".");
    SegmentsOfName("");
    SegmentsOfTwoNames("a.js", ".");
  }

  /** Two slash-free names around one slash are two segments. */
  lemma SegmentsOfTwoNames(a: string, b: string)
    requires '/' !in a && '/' !in b
    ensures Segments(a + "/" + b) == [a, b]
  {
    SegmentsAppend(a, b);
    SegmentsOfName(a);
    SegmentsOfName(b);
  }

  /** Against any directory, `/a.js/.` resolves to the one name `a.js`. */
  lemma TrailingDotResolves(dir: string)
    ensures Resolve(DirNames(dir), Segments("/a.js/."), !IsAbsolute(dir)) == DirNames(dir) + ["a.js"]
  {
    SegmentsOfDottedFile();
    var names := DirNames(dir);
    var above := !IsAbsolute(dir);
    assert ["", "a.js", "."] == [""] + ["a.js"] + ["."];
    ResolveAppend(names, [""] + ["a.js"], ["."], above);
    ResolveAppend(names, [""], ["a.js"], above);
    assert [""][..0] == [] && ["a.js"][..0] == [] && ["."][..0] == [];
  }

  /** The segments of `/shots/../x-.png`. */
  lemma EscapeSegments()
    ensures Segments("/shots" + "/" + (".." + "/" + "x-.png")) == ["", "shots", "..", "x-.png"]
  {
    SegmentsAppend("/shots", ".." + "/" + "x-.png");
    SegmentsOfTwoNames("..", "x-.png");
    SegmentsOfShots();
  }

  lemma SegmentsOfShots()
    ensures Segments("/shots") == ["", "shots"]
  {
    assert "/shots" == "" + "/" + "shots";
    SegmentsAppend("", "shots");
    SegmentsOfName("");
    SegmentsOfName("shots");
  }

  /** The `..` takes back `shots`, leaving only the file. */
  lemma EscapeResolves()
    ensures Resolve([], ["", "shots", "..", "x-.png"], false) == ["x-.png"]
  {
    var segs := ["", "shots", "..", "x-.png"];
    assert segs[..0] == [];
    assert Resolve([], segs[..1], false) == [];
    assert segs[..2][..1] == segs[..1];
    assert "shots" != "" && "shots" != "." && "shots" != "..";
    assert Resolve([], segs[..2], false) == ["shots"];
    assert segs[..3][..2] == segs[..2];
    assert Resolve([], segs[..3], false) == [];
    assert segs[..4] == segs && segs[..4][..3] == segs[..3];
    assert "x-.png" != "" && "x-.png" != "." && "x-.png" != "..";
  }

  /** `path.join('/shots', '../x-.png')` climbs out of `/shots`. */
  lemma LeavingDirectory()
    ensures Join("/shots", ".." + "/" + "x-.png") == "/x-.png"
  {
    var p := "/shots" + "/" + (".." + "/" + "x-.png");
    EscapeSegments();
    EscapeResolves();
    assert p[0] == '/' && p[|p| - 1] == 'g';
    assert Text.Join(["x-.png"], "/") == "x-.png";
  }

  /** A directory prefix is empty or ends in a slash. */
  lemma DirPrefixEnds(dir: string)
    ensures DirPrefix(dir) == [] || DirPrefix(dir)[|DirPrefix(dir)| - 1] == '/'
  {
  }

  /** A normalised path whose last segment is a plain name ends with that name. */
  lemma NormalizeKeepsLastName(q: string, f: string)
    requires PlainName(f)
    ensures Text.EndsWith(Normalize(q + "/" + f), f)
  {
    var p := q + "/" + f;
    var abs := !IsAbsolute(p);
    var names := Resolve([], Segments(q), abs);
    assert Resolve([], Segments(p), abs) == names + [f] by {
      SegmentsOfName(f);
      SegmentsAppend(q, f);
      ResolveAppend([], Segments(q), [f], abs);
      assert [f][..0] == [];
    }
    assert p[|p| - 1] == f[|f| - 1];
    var n := Normalize(p);
    var lead := if IsAbsolute(p) then "/" else "";
    assert n == lead + Text.Join(names + [f], "/");
    if names == [] {
      assert names + [f] == [f];
      assert n == lead + f;
    } else {
      JoinAppend(names, f, "/");
      assert n == (lead + Text.Join(names, "/") + "/") + f;
    }
  }

  /** A path whose last segment is a plain name keeps it as its last segment once joined. */
  lemma JoinKeepsLastName(dir: string, rest: string, f: string)
    requires PlainName(f) && (rest == f || Text.EndsWith(rest, "/" + f))
    ensures Text.EndsWith(Join(dir, rest), f)
  {
    if rest == f {
      JoinPlainName(dir, f);
      assert (DirPrefix(dir) + f)[|DirPrefix(dir) + f| - |f|..] == f;
    } else {
      var u := rest[..|rest| - |f| - 1];
      assert rest == u + "/" + f by {
        assert rest[|rest| - |f| - 1..] == "/" + f;
      }
      if dir == [] {
        NormalizeKeepsLastName(u, f);
      } else {
        assert dir + "/" + rest == (dir + "/" + u) + "/" + f;
        NormalizeKeepsLastName(dir + "/" + u, f);
      }
    }
  }

  /** A plain suffix of the last segment survives the join. */
  lemma JoinKeepsSuffix(dir: string, rest: string, sfx: string)
    requires PlainName(sfx) && Text.EndsWith(rest, sfx)
    ensures Text.EndsWith(Join(dir, rest), sfx)
  {
    var last := LastIndexOf(rest, '/');
    var f := if last.Some? then rest[last.value + 1..] else rest;
    assert rest[|rest| - |sfx|..] == sfx;
    if last.Some? {
      var i := last.value;
      assert i < |rest| - |sfx|;
      assert rest[|rest| - |f| - 1..] == "/" + f;
    }
    assert f[|f| - |sfx|..] == sfx;
    assert f != "." && f != ".." by {
      if |f| == |sfx| { assert f == sfx; } else { assert sfx == f[|f| - |sfx|..]; }
    }
    JoinKeepsLastName(dir, rest, f);
    var j := Join(dir, rest);
    assert j[|j| - |sfx|..] == j[|j| - |f|..][|f| - |sfx|..];
  }

  // ---------------------------------------------------------------------------
  // Base name and extension
  // ---------------------------------------------------------------------------

  /** The last index of `c` in `s`. */
  function LastIndexOf(s: string, c: char): (r: Option<nat>)
    ensures r.None? <==> c !in s
    ensures r.Some? ==> r.value < |s| && s[r.value] == c && c !in s[r.value + 1..]
    decreases |s|
  {
    if s == [] then None
    else if s[|s| - 1] == c then Some(|s| - 1)
    else
      var r := LastIndexOf(s[..|s| - 1], c);
      assert s == s[..|s| - 1] + [s[|s| - 1]];
      if r.Some? then assert s[r.value + 1..] == s[..|s| - 1][r.value + 1..] + [s[|s| - 1]]; r
      else r
  }

  /** The path without its trailing slashes. */
  function StripTrailingSlashes(p: string): (r: string)
    ensures |r| <= |p| && r == p[..|r|] && (r == [] || r[|r| - 1] != '/')
    ensures p == [] || p[|p| - 1] != '/' ==> r == p
    decreases |p|
  {
    if p != [] && p[|p| - 1] == '/' then StripTrailingSlashes(p[..|p| - 1]) else p
  }

  /** `path.basename(p)`: the last path component, after trailing slashes are dropped. */
  function BaseName(p: string): (b: string)
    ensures '/' !in b
  {
    var q := StripTrailingSlashes(p);
    match LastIndexOf(q, '/')
    case Some(i) => q[i + 1..]
    case None => q
  }

  /**
    `path.extname(p)`: from the last dot of the last component to its end;
    empty when that component has no dot, starts with its only dot, or is `..`.
   */
  function ExtName(p: string): (e: string)
    ensures e == [] || (e[0] == '.' && '/' !in e && '.' !in e[1..])
  {
    var b := BaseName(p);
    match LastIndexOf(b, '.')
    case None => ""
    case Some(i) => if i == 0 || b == ".." then "" else b[i..]
  }

  /** In `a + [c] + b` with no `c` in `b`, the last `c` is the one after `a`. */
  lemma {:induction false} LastIndexAfter(a: string, c: char, b: string)
    requires c !in b
    ensures LastIndexOf(a + [c] + b, c) == Some(|a|)
    decreases |b|
  {
    var s := a + [c] + b;
    if b != [] {
      assert s[|s| - 1] == b[|b| - 1];
      var b' := b[..|b| - 1];
      assert s[..|s| - 1] == a + [c] + b';
      assert c !in b';
      LastIndexAfter(a, c, b');
    }
  }

  /** The base name of a slash-free name after a directory prefix is the name. */
  lemma BaseNameAfterPrefix(prefix: string, name: string)
    requires prefix == [] || prefix[|prefix| - 1] == '/'
    requires name != [] && '/' !in name
    ensures BaseName(prefix + name) == name
  {
    var p := prefix + name;
    assert p[|p| - 1] == name[|name| - 1];
    assert StripTrailingSlashes(p) == p;
    if prefix == [] {
      assert p == name;
    } else {
      var d := prefix[..|prefix| - 1];
      assert p == d + ['/'] + name;
      LastIndexAfter(d, '/', name);
      assert p[|d| + 1..] == name;
    }
  }

  /** A file `stem.ext` with a non-empty stem, after a directory prefix, has the extension `.ext`. */
  lemma ExtNameOfFile(prefix: string, name: string, stem: string, ext: string)
    requires prefix == [] || prefix[|prefix| - 1] == '/'
    requires name == stem + "." + ext
    requires '/' !in stem && '/' !in ext && '.' !in ext
    requires stem != "" && !(stem == "." && ext == "")
    ensures ExtName(prefix + name) == "." + ext
  {
    var dotExt := "." + ext;
    assert name == stem + dotExt;
    assert name == stem + ['.'] + ext;
    assert '/' !in name;
    BaseNameAfterPrefix(prefix, name);
    LastIndexAfter(stem, '.', ext);
    assert name[..|stem|] == stem;
    assert name != "..";
    assert name[|stem|..] == dotExt;
  }
}

=== FILE: speech_controls.dfy ===
/**
  The microphone control (src/renderer/components/SpeechControls.jsx): which
  start callback a click invokes, when the button is disabled, and which
  status badges are shown. `webSpeech` says whether the window offers
  `SpeechRecognition` or `webkitSpeechRecognition`.
 */
module SpeechControls {
  import opened Base

  datatype Props = Props(
    isListening: bool,
    isSpeaking: bool,
    webSpeechActive: bool,
    hasStartListening: bool,   // `typeof onStartListening === 'function'`
    hasStartWebSpeech: bool)   // `typeof onStartWebSpeech === 'function'`

  datatype Callback = StartWebSpeech | StartListening

  /** Capture is already going on, or the bot is talking. */
  predicate Busy(p: Props) {
    p.isListening || p.isSpeaking || p.webSpeechActive
  }

  /**
    `handleMicButtonClick`: nothing while busy; otherwise the Web Speech
    callback when the API exists, else the plain microphone callback, each
    only when it is a function.
   */
  function Click(p: Props, webSpeech: bool): (r: Option<Callback>)
    ensures Busy(p) ==> r.None?
    ensures r == Some(StartWebSpeech) <==> !Busy(p) && webSpeech && p.hasStartWebSpeech
    ensures r == Some(StartListening) <==> !Busy(p) && !webSpeech && p.hasStartListening
  {
    if Busy(p) then None
    else if webSpeech then (if p.hasStartWebSpeech then Some(StartWebSpeech) else None)
    else if p.hasStartListening then Some(StartListening) else None
  }

  /**
    The button's `disabled` attribute: set exactly when a click would be
    ignored whatever the environment, given both callbacks.
   */
  function Disabled(p: Props): (d: bool)
    ensures d ==> forall webSpeech: bool :: Click(p, webSpeech).None?
    ensures !d && p.hasStartWebSpeech && p.hasStartListening ==> forall webSpeech: bool :: Click(p, webSpeech).Some?
  {
    p.isListening || p.isSpeaking || p.webSpeechActive
  }

  const ListeningLabel: string := "Słucham..."
  const IdleLabel: string := "Naciśnij, aby mówić"

  /** The button's text; the listening indicator is shown under the same condition. */
  function ButtonCaption(p: Props): (caption: string)
    ensures caption == ListeningLabel <==> p.isListening || p.webSpeechActive
  {
    if p.isListening || p.webSpeechActive then ListeningLabel else IdleLabel
  }

  const WebSpeechBadge: string := "Web Speech API"
  const MicrophoneBadge: string := "Mikrofon"
  const SpeakingBadge: string := "Mówię..."

  /** The status badges, in page order. */
  function Badges(p: Props): (r: seq<string>)
    ensures WebSpeechBadge in r <==> p.webSpeechActive
    ensures MicrophoneBadge in r <==> p.isListening && !p.webSpeechActive
    ensures SpeakingBadge in r <==> p.isSpeaking
    ensures |r| <= 3
  {
    (if p.webSpeechActive then [WebSpeechBadge] else [])
    + (if p.isListening && !p.webSpeechActive then [MicrophoneBadge] else [])
    + (if p.isSpeaking then [SpeakingBadge] else [])
  }

  /** The two capture badges never show together, and any capture badge means a click is ignored. */
  lemma CaptureBadgesExclusive(p: Props)
    ensures !(WebSpeechBadge in Badges(p) && MicrophoneBadge in Badges(p))
    ensures WebSpeechBadge in Badges(p) || MicrophoneBadge in Badges(p) ==> forall w: bool :: Click(p, w).None?
  {
  }
}

=== FILE: speech_recognition.dfy ===
/**
  Browser speech capture (src/renderer/modules/speechRecognition.js). The module
  keeps four globals: whether the user asked to record, whether the module has
  switched to offline mode, the current recognizer and the fallback recorder.
  Recognizer callbacks (`onresult`, `onerror`, `onend`) and user actions are
  modelled as events; each step returns the new state and the visible effects
  in the order the code performs them. Whether a browser call throws or a
  permission is granted is an input of the step.
 */
module Recognition {
  import opened Base
  import opened Text
  import opened Json
  import BrowserCommands

  /** The module-level variables and the two `window` references the code keeps. */
  datatype State = State(
    recording: bool,         // isRecording
    offline: bool,           // isOfflineMode
    current: bool,           // window.currentRecognition is set
    recognizer: bool,        // window.speechRecognition is set
    recorderActive: bool)    // mediaRecorder.state === 'recording'

  const Initial: State := State(false, false, false, false, false)

  /** The system messages the module posts to the chat. */
  datatype Notice =
    | Listening           // "Nasłuchiwanie... Mów teraz."
    | MicGranted          // "Dostęp do mikrofonu został przyznany. Rozpoczynam nasłuchiwanie..."
    | MicActive           // "Mikrofon aktywny - mów wyraźnie po polsku"
    | MicUnavailable      // "Brak dostępu do mikrofonu. Upewnij się, że przeglądarka ma uprawnienia …"
    | PermissionHint      // "Brak dostępu do mikrofonu. Kliknij ikonkę kłódki w pasku adresu …"
    | OfflineSwitch       // "Przechodzenie do trybu offline. Możesz użyć przycisków komend zamiast mowy."
    | RecognitionProblem  // "Wystąpił problem z rozpoznawaniem mowy. Przechodzenie do trybu offline..."
    | RecognitionError    // "Wystąpił błąd rozpoznawania mowy. Spróbuj użyć przycisków komend."
    | FallbackActive      // "Mikrofon aktywny (tryb fallback) - mów wyraźnie po polsku"
    | NotRecognized       // "Nie udało się rozpoznać mowy. Spróbuj ponownie."
    | AudioFailed         // "Wystąpił błąd podczas przetwarzania audio. Spróbuj ponownie."
    | Stopped             // "Nagrywanie zatrzymane"

  /** What the user sees or the server receives, in order. */
  datatype Effect =
    | SystemMessage(notice: Notice)
    | UserMessage(text: string)
    | PermissionButton                 // a button whose click calls startRecording again
    | AbortRecognizer
    | HighlightCommands                // the command buttons are restyled
    | ShowInterim(text: string)
    | SendTranscript(transcript: string)   // socket 'web-stt-result'
    | RunBrowserCommand(command: BrowserCommands.Command)
    | StartRecognizer
    | StopRecognizer
    | ShowVolumeIndicator
    | RemoveVolumeIndicator
    | StartFallback                    // startFallbackRecording() is called
    | StartRecorder
    | ScheduleRecorderStop(ms: nat)
    | StopRecorder
    | PostAudio                        // the recorded chunks are POSTed to /api/stt
    | UserValue(value: Json)           // a non-string transcript from /api/stt, shown as it is
    | SendValue(value: Json)           // … and sent as it is

  /** The error names that send the module offline. */
  predicate IsInfrastructureError(name: string) {
    name == "network" || name == "aborted" || name == "audio-capture" || name == "service-not-allowed"
  }

  // ---------------------------------------------------------------------------
  // Offline mode
  // ---------------------------------------------------------------------------

  /**
    `handleOfflineMode()`: the first call sets the flag, tells the user, aborts
    the current recognizer (which stays referenced when `abort` throws) and
    restyles the command buttons; later calls do nothing.
   */
  function HandleOfflineMode(s: State, abortThrows: bool): (r: (State, seq<Effect>))
    ensures r.0.offline
    ensures s.offline ==> r == (s, [])
    ensures !s.offline ==> r.0.recording == s.recording && r.0.recognizer == s.recognizer
                           && r.0.recorderActive == s.recorderActive
    ensures !s.offline ==> (r.0.current <==> s.current && abortThrows)
    ensures !s.offline ==> r.1 == [SystemMessage(OfflineSwitch)] + (if s.current then [AbortRecognizer] else []) + [HighlightCommands]
  {
    if s.offline then (s, [])
    else
      var aborted := if s.current then [AbortRecognizer] else [];
      var current := s.current && abortThrows;
      (s.(offline := true, current := current), [SystemMessage(OfflineSwitch)] + aborted + [HighlightCommands])
  }

  /** Calling `handleOfflineMode` twice is the same as calling it once. */
  lemma HandleOfflineModeIdempotent(s: State, a: bool, b: bool)
    ensures HandleOfflineMode(HandleOfflineMode(s, a).0, b) == (HandleOfflineMode(s, a).0, [])
  {
  }

  // ---------------------------------------------------------------------------
  // Recognizer callbacks
  // ---------------------------------------------------------------------------

  /**
    `recognition.onerror`: ignored in offline mode; otherwise `no-speech` is
    silent, `not-allowed` asks for permission, the four infrastructure errors
    switch to offline mode, and any other error is reported.
   */
  function OnError(s: State, name: string, abortThrows: bool): (r: (State, seq<Effect>))
    ensures s.offline ==> r == (s, [])
    ensures StartRecognizer !in r.1
    ensures r.0.offline <==> s.offline || IsInfrastructureError(name)
    ensures !s.offline && name == "not-allowed" ==> r == (s, [SystemMessage(PermissionHint), PermissionButton])
    ensures !s.offline && IsInfrastructureError(name) ==>
              r.1 == [SystemMessage(RecognitionProblem)] + HandleOfflineMode(s, abortThrows).1
    ensures !s.offline && name != "no-speech" && name != "not-allowed" && !IsInfrastructureError(name) ==>
              r == (s, [SystemMessage(RecognitionError)])
  {
    if s.offline then (s, [])
    else if name == "no-speech" then (s, [])
    else if name == "not-allowed" then (s, [SystemMessage(PermissionHint), PermissionButton])
    else if IsInfrastructureError(name) then
      var (s', fx) := HandleOfflineMode(s, abortThrows);
      (s', [SystemMessage(RecognitionProblem)] + fx)
    else (s, [SystemMessage(RecognitionError)])
  }

  /**
    `recognition.onend`: in offline mode nothing; while recording the
    recognizer is restarted, and a throwing restart switches to offline mode.
    The delayed retry that follows in the source is never reached: the flag
    was clear before `handleOfflineMode` and is set after it, so the function
    always returns first.
   */
  function OnEnd(s: State, startThrows: bool, abortThrows: bool): (r: (State, seq<Effect>))
    ensures s.offline || !s.recording ==> r == (s, [])
    ensures (StartRecognizer in r.1) <==> !s.offline && s.recording
    ensures r.0.offline <==> s.offline || (s.recording && startThrows)
    ensures r.0.recording == s.recording
  {
    if s.offline || !s.recording then (s, [])
    else if !startThrows then (s, [StartRecognizer])
    else
      var (s', fx) := HandleOfflineMode(s, abortThrows);
      (s', [StartRecognizer] + fx)
  }

  /** One entry of `event.results`: its first alternative's transcript and `isFinal`. */
  datatype ResultItem = ResultItem(transcript: string, isFinal: bool)

  /** Which optional globals `onresult` finds: the interim element and the two command hooks. */
  datatype Hooks = Hooks(interimElement: bool, checkHook: bool, executeHook: bool)

  /** The results the loop visits: from `resultIndex` to the end (none when it is past the end). */
  function Visited(results: seq<ResultItem>, resultIndex: nat): seq<ResultItem> {
    if resultIndex <= |results| then results[resultIndex..] else []
  }

  /** The transcripts of the final results, in order. */
  function FinalParts(rs: seq<ResultItem>): seq<string> {
    if rs == [] then []
    else (if rs[0].isFinal then [rs[0].transcript] else []) + FinalParts(rs[1..])
  }

  /** The transcripts of the interim results, in order. */
  function InterimParts(rs: seq<ResultItem>): seq<string> {
    if rs == [] then []
    else (if rs[0].isFinal then [] else [rs[0].transcript]) + InterimParts(rs[1..])
  }

  function Concat(ss: seq<string>): string {
    if ss == [] then "" else ss[0] + Concat(ss[1..])
  }

  lemma {:induction false} ConcatSnoc(ss: seq<string>, x: string)
    ensures Concat(ss + [x]) == Concat(ss) + x
  {
    if ss == [] {
      assert ss + [x] == [x];
    } else {
      assert (ss + [x])[1..] == ss[1..] + [x];
      ConcatSnoc(ss[1..], x);
    }
  }

  lemma {:induction false} PartsSnoc(rs: seq<ResultItem>, x: ResultItem)
    ensures FinalParts(rs + [x]) == FinalParts(rs) + (if x.isFinal then [x.transcript] else [])
    ensures InterimParts(rs + [x]) == InterimParts(rs) + (if x.isFinal then [] else [x.transcript])
  {
    if rs == [] {
      assert rs + [x] == [x];
      assert [x][1..] == [];
    } else {
      assert (rs + [x])[1..] == rs[1..] + [x];
      PartsSnoc(rs[1..], x);
    }
  }

  /**
    The accumulation loop of `onresult`: `finalTranscript` and
    `interimTranscript` built by `+=` over the visited results.
   */
  method CollectTranscripts(results: seq<ResultItem>, resultIndex: nat) returns (interim: string, final: string)
    ensures final == Concat(FinalParts(Visited(results, resultIndex)))
    ensures interim == Concat(InterimParts(Visited(results, resultIndex)))
  {
    interim := "";
    final := "";
    var i := resultIndex;
    if i > |results| {
      return;
    }
    while i < |results|
      invariant resultIndex <= i <= |results|
      invariant final == Concat(FinalParts(results[resultIndex..i]))
      invariant interim == Concat(InterimParts(results[resultIndex..i]))
    {
      var item := results[i];
      assert results[resultIndex..i + 1] == results[resultIndex..i] + [item];
      PartsSnoc(results[resultIndex..i], item);
      ghost var prefix := results[resultIndex..i];
      if item.isFinal {
        ConcatSnoc(FinalParts(prefix), item.transcript);
        assert InterimParts(prefix + [item]) == InterimParts(prefix) + [] == InterimParts(prefix);
        final := final + item.transcript;
      } else {
        ConcatSnoc(InterimParts(prefix), item.transcript);
        assert FinalParts(prefix + [item]) == FinalParts(prefix) + [] == FinalParts(prefix);
        interim := interim + item.transcript;
      }
      i := i + 1;
    }
    assert results[resultIndex..i] == Visited(results, resultIndex);
  }

  /** The concatenated final transcript is non-empty exactly when some final result has a non-empty transcript. */
  lemma {:induction false} FinalNonEmptyIff(rs: seq<ResultItem>)
    ensures Concat(FinalParts(rs)) != "" <==> exists k :: 0 <= k < |rs| && rs[k].isFinal && rs[k].transcript != ""
  {
    if rs != [] {
      FinalNonEmptyIff(rs[1..]);
      var rest := FinalParts(rs[1..]);
      if rs[0].isFinal {
        assert FinalParts(rs) == [rs[0].transcript] + rest;
        assert ([rs[0].transcript] + rest)[1..] == rest;
        assert Concat(FinalParts(rs)) == rs[0].transcript + Concat(rest);
      } else {
        assert FinalParts(rs) == [] + rest == rest;
      }
      if exists k :: 0 <= k < |rs[1..]| && rs[1..][k].isFinal && rs[1..][k].transcript != "" {
        var k :| 0 <= k < |rs[1..]| && rs[1..][k].isFinal && rs[1..][k].transcript != "";
        assert rs[k + 1] == rs[1..][k];
      }
      if exists k :: 0 <= k < |rs| && rs[k].isFinal && rs[k].transcript != "" {
        var k :| 0 <= k < |rs| && rs[k].isFinal && rs[k].transcript != "";
        if k > 0 {
          assert rs[1..][k - 1] == rs[k];
        }
      }
    }
  }

  /** The effects of a final transcript: chat line, then a browser command or the server. */
  function Submit(final: string, hooks: Hooks): (fx: seq<Effect>) {
    var command := if hooks.checkHook then BrowserCommands.CheckForBrowserCommand(Some(final)) else None;
    var clear := if hooks.interimElement then [ShowInterim("")] else [];
    if command.Some? && hooks.executeHook then clear + [UserMessage(final), RunBrowserCommand(command.value)]
    else clear + [UserMessage(final), SendTranscript(final)]
  }

  /**
    `recognition.onresult`. The interim text is shown; a non-empty final
    transcript is posted as the user's line and then either run as a browser
    command (when both hooks exist and the text is a command) or sent to the
    server. The handler does not look at the offline flag.
   */
  function OnResult(results: seq<ResultItem>, resultIndex: nat, hooks: Hooks): (fx: seq<Effect>)
    ensures var final := Concat(FinalParts(Visited(results, resultIndex)));
            var interim := Concat(InterimParts(Visited(results, resultIndex)));
            && (hooks.interimElement ==> |fx| >= 1 && fx[0] == ShowInterim(interim))
            && (final == "" ==> fx == (if hooks.interimElement then [ShowInterim(interim)] else []))
            && (final != "" ==>
                  var command := BrowserCommands.CheckForBrowserCommand(Some(final));
                  && |fx| >= 2 && fx[|fx| - 2] == UserMessage(final)
                  && fx[|fx| - 1] == (if hooks.checkHook && hooks.executeHook && command.Some?
                                      then RunBrowserCommand(command.value) else SendTranscript(final)))
  {
    var final := Concat(FinalParts(Visited(results, resultIndex)));
    var interim := Concat(InterimParts(Visited(results, resultIndex)));
    (if hooks.interimElement then [ShowInterim(interim)] else [])
    + (if final != "" then Submit(final, hooks) else [])
  }

  /** How many effects of `fx` hand a transcript on: to the server or to the browser hook. */
  function Handoffs(fx: seq<Effect>): nat {
    if fx == [] then 0
    else (if fx[0].SendTranscript? || fx[0].SendValue? || fx[0].RunBrowserCommand? then 1 else 0) + Handoffs(fx[1..])
  }

  lemma {:induction false} HandoffsAppend(a: seq<Effect>, b: seq<Effect>)
    ensures Handoffs(a + b) == Handoffs(a) + Handoffs(b)
  {
    if a == [] {
      assert a + b == b;
    } else {
      assert (a + b)[0] == a[0];
      assert (a + b)[1..] == a[1..] + b;
      HandoffsAppend(a[1..], b);
    }
  }

  /** A submission hands the text on once, as a browser command exactly when the hooks recognise it. */
  lemma SubmitHandsOnOnce(final: string, hooks: Hooks)
    ensures Handoffs(Submit(final, hooks)) == 1
    ensures (exists c :: RunBrowserCommand(c) in Submit(final, hooks)) <==>
              hooks.checkHook && hooks.executeHook && BrowserCommands.CheckForBrowserCommand(Some(final)).Some?
  {
    var clear := if hooks.interimElement then [ShowInterim("")] else [];
    assert Handoffs(clear) == 0;
    var command := if hooks.checkHook then BrowserCommands.CheckForBrowserCommand(Some(final)) else None;
    if command.Some? && hooks.executeHook {
      var tail := [UserMessage(final), RunBrowserCommand(command.value)];
      HandoffsAppend(clear, tail);
      assert Handoffs(tail[1..]) == 1;
      assert RunBrowserCommand(command.value) in Submit(final, hooks);
    } else {
      var tail := [UserMessage(final), SendTranscript(final)];
      HandoffsAppend(clear, tail);
      assert Handoffs(tail[1..]) == 1;
      assert forall e :: e in Submit(final, hooks) ==> !e.RunBrowserCommand?;
    }
  }

  /**
    A result event hands its transcript on exactly once when the final text is
    non-empty and never otherwise; it is a browser command exactly when both
    hooks exist and the checker recognises the text.
   */
  lemma ResultHandsOnOnce(results: seq<ResultItem>, resultIndex: nat, hooks: Hooks)
    ensures var final := Concat(FinalParts(Visited(results, resultIndex)));
            Handoffs(OnResult(results, resultIndex, hooks)) == (if final != "" then 1 else 0)
    ensures var final := Concat(FinalParts(Visited(results, resultIndex)));
            (exists c :: RunBrowserCommand(c) in OnResult(results, resultIndex, hooks)) <==>
              final != "" && hooks.checkHook && hooks.executeHook
              && BrowserCommands.CheckForBrowserCommand(Some(final)).Some?
  {
    var final := Concat(FinalParts(Visited(results, resultIndex)));
    var interim := Concat(InterimParts(Visited(results, resultIndex)));
    var head := if hooks.interimElement then [ShowInterim(interim)] else [];
    var tail := if final != "" then Submit(final, hooks) else [];
    assert OnResult(results, resultIndex, hooks) == head + tail;
    HandoffsAppend(head, tail);
    assert Handoffs(head) == 0;
    if final != "" {
      SubmitHandsOnOnce(final, hooks);
    }
  }

  // ---------------------------------------------------------------------------
  // User actions
  // ---------------------------------------------------------------------------

  /** What the browser does during `startRecording`. */
  datatype StartEnv = StartEnv(apiAvailable: bool, micGranted: bool, startThrows: bool)

  /**
    `startRecording()`. Without the Web Speech API the fallback recorder is
    started. A refused microphone, or a recognizer whose `start` throws, ends
    in the permission message and button; the recognizer created before a
    throwing `start` stays referenced. Otherwise recording begins.
   */
  function StartRecording(s: State, env: StartEnv): (r: (State, seq<Effect>))
    ensures |r.1| >= 2 && r.1[0] == SystemMessage(Listening)
    ensures r.0.offline == s.offline
    ensures r.0.recording <==> s.recording || (env.apiAvailable && env.micGranted && !env.startThrows)
    ensures (StartRecognizer in r.1) <==> env.apiAvailable && env.micGranted
    ensures !env.apiAvailable ==> r == (s, [SystemMessage(Listening), StartFallback])
    ensures env.apiAvailable && (!env.micGranted || env.startThrows) ==>
              r.1[|r.1| - 2..] == [SystemMessage(MicUnavailable), PermissionButton]
  {
    var listening := [SystemMessage(Listening)];
    if !env.apiAvailable then
      assert listening + [StartFallback] == [SystemMessage(Listening), StartFallback];
      (s, listening + [StartFallback])
    else if !env.micGranted then (s, listening + [SystemMessage(MicUnavailable), PermissionButton])
    else
      var granted := listening + [SystemMessage(MicGranted), StartRecognizer];
      var s1 := s.(current := true);
      if env.startThrows then (s1, granted + [SystemMessage(MicUnavailable), PermissionButton])
      else
        (s1.(recognizer := true, recording := true),
         granted + [ShowVolumeIndicator, SystemMessage(MicActive)])
  }

  /**
    `startFallbackRecording()`: with microphone access the recorder starts,
    a stop is scheduled after five seconds and recording begins; otherwise the
    user is told there is no microphone access.
   */
  function StartFallbackRecording(s: State, micGranted: bool): (r: (State, seq<Effect>))
    ensures r.0.offline == s.offline && r.0.current == s.current && r.0.recognizer == s.recognizer
    ensures micGranted ==> r.0.recording && r.0.recorderActive && ScheduleRecorderStop(5000) in r.1
    ensures !micGranted ==> r == (s, [SystemMessage(MicUnavailable)])
  {
    if micGranted then
      (s.(recorderActive := true, recording := true),
       [StartRecorder, ScheduleRecorderStop(5000), ShowVolumeIndicator, SystemMessage(FallbackActive)])
    else (s, [SystemMessage(MicUnavailable)])
  }

  /**
    `mediaRecorder.onstop`: the audio is POSTed, and while still recording the
    fallback is started again. The response arrives later (`OnSttResponse`).
   */
  function OnRecorderStop(s: State): (r: (State, seq<Effect>))
    ensures r.0 == s.(recorderActive := false)
    ensures PostAudio in r.1
    ensures (StartFallback in r.1) <==> s.recording
  {
    (s.(recorderActive := false), [PostAudio] + (if s.recording then [StartFallback] else []))
  }

  /** The outcome of the `/api/stt` request: the parsed JSON body, or a failure. */
  datatype SttResponse = Body(data: Json) | RequestFailed

  /** The response carries a truthy `transcript`. */
  predicate HasTranscript(response: SttResponse) {
    response.Body? && Property(response.data, "transcript").Some?
    && Truthy(Property(response.data, "transcript").value)
  }

  /**
    The `/api/stt` response handler: a truthy `transcript` is posted as the
    user's line and sent to the server; otherwise the user is told. Reading
    `data.transcript` off a `null` body throws, so that body ends in the same
    `catch` as a failed request.
   */
  function OnSttResponse(response: SttResponse): (fx: seq<Effect>)
    ensures |fx| >= 1
    ensures Handoffs(fx) == (if HasTranscript(response) then 1 else 0)
    ensures response.RequestFailed? || response == Body(JNull) ==> fx == [SystemMessage(AudioFailed)]
    ensures HasTranscript(response) && Property(response.data, "transcript").value.JStr? ==>
              var t := Property(response.data, "transcript").value.s;
              fx == [UserMessage(t), SendTranscript(t)]
    ensures response.Body? && response.data != JNull && !HasTranscript(response) ==>
              fx == [SystemMessage(NotRecognized)]
  {
    match response
    case RequestFailed => [SystemMessage(AudioFailed)]
    case Body(data) =>
      if data == JNull then [SystemMessage(AudioFailed)]
      else match Property(data, "transcript")
      case Some(v) =>
        if !Truthy(v) then [SystemMessage(NotRecognized)]
        else if v.JStr? then
          assert Handoffs([SendTranscript(v.s)]) == 1;
          [UserMessage(v.s), SendTranscript(v.s)]
        else
          assert Handoffs([SendValue(v)]) == 1;
          [UserValue(v), SendValue(v)]
      case None => [SystemMessage(NotRecognized)]
  }

  /** What the browser does during `stopRecording`. */
  datatype StopEnv = StopEnv(recorderStopThrows: bool)

  /**
    `stopRecording()`: clears the recording flag, removes the volume
    indicator, stops the recognizer and an active recorder, and tells the user.
   */
  function StopRecording(s: State, env: StopEnv): (r: (State, seq<Effect>))
    ensures !r.0.recording
    ensures r.0.offline == s.offline && r.0.current == s.current && r.0.recognizer == s.recognizer
    ensures r.0.recorderActive <==> s.recorderActive && env.recorderStopThrows
    ensures (StopRecognizer in r.1) <==> s.recognizer
    ensures (StopRecorder in r.1) <==> s.recorderActive
    ensures |r.1| > 0 && r.1[|r.1| - 1] == SystemMessage(Stopped)
  {
    var fx := [RemoveVolumeIndicator]
              + (if s.recognizer then [StopRecognizer] else [])
              + (if s.recorderActive then [StopRecorder] else [])
              + [SystemMessage(Stopped)];
    (s.(recording := false, recorderActive := s.recorderActive && env.recorderStopThrows), fx)
  }

  // ---------------------------------------------------------------------------
  // Event sequences
  // ---------------------------------------------------------------------------

  datatype Event =
    | RecognizerError(name: string, abortThrows: bool)
    | RecognizerEnd(startThrows: bool, abortThrows: bool)
    | RecognizerResult(results: seq<ResultItem>, resultIndex: nat, hooks: Hooks)
    | UserStart(env: StartEnv)
    | UserStop(stopEnv: StopEnv)
    | FallbackStart(micGranted: bool)
    | RecorderStopped

  function Step(s: State, e: Event): (State, seq<Effect>) {
    match e
    case RecognizerError(name, abortThrows) => OnError(s, name, abortThrows)
    case RecognizerEnd(startThrows, abortThrows) => OnEnd(s, startThrows, abortThrows)
    case RecognizerResult(results, resultIndex, hooks) => (s, OnResult(results, resultIndex, hooks))
    case UserStart(env) => StartRecording(s, env)
    case UserStop(env) => StopRecording(s, env)
    case FallbackStart(micGranted) => StartFallbackRecording(s, micGranted)
    case RecorderStopped => OnRecorderStop(s)
  }

  /** The state after a sequence of events, and all effects in order. */
  function Run(s: State, es: seq<Event>): (State, seq<Effect>)
    decreases |es|
  {
    if es == [] then (s, [])
    else
      var (s1, fx1) := Step(s, es[0]);
      var (s2, fx2) := Run(s1, es[1..]);
      (s2, fx1 + fx2)
  }

  /** Once offline, always offline: no event clears the flag. */
  lemma {:induction false} OfflineIsPermanent(s: State, es: seq<Event>)
    requires s.offline
    ensures Run(s, es).0.offline
    decreases |es|
  {
    if es != [] {
      var s1 := Step(s, es[0]).0;
      assert s1.offline;
      OfflineIsPermanent(s1, es[1..]);
    }
  }

  /**
    Once offline, recognizer errors and ends change nothing and show nothing,
    so the recognizer is never restarted unless the user starts recording.
   */
  lemma {:induction false} OfflineNeverRestarts(s: State, es: seq<Event>)
    requires s.offline
    requires forall k :: 0 <= k < |es| ==> !es[k].UserStart?
    ensures StartRecognizer !in Run(s, es).1
    decreases |es|
  {
    if es != [] {
      OfflineStepNoRestart(s, es[0]);
      var (s1, fx1) := Step(s, es[0]);
      OfflineNeverRestarts(s1, es[1..]);
      assert Run(s, es).1 == fx1 + Run(s1, es[1..]).1;
    }
  }

  /** One event other than a user start, while offline, keeps offline mode and starts no recognizer. */
  lemma OfflineStepNoRestart(s: State, e: Event)
    requires s.offline && !e.UserStart?
    ensures Step(s, e).0.offline && StartRecognizer !in Step(s, e).1
  {
    match e
    case RecognizerResult(results, resultIndex, hooks) =>
      ResultStartsNoRecognizer(results, resultIndex, hooks);
    case _ =>
  }

  /** A result event never starts the recognizer. */
  lemma ResultStartsNoRecognizer(results: seq<ResultItem>, resultIndex: nat, hooks: Hooks)
    ensures StartRecognizer !in OnResult(results, resultIndex, hooks)
  {
    var final := Concat(FinalParts(Visited(results, resultIndex)));
    if final != "" {
      var clear := if hooks.interimElement then [ShowInterim("")] else [];
      assert StartRecognizer !in clear;
    }
  }

  /** The first infrastructure error switches to offline mode and tells the user twice, in this order. */
  lemma FirstInfrastructureError(s: State, name: string, abortThrows: bool)
    requires !s.offline && IsInfrastructureError(name)
    ensures OnError(s, name, abortThrows).0.offline
    ensures OnError(s, name, abortThrows).1[..2] == [SystemMessage(RecognitionProblem), SystemMessage(OfflineSwitch)]
    ensures OnError(s, name, abortThrows).0.recording == s.recording
  {
  }
}

=== FILE: speech_synthesis.dfy ===
/**
  Text-to-speech in the renderer (src/renderer/modules/speechSynthesis.js):
  the options merged over the defaults, the choice of a Polish voice, and the
  handling of a `web-tts` request. The browser's synthesis API is a flag
  (`api`: whether `speechSynthesis` exists in `window`) and the voice list is
  a parameter; what the module asks of the API is returned as effects.
 */
module SpeechSynthesis {
  import opened Base
  import opened Text
  import opened Json

  datatype Voice = Voice(name: string, lang: string)

  /** The utterance handed to `speechSynthesis.speak`. Option values pass through unchanged. */
  datatype Utterance = Utterance(text: Json, lang: Json, volume: Json, rate: Json, pitch: Json, voice: Option<Voice>)

  datatype Effect = Cancel | Speak(utterance: Utterance)

  /** `defaultOptions`. */
  const DefaultOptions: map<string, Json> :=
    map["lang" := JStr("pl-PL"), "volume" := JNum(1), "rate" := JNum(1), "pitch" := JNum(1)]

  /**
    The own enumerable properties `{...options}` copies. Spreading a string or
    an array adds only index keys, which none of the four options uses, so
    every non-object contributes nothing that is read afterwards.
   */
  function Spread(options: Json): map<string, Json> {
    if options.JObj? then options.fields else map[]
  }

  /** `{ ...defaultOptions, ...options }`. */
  function MergeOptions(options: Json): (r: map<string, Json>)
    ensures forall k :: k in Spread(options) ==> k in r && r[k] == Spread(options)[k]
    ensures forall k :: k in DefaultOptions && k !in Spread(options) ==> k in r && r[k] == DefaultOptions[k]
    ensures r.Keys == DefaultOptions.Keys + Spread(options).Keys
  {
    DefaultOptions + Spread(options)
  }

  /** Every option the utterance reads is defined after merging. */
  lemma MergedOptionsComplete(options: Json)
    ensures forall k :: k in {"lang", "volume", "rate", "pitch"} ==> k in MergeOptions(options)
    ensures !options.JObj? ==> MergeOptions(options) == DefaultOptions
  {
  }

  /** `voices.find(voice => voice.lang.startsWith('pl'))`. */
  function PolishVoice(voices: seq<Voice>): (r: Option<Voice>)
    ensures r.None? <==> forall i :: 0 <= i < |voices| ==> !StartsWith(voices[i].lang, "pl")
    ensures r.Some? ==> exists i :: 0 <= i < |voices| && voices[i] == r.value
                                   && StartsWith(r.value.lang, "pl")
                                   && (forall j :: 0 <= j < i ==> !StartsWith(voices[j].lang, "pl"))
  {
    if voices == [] then None
    else if StartsWith(voices[0].lang, "pl") then Some(voices[0])
    else
      var r := PolishVoice(voices[1..]);
      assert forall i :: 1 <= i < |voices| ==> voices[i] == voices[1..][i - 1];
      if r.Some? then
        var i :| 0 <= i < |voices[1..]| && voices[1..][i] == r.value
                 && StartsWith(r.value.lang, "pl")
                 && (forall j :: 0 <= j < i ==> !StartsWith(voices[1..][j].lang, "pl"));
        assert voices[i + 1] == r.value;
        r
      else r
  }

  /**
    `speakText(text, options)`: false without the API; otherwise one
    utterance carrying the merged options and, when the list has one, the
    first Polish voice (with no voices, or no Polish one, the default voice).
   */
  function SpeakText(api: bool, text: Json, options: Json, voices: seq<Voice>): (r: (bool, seq<Effect>))
    ensures r.0 <==> api
    ensures !api ==> r.1 == []
    ensures api ==> |r.1| == 1 && r.1[0].Speak?
    ensures api ==> var u := r.1[0].utterance;
              u.text == text && u.voice == PolishVoice(voices)
              && u.lang == MergeOptions(options)["lang"] && u.volume == MergeOptions(options)["volume"]
              && u.rate == MergeOptions(options)["rate"] && u.pitch == MergeOptions(options)["pitch"]
  {
    if !api then (false, [])
    else
      var o := MergeOptions(options);
      var voice := if |voices| == 0 then None else PolishVoice(voices);
      (true, [Speak(Utterance(text, o["lang"], o["volume"], o["rate"], o["pitch"], voice))])
  }

  /** With no options the utterance is Polish at full volume, normal rate and pitch. */
  lemma DefaultUtterance(text: Json, voices: seq<Voice>)
    ensures var u := SpeakText(true, text, JObj(map[]), voices).1[0].utterance;
            u.lang == JStr("pl-PL") && u.volume == JNum(1) && u.rate == JNum(1) && u.pitch == JNum(1)
  {
  }

  /** `stopSpeaking()`: cancels the current speech and reports true exactly when the API exists. */
  function StopSpeaking(api: bool): (r: (bool, seq<Effect>))
    ensures r.0 <==> api
    ensures r.1 == (if api then [Cancel] else [])
  {
    if api then (true, [Cancel]) else (false, [])
  }

  /** `data.text` is present and truthy. */
  predicate HasText(data: Json) {
    Truthy(data) && Property(data, "text").Some? && Truthy(Property(data, "text").value)
  }

  /**
    `handleTTSRequest(data)`: false and silence when `data` or `data.text` is
    missing or falsy; otherwise the current speech is cancelled before the
    new text is spoken with `data.options || {}`.
   */
  function HandleTtsRequest(api: bool, data: Json, voices: seq<Voice>): (r: (bool, seq<Effect>))
    ensures !HasText(data) ==> r == (false, [])
    ensures r.0 <==> api && HasText(data)
    ensures r.1 != [] <==> api && HasText(data)
    ensures r.1 != [] ==> |r.1| == 2 && r.1[0] == Cancel && r.1[1].Speak?
                          && r.1[1].utterance.text == data.fields["text"]
  {
    if !HasText(data) then (false, [])
    else
      var options := match Property(data, "options")
                     case Some(o) => if Truthy(o) then o else JObj(map[])
                     case None => JObj(map[]);
      var stop := StopSpeaking(api);
      var speak := SpeakText(api, data.fields["text"], options, voices);
      (speak.0, stop.1 + speak.1)
  }

  /** Only the options an object supplies replace defaults; falsy options leave every default in place. */
  lemma FalsyOptionsUseDefaults(text: string, options: Json, voices: seq<Voice>)
    requires text != "" && !Truthy(options)
    ensures var data := JObj(map["text" := JStr(text), "options" := options]);
            var u := HandleTtsRequest(true, data, voices).1[1].utterance;
            u.lang == JStr("pl-PL") && u.volume == JNum(1)
  {
    var data := JObj(map["text" := JStr(text), "options" := options]);
    assert HasText(data);
    assert Property(data, "options") == Some(options);
  }
}

=== FILE: stt.dfy ===
/**
  The speech-to-text service (src/services/stt.js). It never transcribes audio
  itself: a payload that decodes to a JSON object carrying a truthy `transcript`
  yields that transcript; anything else yields a request for the browser to do
  the recognition. Base64 decoding and `JSON.parse` are an oracle: the caller
  passes whether `Buffer.from` accepted the payload and, if it did, the parse
  outcome (`None` when `JSON.parse` threw).
 */
module Stt {
  import opened Base
  import opened Json

  datatype Service = Service(initialized: bool)

  datatype SttError =
    | NotInitialized
    | ModelDirFailed
    | DecodeFailed     // `Buffer.from` throws for a payload that is not a string, buffer or array

  /** What decoding the payload gives: a `Buffer.from` throw, or the outcome of `JSON.parse`. */
  datatype Payload = Undecodable | Decoded(parsed: Option<Json>)

  /** What `transcribe` resolves to: a transcript value, or the capture request object. */
  datatype Transcription =
    | Transcript(text: Json)
    | CaptureRequest(message: string)

  const CaptureRequestType: string := "web-stt-request"
  const CaptureRequestMessage: string := "Proszę użyć Web Speech API w przeglądarce do transkrypcji"

  /** `new STTService(...)`: not yet initialized. */
  const Fresh: Service := Service(false)

  /**
    `initialize`: succeeds (and sets the flag) unless creating the model
    directory throws, in which case the error is re-thrown.
   */
  function Initialize(svc: Service, modelDirOk: bool): (r: Result<Service, SttError>)
    ensures r.Ok? <==> modelDirOk
    ensures r.Ok? ==> r.value.initialized
    ensures r.Err? ==> r.error == ModelDirFailed
  {
    if modelDirOk then Ok(svc.(initialized := true)) else Err(ModelDirFailed)
  }

  /** The parsed payload is a JSON object whose `transcript` property is truthy. */
  predicate CarriesTranscript(parsed: Option<Json>) {
    parsed.Some? && Truthy(parsed.value)
    && Property(parsed.value, "transcript").Some?
    && Truthy(Property(parsed.value, "transcript").value)
  }

  /**
    `transcribe(audioData)`, given the outcome of decoding and parsing the
    payload. A decoding throw is caught and re-thrown; a parse throw is caught
    and falls through to the capture request.
   */
  function Transcribe(svc: Service, payload: Payload): (r: Result<Transcription, SttError>)
    ensures !svc.initialized <==> r == Err(NotInitialized)
    ensures svc.initialized && payload.Undecodable? ==> r == Err(DecodeFailed)
    ensures r.Ok? <==> svc.initialized && payload.Decoded?
    ensures svc.initialized && payload.Decoded? && CarriesTranscript(payload.parsed) ==>
              r == Ok(Transcript(payload.parsed.value.fields["transcript"]))
    ensures svc.initialized && payload.Decoded? && !CarriesTranscript(payload.parsed) ==>
              r == Ok(CaptureRequest(CaptureRequestMessage))
    ensures r.Ok? && r.value.Transcript? ==> Truthy(r.value.text)
  {
    if !svc.initialized then Err(NotInitialized)
    else if payload.Undecodable? then Err(DecodeFailed)
    else
      var parsed := payload.parsed;
      if parsed.Some? && Truthy(parsed.value) then
        match Property(parsed.value, "transcript")
        case Some(t) =>
          if Truthy(t) then Ok(Transcript(t)) else Ok(CaptureRequest(CaptureRequestMessage))
        case None => Ok(CaptureRequest(CaptureRequestMessage))
      else Ok(CaptureRequest(CaptureRequestMessage))
  }

  /**
    A transcript is returned exactly when the decoded payload carries a
    truthy one, and it is that value.
   */
  lemma TranscriptIff(svc: Service, payload: Payload)
    requires svc.initialized
    ensures (Transcribe(svc, payload).Ok? && Transcribe(svc, payload).value.Transcript?)
            <==> payload.Decoded? && CarriesTranscript(payload.parsed)
  {
  }

  /**
    The client side's encoding of a Web Speech transcript comes back out: an
    object whose `transcript` is a non-empty string yields that string,
    whatever other keys it has.
   */
  lemma TranscriptPayloadRoundTrip(svc: Service, fields: map<string, Json>, text: string)
    requires svc.initialized && text != ""
    ensures Transcribe(svc, Decoded(Some(JObj(fields["transcript" := JStr(text)])))) == Ok(Transcript(JStr(text)))
  {
  }

  /** The capture request as the object literal the service returns. */
  function RequestObject(t: Transcription): (r: Json)
    requires t.CaptureRequest?
    ensures r.JObj? && r.fields.Keys == {"type", "message"}
    ensures r.fields["type"] == JStr(CaptureRequestType)
  {
    JObj(map["type" := JStr(CaptureRequestType), "message" := JStr(t.message)])
  }

  /** A payload whose transcript is an empty string asks the browser to capture instead. */
  lemma EmptyTranscriptRequestsCapture(svc: Service, fields: map<string, Json>)
    requires svc.initialized
    requires "transcript" in fields && fields["transcript"] == JStr("")
    ensures Transcribe(svc, Decoded(Some(JObj(fields)))).value.CaptureRequest?
  {
  }
}

=== FILE: text.dfy ===
/**
  String primitives of the JavaScript runtime that the modelled code relies on:
  `trim`, `toLowerCase`, `includes`, `startsWith`, `indexOf` and `split` with a
  non-empty string separator. Strings are sequences of UTF-16 code units
  (`char`), one code unit per character.
 */
module Text {
  import opened Base

  // ---------------------------------------------------------------------------
  // Whitespace and trim
  // ---------------------------------------------------------------------------

  /** The white-space and line-terminator characters `String.prototype.trim` removes. */
  predicate IsSpace(c: char) {
    c == ' ' || c == '\t' || c == '\n' || c == '\r' || c == '\U{B}' || c == '\U{C}'
    || c == '\U{A0}' || c == '\U{FEFF}' || c == '\U{2028}' || c == '\U{2029}'
    || c == '\U{1680}' || ('\U{2000}' <= c <= '\U{200A}') || c == '\U{202F}'
    || c == '\U{205F}' || c == '\U{3000}'
  }

  /** The characters a regular expression `.` does not match. */
  predicate IsLineTerminator(c: char) {
    c == '\n' || c == '\r' || c == '\U{2028}' || c == '\U{2029}'
  }

  /** Every character of `s` is white space (so `s.trim()` is empty). */
  predicate IsBlank(s: string) {
    forall i :: 0 <= i < |s| ==> IsSpace(s[i])
  }

  function TrimStart(s: string): (r: string)
    ensures |r| <= |s| && r == s[|s| - |r|..]
    ensures r == [] || !IsSpace(r[0])
    ensures IsBlank(s[..|s| - |r|])
  {
    if |s| > 0 && IsSpace(s[0]) then
      var rest := s[1..];
      var r := TrimStart(rest);
      assert rest[|rest| - |r|..] == s[|s| - |r|..];
      assert s[..|s| - |r|] == [s[0]] + rest[..|rest| - |r|];
      r
    else s
  }

  function TrimEnd(s: string): (r: string)
    ensures |r| <= |s| && r == s[..|r|]
    ensures r == [] || !IsSpace(r[|r| - 1])
    ensures IsBlank(s[|r|..])
  {
    if |s| > 0 && IsSpace(s[|s| - 1]) then
      var init := s[..|s| - 1];
      var r := TrimEnd(init);
      assert init[..|r|] == s[..|r|];
      assert s[|r|..] == init[|r|..] + [s[|s| - 1]];
      r
    else s
  }

  /** How many leading white-space characters `s.trim()` drops. */
  function TrimOffset(s: string): nat {
    |s| - |TrimStart(s)|
  }

  /** `s.trim()`: `s` without its leading and trailing white space. */
  function Trim(s: string): (r: string)
    ensures TrimOffset(s) + |r| <= |s|
    ensures r == s[TrimOffset(s)..TrimOffset(s) + |r|]
    ensures r == [] || (!IsSpace(r[0]) && !IsSpace(r[|r| - 1]))
    ensures IsBlank(s[..TrimOffset(s)]) && IsBlank(s[TrimOffset(s) + |r|..])
  {
    var t := TrimStart(s);
    var r := TrimEnd(t);
    assert t[|r|..] == s[TrimOffset(s) + |r|..];
    r
  }

  /** `s.trim()` is empty exactly when `s` consists of white space only. */
  lemma TrimEmptyIffBlank(s: string)
    ensures Trim(s) == [] <==> IsBlank(s)
  {
    var k := TrimOffset(s);
    if Trim(s) == [] {
      // a non-empty TrimStart(s) would start with a kept character
      assert TrimStart(s) == [];
      forall i | 0 <= i < |s| ensures IsSpace(s[i]) {
        assert s[i] == s[..k][i];
      }
    } else {
      assert s[k] == Trim(s)[0];
    }
  }

  // ---------------------------------------------------------------------------
  // Case mapping
  // ---------------------------------------------------------------------------

  /**
    `toLowerCase` on one code unit, for the letters the modelled texts use:
    ASCII, Latin-1 capitals and the Polish capitals Ą Ć Ę Ł Ń Ś Ź Ż (Ó is Latin-1).
   */
  function LowerChar(c: char): char {
    if 'A' <= c <= 'Z' then (c as int + 32) as char
    else if '\U{C0}' <= c <= '\U{DE}' && c != '\U{D7}' then (c as int + 32) as char
    else if c == '\U{104}' || c == '\U{106}' || c == '\U{118}' || c == '\U{141}'
         || c == '\U{143}' || c == '\U{15A}' || c == '\U{179}' || c == '\U{17B}'
    then (c as int + 1) as char
    else c
  }

  /** `s.toLowerCase()`, code unit by code unit. */
  function Lower(s: string): (r: string)
    ensures |r| == |s|
    ensures forall i :: 0 <= i < |s| ==> r[i] == LowerChar(s[i])
  {
    seq(|s|, i requires 0 <= i < |s| => LowerChar(s[i]))
  }

  /** Lower-casing works code unit by code unit, so it distributes over concatenation. */
  lemma LowerAppend(a: string, b: string)
    ensures Lower(a + b) == Lower(a) + Lower(b)
  {
    var l, r := Lower(a + b), Lower(a) + Lower(b);
    forall i | 0 <= i < |l| ensures l[i] == r[i] {
      if i < |a| {
        assert (a + b)[i] == a[i];
      } else {
        assert (a + b)[i] == b[i - |a|];
      }
    }
  }

  // ---------------------------------------------------------------------------
  // Searching
  // ---------------------------------------------------------------------------

  /** The least index in `[start, end)` satisfying `p`, if any. */
  function FindFrom(start: nat, end: nat, p: nat -> bool): (r: Option<nat>)
    decreases end - start
    ensures r.Some? ==> start <= r.value < end && p(r.value)
    ensures r.Some? ==> forall j :: start <= j < r.value ==> !p(j)
    ensures r.None? ==> forall j :: start <= j < end ==> !p(j)
  {
    if start >= end then None
    else if p(start) then Some(start)
    else FindFrom(start + 1, end, p)
  }

  /** `sub` occurs in `s` starting at index `i`. */
  predicate OccursAt(s: string, sub: string, i: nat) {
    i + |sub| <= |s| && s[i..i + |sub|] == sub
  }

  /** `s.indexOf(sub, from)`: the first occurrence of `sub` at or after `from`. */
  function IndexOf(s: string, sub: string, from: nat): (r: Option<nat>)
    ensures r.Some? ==> from <= r.value && OccursAt(s, sub, r.value)
    ensures r.Some? ==> forall j :: from <= j < r.value ==> !OccursAt(s, sub, j)
    ensures r.None? ==> forall j :: from <= j ==> !OccursAt(s, sub, j)
  {
    var p := (i: nat) => OccursAt(s, sub, i);
    var r := FindFrom(from, |s| + 1, p);
    assert forall j: nat :: p(j) == OccursAt(s, sub, j);
    r
  }

  /** `s.includes(sub)`. */
  predicate Contains(s: string, sub: string) {
    IndexOf(s, sub, 0).Some?
  }

  lemma ContainsIff(s: string, sub: string)
    ensures Contains(s, sub) <==> exists i: nat :: OccursAt(s, sub, i)
  {
    if Contains(s, sub) {
      var i := IndexOf(s, sub, 0).value;
      assert OccursAt(s, sub, i);
    }
  }

  /** `s.includes(sub)` holds whenever `sub` sits at a known index. */
  lemma ContainsAt(s: string, sub: string, i: nat)
    requires OccursAt(s, sub, i)
    ensures Contains(s, sub)
  {
    ContainsIff(s, sub);
  }

  /** `s.startsWith(p)`. */
  predicate StartsWith(s: string, p: string) {
    |p| <= |s| && s[..|p|] == p
  }

  /** `s.endsWith(p)`. */
  predicate EndsWith(s: string, p: string) {
    |p| <= |s| && s[|s| - |p|..] == p
  }

  // ---------------------------------------------------------------------------
  // Split and join
  // ---------------------------------------------------------------------------

  /** `s.split(sep)` for a non-empty string separator. */
  function Split(s: string, sep: string): (parts: seq<string>)
    requires |sep| > 0
    ensures |parts| >= 1
    decreases |s|
  {
    match IndexOf(s, sep, 0)
    case None => [s]
    case Some(i) => [s[..i]] + Split(s[i + |sep|..], sep)
  }

  /** `parts.join(sep)`. */
  function Join(parts: seq<string>, sep: string): string
    requires |parts| >= 1
  {
    if |parts| == 1 then parts[0] else parts[0] + sep + Join(parts[1..], sep)
  }

  /** Splitting and re-joining with the same separator gives back the text. */
  lemma {:induction false} JoinSplit(s: string, sep: string)
    requires |sep| > 0
    ensures Join(Split(s, sep), sep) == s
    decreases |s|
  {
    match IndexOf(s, sep, 0)
    case None =>
    case Some(i) =>
      var head, rest := s[..i], s[i + |sep|..];
      var parts := [head] + Split(rest, sep);
      assert Split(s, sep) == parts;
      assert parts[0] == head && parts[1..] == Split(rest, sep);
      JoinSplit(rest, sep);
      assert Join(parts, sep) == head + sep + rest;
      assert s == head + sep + rest by {
        assert s[i..i + |sep|] == sep;
      }
  }

  /** No piece of `s.split(sep)` contains the separator. */
  lemma {:induction false} SplitPiecesAvoidSeparator(s: string, sep: string)
    requires |sep| > 0
    ensures forall k :: 0 <= k < |Split(s, sep)| ==> !Contains(Split(s, sep)[k], sep)
    decreases |s|
  {
    var parts := Split(s, sep);
    match IndexOf(s, sep, 0)
    case None =>
      ContainsIff(s, sep);
    case Some(i) =>
      var rest := s[i + |sep|..];
      SplitPiecesAvoidSeparator(rest, sep);
      assert parts[1..] == Split(rest, sep);
      var head := s[..i];
      forall j: nat ensures !OccursAt(head, sep, j) {
        if j + |sep| <= |head| {
          assert j < i && !OccursAt(s, sep, j);
          assert head[j..j + |sep|] == s[j..j + |sep|];
        }
      }
      ContainsIff(head, sep);
      forall k | 0 <= k < |parts| ensures !Contains(parts[k], sep) {
        if k > 0 {
          assert parts[k] == Split(rest, sep)[k - 1];
        }
      }
  }

  /** The elements of `parts` whose trimmed form is non-empty, in order (`filter(f => f.trim().length > 0)`). */
  function NonBlank(parts: seq<string>): (r: seq<string>)
    ensures |r| <= |parts|
    ensures forall x :: x in r <==> x in parts && |Trim(x)| > 0
  {
    if parts == [] then []
    else if |Trim(parts[0])| > 0 then [parts[0]] + NonBlank(parts[1..])
    else NonBlank(parts[1..])
  }

  /** A single piece is kept exactly when its trimmed form is non-empty. */
  lemma NonBlankSingle(x: string)
    ensures NonBlank([x]) == if |Trim(x)| > 0 then [x] else []
  {
    assert [x][1..] == [];
  }

  /** Filtering keeps the order: the kept pieces of `a + b` are those of `a`, then those of `b`. */
  lemma {:induction false} NonBlankAppend(a: seq<string>, b: seq<string>)
    ensures NonBlank(a + b) == NonBlank(a) + NonBlank(b)
    decreases |a|
  {
    if a != [] {
      assert (a + b)[0] == a[0] && (a + b)[1..] == a[1..] + b;
      NonBlankAppend(a[1..], b);
    } else {
      assert a + b == b;
    }
  }
}

=== FILE: video_chat.dfy ===
/**
  The chat view (src/renderer/components/VideoChat.jsx): the avatar state it
  derives from the listening/speaking flags, the delayed automatic start of
  listening after an assistant message, and the microphone button. React's
  effects and timers are modelled as events: a change of props re-runs the
  effects, and the two timers fire when the environment says so.
 */
module VideoChat {
  import opened Base
  import AsciiAnimations

  datatype Message = Message(kind: string, text: string)

  datatype Props = Props(isListening: bool, isSpeaking: bool, latest: Option<Message>)

  /** The animation the bot shows: listening wins over speaking, and neither is idle. */
  function BotState(p: Props): (state: string)
    ensures p.isListening ==> state == "listening"
    ensures !p.isListening && p.isSpeaking ==> state == "talking"
    ensures !p.isListening && !p.isSpeaking ==> state == "idle"
  {
    if p.isListening then "listening" else if p.isSpeaking then "talking" else "idle"
  }

  /** The derived state is always one the avatar can draw. */
  lemma BotStateDrawable(p: Props)
    ensures BotState(p) in AsciiAnimations.AnimationTypes
  {
  }

  /** When the 2-second check fires, listening is scheduled only if the bot is quiet and the assistant spoke last. */
  predicate AutoListen(p: Props) {
    !p.isListening && !p.isSpeaking && p.latest.Some? && p.latest.value.kind == "assistant"
  }

  /**
    The component between renders: the props of the last render, the state
    the effect set, whether the 2-second check timer is armed, and how many
    1-second `onStartListening` timers are pending.
   */
  datatype View = View(props: Props, botState: string, checkArmed: bool, startsDue: nat)

  /** First render: the effects run at once, so the state is derived and the check is armed. */
  function Mount(p: Props): (v: View)
    ensures v.botState == BotState(p) && v.checkArmed && v.startsDue == 0
  {
    View(p, BotState(p), true, 0)
  }

  datatype Event =
    | Rerender(props: Props)   // the parent renders with these props
    | CheckFires               // the 2-second timer
    | StartFires               // a 1-second timer

  /**
    One event. Every render re-runs the check effect: its dependencies include
    the `onStartListening` callback, which the parent creates anew on each of
    its renders, so the check timer is cleared and set anew even when the flags
    and the message are unchanged. The state is derived again from the flags.
    The 1-second timers are never cleared. Returns the view and how many times
    `onStartListening` ran.
   */
  function Step(v: View, e: Event): (r: (View, nat))
    ensures r.1 <= 1
    ensures r.0.botState == (if e.Rerender? then BotState(e.props) else v.botState)
    ensures e.Rerender? ==> r.0.checkArmed && r.0.startsDue == v.startsDue && r.1 == 0
    ensures e.CheckFires? ==> r.0.startsDue == v.startsDue + (if v.checkArmed && AutoListen(v.props) then 1 else 0)
    ensures r.1 == 1 <==> e.StartFires? && v.startsDue > 0
  {
    match e
    case Rerender(p) =>
      (View(p, BotState(p), true, v.startsDue), 0)
    case CheckFires =>
      if !v.checkArmed then (v, 0)
      else (v.(checkArmed := false, startsDue := v.startsDue + if AutoListen(v.props) then 1 else 0), 0)
    case StartFires =>
      if v.startsDue > 0 then (v.(startsDue := v.startsDue - 1), 1) else (v, 0)
  }

  function Run(v: View, events: seq<Event>): (r: (View, nat))
    decreases |events|
  {
    if events == [] then (v, 0)
    else
      var first := Step(v, events[0]);
      var rest := Run(first.0, events[1..]);
      (rest.0, first.1 + rest.1)
  }

  /** The shown state always matches the flags of the last render. */
  lemma {:induction false} BotStateFollowsProps(v: View, events: seq<Event>)
    requires v.botState == BotState(v.props)
    ensures Run(v, events).0.botState == BotState(Run(v, events).0.props)
    decreases |events|
  {
    if events != [] {
      BotStateFollowsProps(Step(v, events[0]).0, events[1..]);
    }
  }

  /** Every run of `onStartListening` was scheduled by a check that found the bot quiet after an assistant reply; the rest are still pending. */
  lemma {:induction false} StartsBoundedByChecks(v: View, events: seq<Event>)
    ensures Run(v, events).1 + Run(v, events).0.startsDue == v.startsDue + Quiet(v, events)
    decreases |events|
  {
    if events != [] {
      StartsBoundedByChecks(Step(v, events[0]).0, events[1..]);
    }
  }

  /** How many events are a check firing while armed with `AutoListen` props. */
  function Quiet(v: View, events: seq<Event>): nat
    decreases |events|
  {
    if events == [] then 0
    else (if events[0].CheckFires? && v.checkArmed && AutoListen(v.props) then 1 else 0)
         + Quiet(Step(v, events[0]).0, events[1..])
  }

  /** A start already scheduled still runs after the user begins speaking: the 1-second timer is not cleared. */
  lemma ScheduledStartSurvivesRerender(v: View, p: Props)
    requires v.startsDue > 0
    ensures Run(v, [Rerender(p), StartFires]).1 == 1
  {
    var v1 := Step(v, Rerender(p)).0;
    assert v1.startsDue == v.startsDue;
    assert [Rerender(p), StartFires][1..] == [StartFires];
    assert Run(v1, [StartFires]).1 == 1;
  }

  /**
    A render with unchanged props still re-arms the check: after a check has
    already fired, the next render and check schedule one more start while
    the bot stays quiet after an assistant message.
   */
  lemma RerenderSchedulesAgain(v: View)
    requires !v.checkArmed && AutoListen(v.props)
    ensures Run(v, [Rerender(v.props), CheckFires]).0.startsDue == v.startsDue + 1
    ensures Run(v, [CheckFires]).0.startsDue == v.startsDue
  {
    var v1 := Step(v, Rerender(v.props)).0;
    assert [Rerender(v.props), CheckFires][1..] == [CheckFires];
    assert Run(v1, [CheckFires]).0 == Step(v1, CheckFires).0;
  }

  /** The microphone button is disabled while listening or speaking. */
  function MicDisabled(p: Props): (disabled: bool)
    ensures disabled <==> BotState(p) != "idle"
  {
    p.isListening || p.isSpeaking
  }

  const ListeningLabel: string := "Słucham..."
  const IdleLabel: string := "Naciśnij, aby mówić"

  /** The button's text. */
  function MicLabel(p: Props): (caption: string)
    ensures caption == ListeningLabel <==> BotState(p) == "listening"
    ensures caption == IdleLabel <==> BotState(p) != "listening"
  {
    if p.isListening then ListeningLabel else IdleLabel
  }
}
